=== FILE: README.md ===
# claat Markdown parser — a Dafny model

This project models the core of the claat (Codelabs as a Thing) Markdown
parser, `claat/parser/md/parse.go`. The parser turns the HTML that a
Markdown document renders to into a `Codelab`: a title, a metadata block
(id, authors, categories, environments, tags, …), and a sequence of steps,
each with a title, an optional duration, tags and a tree of content nodes.
It also parses "fragments", snippets that must not define steps or import
other files.

The model works on an already-parsed element tree (`Walker.Elem`) and
follows the source's walk:

- an `h1` sets the title;
- the first paragraph is the metadata block, and a block without an id
  fails the parse;
- an `h2` starts a new step;
- runs of paragraphs holding `key: value` lines are step instructions
  (`duration`, `environment`);
- everything else becomes content nodes of the current step.

At the end every step's tags are sorted and deduplicated, and the codelab
duration is the total in whole minutes.

Modules, following the structure of the Go file:

| file | module | what it holds |
|---|---|---|
| `wrappers.dfy` | `Wrappers` | `Option`, `Result` |
| `text.dfy` | `Text` | Go's `strings` helpers on `seq<char>`: `TrimSpace`, `ToLower`, `Split`, `SplitN`, `Join` |
| `numeric.dfy` | `Numeric` | `strconv.Atoi` with its syntax and range errors, `Itoa`, Go's truncating division |
| `order.dfy` | `Order` | byte-wise string order, sorting, order-preserving dedupe (`util.Unique`) |
| `duration.dfy` | `Duration` | `roundDuration` and the `hh:mm:ss` step duration parser |
| `slug.dfy` | `Slug` | `slug` |
| `fields.dfy` | `Fields` | `standardSplit`, `stringSlice`, `toLowerSlice`, the environment tag list |
| `types.dfy` | `Types` | the node, step and codelab records of the `types` package |
| `metadata.dfy` | `Metadata` | line scanning, the `key: value` metadata block, `addMetadataToCodelab`, `parseMetadata` |
| `imports.dfy` | `Imports` | `convertImports`, `fragmentImport`, HTML escaping |
| `builders.dfy` | `Builders` | node builders: header, list, table cell, survey, button, image/iframe |
| `docstate.dfy` | `DocStates` | `docState`, `push`/`pop`, `appendNodes`, `metaStep`, `newStep`, `finalizeStep` |
| `walker.dfy` | `Walker` | `parseTop`/`parseSubtree`/`parseNode`, `parseMarkup`, `parsePartialMarkup` |

## Model

| member | source | states |
|---|---|---|
| Numeric.Atoi | claat/parser/md/parse.go:585-592 | A value is parsed only from an optionally signed digit string, and it lies in the int64 range. |
| Numeric.AtoiItoa | claat/parser/md/parse.go:585-592 | Every decimal rendering of a value up to MaxInt64 parses back to that value. |
| Numeric.AtoiRejects | claat/parser/md/parse.go:585-592 | A string holding a non-digit anywhere after an optional leading sign does not parse. |
| Numeric.AtoiSigned | claat/parser/md/parse.go:585-592 | An optionally signed digit string parses to its signed value when that fits in int64. Otherwise it is a range error carrying the bound on its side. |
| Numeric.AtoiTrailing | claat/parser/md/parse.go:585-592 | Digits followed by any other character are a syntax error, unless the digits alone already overflow an unsigned 64-bit accumulator. |
| Numeric.TruncDiv | claat/parser/md/parse.go:907-919 | Go's integer division truncates toward zero, for both signs of the dividend. |
| Duration.RoundDuration | claat/parser/md/parse.go:907-919 | The rounded duration is a whole number of minutes and the least one that is not below the input. |
| Duration.RoundDurationWholeMinutes | claat/parser/md/parse.go:907-919 | A duration that is already whole minutes is unchanged. |
| Duration.DurationOneField | claat/parser/md/parse.go:488-502 | A single number is read as minutes. |
| Duration.DurationTwoFields | claat/parser/md/parse.go:488-502 | "a:b" is read as minutes and seconds, using the last two factors. |
| Duration.DurationThreeFields | claat/parser/md/parse.go:488-502 | "a:b:c" is read as hours, minutes and seconds. Extra colons stay in the third field, which then does not parse and contributes nothing. |
| Text.JoinSplit | claat/parser/md/parse.go:408-414 | Splitting on a separator and joining back gives the original string. |
| Text.SplitJoin | claat/parser/md/parse.go:408-414 | Joining a non-empty list of separator-free parts and splitting again gives the parts back. |
| Text.JoinSplitN | claat/parser/md/parse.go:474-479 | Joining the pieces of `SplitN` gives the original string. |
| Text.SplitAtFirst | claat/parser/md/parse.go:474-479 | `SplitN` and `Split` cut at the first separator and continue on the rest. |
| Text.LowerIdempotent | claat/parser/md/parse.go:901-905 | Lower-casing twice is lower-casing once. |
| Text.TrimSpaceOfTrimmed | claat/parser/md/parse.go:408-414 | Trimming a trimmed string changes nothing. |
| Order.Sort | claat/parser/md/parse.go:281-289 | The result is sorted and a permutation of the input. |
| Order.Unique | claat/parser/md/parse.go:281-289 | The result has no duplicates and the same members as the input. |
| Order.UniqueFirstOrder | claat/parser/md/parse.go:504-505 | The dedupe keeps first occurrences in their original order: of two kept strings, the one that occurs first in the input comes first. |
| Order.Normalize | claat/parser/md/parse.go:275-276 | De-duplicating, then sorting, gives a strictly increasing list with the same members. |
| Order.StrictlySortedUnique | claat/parser/md/parse.go:281-289 | Two strictly sorted lists with the same members are equal. |
| Order.NormalizeSetDetermined | claat/parser/md/parse.go:281-289 | The finalized tag list depends only on the set of tags, not on their order or repeats. |
| Order.StrLtTransitive | claat/parser/md/parse.go:281-289 | The string order used by `sort.Strings` is transitive. |
| Order.StrLtTotal | claat/parser/md/parse.go:281-289 | Any two distinct strings are ordered one way or the other. |
| Slug.Slug | claat/parser/md/parse.go:871-886 | The slug contains only ASCII lower-case letters, digits and dashes, never two dashes in a row. It never starts with a dash. |
| Slug.SlugKeepsAlnums | claat/parser/md/parse.go:871-886 | The ASCII letters and digits of the lower-cased input survive, in order. |
| Slug.SlugIdempotent | claat/parser/md/parse.go:871-886 | The slug of a slug is itself. |
| Slug.SlugEmpty | claat/parser/md/parse.go:871-886 | The slug is empty exactly when the lower-cased input has no ASCII letter or digit. |
| Fields.StandardSplit | claat/parser/md/parse.go:408-414 | There is one field per comma-separated piece. Every field is trimmed, lower-case and comma-free. |
| Fields.StandardSplitOfJoin | claat/parser/md/parse.go:408-414 | For any comma-free pieces joined with commas, there is one entry per piece, and entry i is piece i trimmed and lower-cased. |
| Fields.StandardSplitJoin | claat/parser/md/parse.go:408-414 | When every piece is already trimmed and lower-case, joining the fields with commas gives the input back. |
| Fields.StringSlice | claat/parser/md/parse.go:889-899 | At most one entry per comma-separated piece. Every entry is non-empty and trimmed. |
| Fields.StringSliceMembers | claat/parser/md/parse.go:889-899 | A string is an entry exactly when it is the trimmed, non-empty form of some piece. |
| Fields.StringSliceOfClean | claat/parser/md/parse.go:889-899 | Splitting a comma-joined list of non-empty trimmed fields gives the fields back. |
| Fields.NonEmptyTrimmedConcat | claat/parser/md/parse.go:889-899 | Dropping empty fields commutes with concatenation, so the kept fields stay in their original order. |
| Fields.StringSliceOfJoin | claat/parser/md/parse.go:889-899 | For any comma-free fields joined with commas, the result is those fields trimmed, with the empty ones dropped, in order. |
| Fields.StringSliceJoinConcat | claat/parser/md/parse.go:889-899 | The entries from an earlier part of the list come before those from a later part. |
| Fields.ToLowerSlice | claat/parser/md/parse.go:901-905 | Each entry is lower-cased in place: the number of entries and each entry's length are kept, and every character is the lower-case form of the original one. |
| Fields.ToLowerSliceIdempotent | claat/parser/md/parse.go:901-905 | Lower-casing a list twice is lower-casing it once. |
| Fields.EnvTagsAsWrittenKeepsDuplicates | claat/parser/md/parse.go:503-506 | As written, a field followed by its lower-case variant gives two equal entries. |
| Fields.EnvTags | claat/parser/md/parse.go:503-506 | The corrected environment list (see Findings), which the walk does not use. It has no duplicates. Its entries are non-empty, trimmed and lower-case. A string is present exactly when some field of the value lowers to it. |
| Fields.EnvTagsAsWritten | claat/parser/md/parse.go:503-506 | The environment list as the code builds it: fields de-duplicated, then lower-cased. Entries are non-empty, trimmed, lower-case and comma-free, at most one per comma-separated piece. A string is present exactly when some field of the value lowers to it. |
| Fields.EnvTagsSameMembers | claat/parser/md/parse.go:503-506 | The as-written and the corrected environment lists have the same members. |
| Fields.EnvTagsFinalizeAlike | claat/parser/md/parse.go:503-506 | Once tags are sorted and de-duplicated at the end of a step, appending either list gives the same tags. |
| Metadata.ScanLinesOfTerminated | claat/parser/md/parse.go:388-389 | Scanning newline-terminated, carriage-return-free lines gives the lines back. |
| Metadata.ScanLinesOfUnterminated | claat/parser/md/parse.go:388-389 | The same holds when the last line has no newline. |
| Metadata.MetadataLine | claat/parser/md/parse.go:75 | A line matches exactly when it has a colon with text on both sides. The key is lower-cased and trimmed, and the value is trimmed. |
| Metadata.MetadataLineSplit | claat/parser/md/parse.go:390-397 | A matching line is split at its leftmost colon with text on both sides. The key is the trimmed, lower-cased text before it; the value is the trimmed text after it. |
| Metadata.MetadataLineOf | claat/parser/md/parse.go:390-397 | `key: value` with a colon-free key is read as the lowered key and the trimmed value. |
| Metadata.FoldLastWins | claat/parser/md/parse.go:389-399 | A key is in the metadata map exactly when some line sets it. Its value comes from the last line that sets it. |
| Metadata.LastSetterUnique | claat/parser/md/parse.go:389-399 | The last line setting a key is unique. |
| Metadata.ApplyKey | claat/parser/md/parse.go:418-470 | An unknown key that is not passed through changes nothing. Only environments and tags touch the tag list. Steps, title and duration are never touched. |
| Metadata.ApplyKeysAgrees | claat/parser/md/parse.go:420-468 | Applying the keys one by one, in any duplicate-free order, agrees up to tag order with a closed form in which each field takes its key's value. |
| Metadata.AddMetadataOrderFree | claat/parser/md/parse.go:420-468 | The result does not depend on map iteration order, apart from the order of tags. |
| Metadata.AddMetadataId | claat/parser/md/parse.go:431-433 | The codelab id is the map's id value. |
| Metadata.ParseMetadata | claat/parser/md/parse.go:384-404 | On failure the error is the missing-id error. On success the id is non-empty, steps and title are unchanged, and no tag is lost. |
| Metadata.ParseMetadataId | claat/parser/md/parse.go:400-402 | Parsing succeeds exactly when the last line setting `id` gives it a non-empty value. |
| Metadata.ParseMetadataSetsId | claat/parser/md/parse.go:384-404 | On success the codelab id is the map's id value. |
| Imports.ImportPath | claat/parser/md/parse.go:69 | A matched path has no angle brackets or parentheses before its last three characters. It ends in "md" after a character that is not a newline. |
| Imports.ImportPathComplete | claat/parser/md/parse.go:69 | `<<path>>` followed by blanks matches, with exactly that path. |
| Imports.ImportPathSound | claat/parser/md/parse.go:69 | Any matching line is `<<path>>` followed by blanks. |
| Imports.UnescapeEscape | claat/parser/md/parse.go:930 | HTML escaping of the five special characters is undone by unescaping. |
| Imports.ConvertImportsLines | claat/parser/md/parse.go:921-940 | Conversion works line by line and keeps the number of lines. |
| Imports.ConvertLineKeeps | claat/parser/md/parse.go:925-936 | A line that is not an import directive is left unchanged. |
| Imports.ConvertImportsIdentity | claat/parser/md/parse.go:921-940 | Content without directives is unchanged. |
| Imports.DirectiveRoundTrip | claat/parser/md/parse.go:761-767 | A directive becomes a comment marker. The import node read back from the marker unescapes to the original path. |
| Imports.FragmentImport | claat/parser/md/parse.go:761-767 | An import node has a non-empty url, and the data prefix followed by that url is the marker text. |
| Imports.FragmentImportOfMarker | claat/parser/md/parse.go:761-767 | The marker of a path yields an import of the escaped path. |
| Builders.FindAttr | claat/parser/md/parse.go:588 | An attribute is found exactly when some attribute has the key, and the result is the first match. |
| Builders.Span | claat/parser/md/parse.go:588-595 | A span is an int64. |
| Builders.SpanOfItoa | claat/parser/md/parse.go:588-595 | A decimal span attribute is read as its value. |
| Builders.SpanDefault | claat/parser/md/parse.go:588-595 | A missing or non-numeric span is 1. |
| Builders.SpanOfSigned | claat/parser/md/parse.go:588-595 | A signed decimal span that fits in int64 is kept as written, zero and negative values included. One out of range is 1. |
| Builders.TableCell | claat/parser/md/parse.go:585-601 | Exactly cells with content are kept; the content and spans come from the attributes. |
| Builders.ListType | claat/parser/md/parse.go:667-669 | An explicit type attribute wins. Without one, an ordered list gets "1" and an unordered list gets no type. |
| Builders.ListStartValues | claat/parser/md/parse.go:670-671 | A decimal start attribute is read as its number. A missing or non-numeric one gives 0. |
| Builders.ListStartSigned | claat/parser/md/parse.go:671 | A signed decimal start that fits in int64 is its value. One out of range is clamped to the bound on its side, as Atoi returns it with the error. |
| Builders.ListStartTrailing | claat/parser/md/parse.go:671 | A start such as "1a", digits followed by anything else, reads as 0 and not as its digits. |
| Builders.ListKindAfter | claat/parser/md/parse.go:688-695 | A list after a "learn"/"covered" header is a checklist, and one after a FAQ header is a FAQ. |
| Builders.ListAfterHeader | claat/parser/md/parse.go:528-533 | The three special header texts, in any case, make the next list a checklist or FAQ. |
| Builders.HeaderKindIgnoresCase | claat/parser/md/parse.go:528-533 | The header kind ignores letter case. |
| Builders.BuildList | claat/parser/md/parse.go:672-697 | There is no list exactly when every item is empty. Otherwise its items are the non-empty ones in their order, its kind follows the last node, and its type and start come from the attributes. |
| Builders.NonEmptyItems | claat/parser/md/parse.go:680-683 | Exactly the non-empty items are kept. |
| Builders.NonEmptyItemsConcat | claat/parser/md/parse.go:673-684 | Dropping empty items commutes with concatenation, so the kept items stay in document order. |
| Builders.BuildHeader | claat/parser/md/parse.go:520-535 | There is no header exactly when it has no children. Otherwise it keeps the level and children, and its kind comes from its text. |
| Builders.SurveyOptions | claat/parser/md/parse.go:629-639 | The options are exactly the `value` attributes of the inputs. |
| Builders.SurveyOptionsConcat | claat/parser/md/parse.go:629-639 | The options of concatenated inputs are the options of each, in input order, repeats kept. |
| Builders.ValuesOfConcat | claat/parser/md/parse.go:631-635 | The `value` attributes of concatenated attribute lists are those of each, in order, repeats kept. |
| Builders.SurveyIdNumber | claat/parser/md/parse.go:624-625 | A survey id is the codelab id, a dash and the survey count in decimal. |
| Builders.SurveyIdInjective | claat/parser/md/parse.go:624-625 | Distinct counts give distinct survey ids. |
| Builders.BuildSurvey | claat/parser/md/parse.go:607-626 | A survey with options bumps the counter and takes the id for the new count. Without options, nothing is built or counted. |
| Builders.IsDownloadOfPrefix | claat/parser/md/parse.go:803-804 | Anchor text starting with "download " (with the space), in any case, makes a download button. |
| Builders.ButtonKind | claat/parser/md/parse.go:786-810 | A link button needs an anchor with an href and content. Its download flag follows the anchor text. Without an anchor it is text. |
| Builders.IframeUrl | claat/parser/md/parse.go:769-781 | An iframe is built only for an https url. |
| Builders.ImageKind | claat/parser/md/parse.go:702-748 | YouTube exactly for a youtube alt with an id. An iframe only for a whitelisted https url. An image only with a non-empty src. |
| Builders.IframeOnlyHttps | claat/parser/md/parse.go:769-781 | For a whitelisted embed, the scheme alone decides between an iframe and nothing. |
| DocStates.NewDocState | claat/parser/md/parse.go:182-186 | A fresh state is valid, has no step and no duration. |
| DocStates.Push | claat/parser/md/parse.go:188-194 | Push saves the cursor on the stack and changes nothing else. |
| DocStates.Pop | claat/parser/md/parse.go:196-204 | Pop restores the saved cursor. An empty stack is left alone. |
| DocStates.PopPush | claat/parser/md/parse.go:188-204 | Popping after a push restores the state, wherever the cursor moved in between. |
| DocStates.AppendNodes | claat/parser/md/parse.go:206-217 | Nodes are appended to the current step, tagged with the environment, and the last of them is remembered. Without a step, or with no nodes, nothing changes. |
| DocStates.AppendNodesNoEnv | claat/parser/md/parse.go:206-217 | With no environment, the step content grows by exactly the nodes. |
| DocStates.Instruction | claat/parser/md/parse.go:474-487 | There is an instruction exactly when the trimmed text has a colon. The key is lowered and trimmed, and the value is trimmed. |
| DocStates.InstructionOf | claat/parser/md/parse.go:474-487 | `k:v` with a colon-free key is the instruction (lowered k, trimmed v). |
| DocStates.MetaStep | claat/parser/md/parse.go:473-511 | Instructions keep the steps' titles and the codelab's fields other than steps and tags. Earlier steps' tags are unchanged and codelab tags only grow. Text that is not a duration or environment instruction changes nothing. |
| DocStates.MetaStepDuration | claat/parser/md/parse.go:488-502 | A duration instruction sets the rounded duration on the step. It adds the same amount to the total, which stays whole minutes. |
| DocStates.MetaStepEnvironment | claat/parser/md/parse.go:503-510 | An environment instruction sets the environment to the value's fields as the code builds them (de-duplicated, then lower-cased). It appends them to the step and codelab tags. |
| DocStates.SetDuration | claat/parser/md/parse.go:501-502 | Only the current step's duration and the total change. |
| DocStates.SetEnvironment | claat/parser/md/parse.go:503-510 | The tags grow by the environment. A preceding header node is retagged; any other last node is left alone. |
| DocStates.FinalizeStep | claat/parser/md/parse.go:281-289 | Finalized tags are strictly sorted with the same members; nothing else changes. |
| DocStates.FinalizeStepIdempotent | claat/parser/md/parse.go:281-289 | Finalizing twice is finalizing once. |
| DocStates.NewStep | claat/parser/md/parse.go:373-381 | An empty title is ignored. Otherwise the previous step is finalized, a fresh step with the title is appended, earlier steps are kept, and the environment is cleared. |
| DocStates.AppendStep | claat/parser/md/parse.go:373-381 | Appending a step keeps every earlier step's title and content. |
| Walker.ParseNode | claat/parser/md/parse.go:331-369 | Parsing a node keeps the state valid and within the frame. Titles, step count and non-tag fields are kept; tags only grow. A survey bumps the counter, and an import is `fragmentImport`. |
| Walker.ParseHeading | claat/parser/md/parse.go:520-535 | A header exists exactly when its subtree yields nodes. It has the element's level, the kind of its text and its subtree's nodes, and it clears the environment. |
| Walker.ParseList | claat/parser/md/parse.go:666-697 | A list exists exactly when some `li` yields nodes. Its items are the non-empty `li` node lists in order, its kind follows the last node appended, and its type and start come from the attributes. |
| Walker.ParseTable | claat/parser/md/parse.go:560-571 | A grid exists exactly when the table has rows, with one grid row per table row. |
| Walker.ParseItems | claat/parser/md/parse.go:673-684 | There is one node list per `li` child, other children being skipped; the first `li` gives its subtree's nodes. |
| Walker.ParseRows | claat/parser/md/parse.go:562-568 | Each table row gives one grid row, in row order: the first grid row is the parsed cells of the first table row. |
| Walker.ParseCells | claat/parser/md/parse.go:574-604 | The cells are exactly the kept cells of the row's `td` node lists, in `td` order. Every kept cell has content and carries the spans of a `td` of the row. |
| Walker.TdNodes | claat/parser/md/parse.go:576-584 | There is one node list per `td` child, other children being skipped; the first `td` gives its subtree's nodes. |
| Walker.KeptCells | claat/parser/md/parse.go:585-601 | A `td` with nodes always gives its cell, with its spans. Every kept cell is some `td`'s cell, and no kept cell is empty. |
| Walker.KeptCellsSpans | claat/parser/md/parse.go:588-601 | Each kept cell's spans are those of a `td` of the row. |
| Walker.KeptCellsConcat | claat/parser/md/parse.go:576-602 | Cells are kept in `td` order: the kept cells of two runs of `td`s are those of the first run followed by those of the second. |
| Walker.KeptCellsOne | claat/parser/md/parse.go:585-601 | A single `td` gives its one cell, with its `colspan` and `rowspan`, when it has nodes, and nothing when it has none. |
| Walker.ParseSubtree | claat/parser/md/parse.go:309-324 | Walking children keeps the state valid and within the frame. |
| Walker.ParseTop | claat/parser/md/parse.go:293-305 | Top-level walking keeps the state valid and within the frame. |
| Walker.FrameTrans | claat/parser/md/parse.go:293-369 | The frame kept by the walk composes. |
| Walker.FrameKeeps | claat/parser/md/parse.go:293-369 | Within the frame, finalized earlier steps stay finalized, and step tags stay covered by codelab tags. |
| Walker.MetaRun | claat/parser/md/parse.go:475-481 | A run of instruction paragraphs is maximal and non-empty when it starts on one. |
| Walker.ParseBody | claat/parser/md/parse.go:251-272 | The walk keeps its invariant: earlier steps are finalized and every step tag is a codelab tag. |
| Walker.Advance | claat/parser/md/parse.go:251-272 | One round consumes between one element and the rest, and keeps the invariant. |
| Walker.ReadMetadata | claat/parser/md/parse.go:259-263 | The metadata paragraph fails exactly when `parseMetadata` fails, with the missing-id error. On success the id is set. |
| Walker.AdvanceBeforeStep | claat/parser/md/parse.go:268-271 | Before the first step, any other element is skipped without effect. |
| Walker.AdvanceFails | claat/parser/md/parse.go:259-263 | Before the id is known, a round fails exactly on a paragraph that does not set an id. |
| Walker.ParseBodySucceeds | claat/parser/md/parse.go:251-272 | Once the id is known the walk cannot fail, and the id stays. |
| Walker.ParseBodyFails | claat/parser/md/parse.go:251-272 | The walk fails exactly when the first paragraph seen before any id fails to set one. |
| Walker.ParseBodyTitle | claat/parser/md/parse.go:254-258 | The title is the first non-empty `h1` text. |
| Walker.ParseBodySteps | claat/parser/md/parse.go:264-266 | The step titles are exactly the non-empty `h2` texts, in order. |
| Walker.Finish | claat/parser/md/parse.go:274-277 | All step tags and codelab tags end up strictly sorted. The codelab tags keep their members and cover every step's tags. The duration is the total in minutes. |
| Walker.FinalizeLastTags | claat/parser/md/parse.go:274 | Finalizing the last step leaves every step's tags strictly sorted with the same members. |
| Walker.ParseMarkup | claat/parser/md/parse.go:243-278 | A missing body is an error. A parsed codelab has sorted, deduplicated tags that cover every step's tags. |
| Walker.ParseMarkupFails | claat/parser/md/parse.go:243-278 | A document fails exactly when its metadata block sets no id, and the error is the missing-id error. |
| Walker.ParseMarkupOutline | claat/parser/md/parse.go:243-278 | A parsed codelab's title is the first `h1` and its steps are the `h2`s, in order. |
| Walker.ParseFragmentBody | claat/parser/md/parse.go:148-157 | A fragment walk keeps the frame and can fail only with the steps error. |
| Walker.FragmentAdvance | claat/parser/md/parse.go:148-157 | A round never consumes a step heading. |
| Walker.ParsePartialMarkup | claat/parser/md/parse.go:140-164 | A missing body is an error. A parsed fragment contains no import. |
| Walker.FragmentBodyFails | claat/parser/md/parse.go:148-157 | A fragment walk fails exactly when the fragment has an `h1` or `h2`. |
| Walker.FragmentErrors | claat/parser/md/parse.go:148-157 | A fragment fails with the steps error exactly when it has an `h1` or `h2`. One without them either succeeds or fails with the imports error. |
| Walker.FragmentBodyOfLeaves | claat/parser/md/parse.go:148-157 | A fragment of plain leaves appends exactly their nodes. |
| Walker.FragmentOfLeaves | claat/parser/md/parse.go:140-164 | A fragment of plain leaves yields exactly their nodes, or the import error if one of them is an import. |

## Left out

- I/O and rendering are not modelled. `Parse`, `ParseFragment` and `init` read a stream, and `renderToHTML` runs the Blackfriday Markdown renderer. `html.Parse` builds the DOM. The model starts from the element tree (`Walker.Elem`) and the content of a metadata paragraph.
- The element classifiers (`isHeader`, `isMeta`, `isList`, …) are not modelled as predicates. They become constructors of `Walker.Elem`. `Heading` carries `stringifyNode(…, true)` and `Meta` carries `stringifyNode(…, false)`. `Para` carries its first child's `Data`, which is what `parseMetadata` reads (parse.go:388).
- Text-level builders (`text`, `link`, `code`, `infobox`, and the image internals) are abstract. They become `Leaf(built)`, whose node is given. `Builders.ImageKind` and `Builders.ButtonKind` model only the decisions of `image` and `button`.
- A `Leaf` leaves the walk's state alone, but `button`, `link` and `infobox` walk their own subtree (parse.go:797, 820 and 542-544). Inside them the model does not apply step instructions, does not count surveys, does not clear the environment after a header, and does not advance the cursor past the infobox marker.
- `url.Parse` becomes a parameter: `Builders.Url` carries its scheme, host and text.
- `blockNodes` and `compactNodes` (in `finalizeStep`) are identity. They are outside this file.
- `util.Unique` is modelled as an order-preserving dedupe that keeps first occurrences (`Order.UniqueFirstOrder`). `types.ImportNodes` (used by `hasImport`) is modelled as a search of the top level and grid cells, in `Types.HasImport`. `clab.NewStep` is modelled as an append.
- The cursor is not modelled in the walker. `Walker` walks the element tree directly. `push`/`pop` are modelled separately, in `DocStates.Push`, `DocStates.Pop` and `DocStates.PopPush`.
- Survey group names are given directly. The lookup of the question text is not modelled.
- Duration.RoundDuration: Go computes `d.Minutes()` in floating point. The model uses exact integer division, so float rounding for huge durations is not modelled.
- Numeric.Atoi: models int64 overflow as a range error. `time.Duration` arithmetic uses unbounded integers, so a duration sum that overflows int64 is not modelled.
- Metadata.ScanLines: does not model `bufio.Scanner`'s 64 KiB line limit.
- Metadata.ParseMetadata: the missing-id error message is the fixed prefix. It leaves out the `%v` dump of the map.
- Metadata.AddMetadataOrderFree: Go visits the metadata map in an unspecified order. The model applies keys in any duplicate-free order and proves the result is the same up to tag order. It is not proved equal, since the tag order does depend on the visiting order.
- Walker.ReadMetadata: Go reads `ds.cur.FirstChild.Data` without a nil check (parse.go:388), so a metadata paragraph with no child panics. A `Para` always carries its text, so this panic is not modelled.
- Walker.ParseMarkup: its success contract does not restate the title and steps. Those are `Walker.ParseMarkupOutline`'s properties.
- Strings are sequences of Unicode code points. Invalid UTF-8 and byte-level slicing are not modelled. `strings.ToLower` is modelled for ASCII and Latin-1, and for the three special cases where lower-casing leaves that range. Other scripts are left unchanged.

Where the prose description of claat and the code differ, the model follows the code:

- The total duration adds every duration instruction. A step with two of them keeps the last as its duration, but both count towards the total.
- A slug may end with a dash: "abc!" becomes "abc-" (`Slug.SlugTrailingDash`).
- A `colspan` or `rowspan` of zero or below is kept as written.
- An environment instruction retags the preceding node when it is any header. It is not limited to checklist or FAQ headers.
- An import node stores the HTML-escaped path.

## Findings

| source | as written | input that shows it | evidently intended | confidence | as-written member | corrected member |
|---|---|---|---|---|---|---|
| claat/parser/md/parse.go:504-505 | `util.Unique` runs before `toLowerSlice`, so entries that differ only in case survive as duplicates once lowered | environment value `Web, web`: the environment becomes `["web", "web"]` and every following node is tagged `web` twice | deduplicate after lower-casing, so the environment holds distinct lower-case tags | medium; not executed. The final sort and dedupe in `finalizeStep` hide the duplicate in step and codelab tags (`Fields.EnvTagsFinalizeAlike`), but node environments keep it | Fields.EnvTagsAsWrittenKeepsDuplicates | Fields.EnvTags |

The walk follows the code as written: `DocStates.MetaStep` takes its environment from `Fields.EnvTagsAsWritten`. `Fields.EnvTags` is the corrected definition, proved to have the same members (`Fields.EnvTagsSameMembers`).

=== FILE: builders.dfy ===
/** The attribute-level rules of the node builders: table cell spans, list
    type, start and kind, survey options and ids, header kinds, download
    buttons, and the image/iframe/video choice. The element's own subtree is
    walked elsewhere; these functions see only its attributes and texts. */
module Builders {
  import opened Wrappers
  import opened Text
  import opened Numeric
  import opened Types

  datatype Attr = Attr(key: string, val: string)

  /** The first attribute with the given key, if any. */
  function FindAttr(attrs: seq<Attr>, key: string): (r: Option<string>)
    ensures r.None? <==> forall i :: 0 <= i < |attrs| ==> attrs[i].key != key
    ensures r.Some? ==>
      exists i :: 0 <= i < |attrs| && attrs[i].key == key && attrs[i].val == r.value
        && forall j :: 0 <= j < i ==> attrs[j].key != key
  {
    if attrs == [] then None
    else if attrs[0].key == key then Some(attrs[0].val)
    else
      var r := FindAttr(attrs[1..], key);
      assert forall i :: 1 <= i < |attrs| ==> attrs[i] == attrs[1..][i - 1];
      r
  }

  /** An attribute's value, empty when the attribute is missing. */
  function NodeAttr(attrs: seq<Attr>, key: string): string {
    FindAttr(attrs, key).GetOr("")
  }

  // ---------------------------------------------------------------- tables

  /** A cell span: the attribute read as an integer, 1 when it does not read
      as one (missing, not a number, or out of range). Zero and negative
      spans are kept. */
  function Span(v: string): (r: int)
    ensures MinInt64 <= r <= MaxInt64
  {
    match Atoi(v)
    case Parsed(n) => n
    case _ => 1
  }

  /** A written span reads back as itself. */
  lemma SpanOfItoa(n: nat)
    requires n <= MaxInt64
    ensures Span(Itoa(n)) == n
  {
    AtoiItoa(n);
  }

  /** A missing span, or one holding a character that is neither a digit nor
      a leading sign, is 1. */
  lemma SpanDefault(v: string, i: nat)
    requires v == "" || (i < |v| && !IsDigit(v[i]) && (i > 0 || (v[0] != '-' && v[0] != '+')))
    ensures Span(v) == 1
  {
    if v != "" {
      AtoiRejects(v, i);
    }
  }

  /** A signed span within 64 bits is kept as written, zero and negative
      ones included; one out of range falls back to 1. */
  lemma SpanOfSigned(sign: string, digits: string)
    requires sign == "" || sign == "+" || sign == "-"
    requires |digits| >= 1 && AllDigits(digits)
    ensures sign == "-" && DecimalValue(digits) <= -MinInt64 ==> Span(sign + digits) == -(DecimalValue(digits) as int)
    ensures sign != "-" && DecimalValue(digits) <= MaxInt64 ==> Span(sign + digits) == DecimalValue(digits)
    ensures sign == "-" && DecimalValue(digits) > -MinInt64 ==> Span(sign + digits) == 1
    ensures sign != "-" && DecimalValue(digits) > MaxInt64 ==> Span(sign + digits) == 1
  {
    AtoiSigned(sign, digits);
  }

  /** A table cell as the source builds it: cells whose content is empty are
      skipped, the others carry their spans. */
  function TableCell(attrs: seq<Attr>, content: seq<Node>): (r: Option<GridCell>)
    ensures r.None? <==> content == []
    ensures r.Some? ==> r.value.content == content
    ensures r.Some? ==> r.value.colspan == Span(NodeAttr(attrs, "colspan"))
    ensures r.Some? ==> r.value.rowspan == Span(NodeAttr(attrs, "rowspan"))
  {
    if content == [] then None
    else Some(GridCell(Span(NodeAttr(attrs, "colspan")), Span(NodeAttr(attrs, "rowspan")), content))
  }

  // ---------------------------------------------------------------- lists

  /** The list type: an ordered list without one gets "1". */
  function ListType(ordered: bool, attrs: seq<Attr>): (r: string)
    ensures r == "" ==> !ordered
    ensures NodeAttr(attrs, "type") != "" ==> r == NodeAttr(attrs, "type")
    ensures ordered && NodeAttr(attrs, "type") == "" ==> r == "1"
    ensures !ordered && NodeAttr(attrs, "type") == "" ==> r == ""
  {
    var typ := NodeAttr(attrs, "type");
    if ordered && typ == "" then "1" else typ
  }

  /** The list start: the attribute read as an integer, whatever error the
      reading reports. */
  function ListStart(attrs: seq<Attr>): int {
    AtoiValue(NodeAttr(attrs, "start"))
  }

  /** A start that does not begin like a number gives 0; a written one reads
      back as itself. */
  lemma ListStartValues(attrs: seq<Attr>, n: nat)
    ensures var v := NodeAttr(attrs, "start");
      (v == "" || (!IsDigit(v[0]) && v[0] != '-' && v[0] != '+')) ==> ListStart(attrs) == 0
    ensures n <= MaxInt64 && NodeAttr(attrs, "start") == Itoa(n) ==> ListStart(attrs) == n
  {
    if n <= MaxInt64 && NodeAttr(attrs, "start") == Itoa(n) {
      AtoiItoa(n);
    }
  }

  /** A signed start within 64 bits is kept; one out of range is clamped
      to the bound on its side. */
  lemma ListStartSigned(attrs: seq<Attr>, sign: string, digits: string)
    requires sign == "" || sign == "+" || sign == "-"
    requires |digits| >= 1 && AllDigits(digits)
    requires NodeAttr(attrs, "start") == sign + digits
    ensures sign == "-" && DecimalValue(digits) <= -MinInt64 ==> ListStart(attrs) == -(DecimalValue(digits) as int)
    ensures sign != "-" && DecimalValue(digits) <= MaxInt64 ==> ListStart(attrs) == DecimalValue(digits)
    ensures sign == "-" && DecimalValue(digits) > -MinInt64 ==> ListStart(attrs) == MinInt64
    ensures sign != "-" && DecimalValue(digits) > MaxInt64 ==> ListStart(attrs) == MaxInt64
  {
    AtoiSigned(sign, digits);
  }

  /** A start whose digits are followed by anything else, such as "1a",
      reads as 0, not as its leading digits. */
  lemma ListStartTrailing(attrs: seq<Attr>, sign: string, digits: string, c: char, rest: string)
    requires sign == "" || sign == "+" || sign == "-"
    requires |digits| >= 1 && AllDigits(digits) && !IsDigit(c)
    requires DecimalValue(digits) <= MaxUint64
    requires NodeAttr(attrs, "start") == sign + digits + [c] + rest
    ensures ListStart(attrs) == 0
  {
    AtoiTrailing(sign, digits, c, rest);
  }

  /** The kind of a list that directly follows the last appended node: a
      checklist after a "what you'll learn" style header, a FAQ list after a
      FAQ header. */
  function ListKindAfter(last: Option<Node>): (k: ListKind)
    ensures k == CheckItems <==> last.Some? && last.value.Header? && last.value.hkind == CheckHeader
    ensures k == FaqItems <==> last.Some? && last.value.Header? && last.value.hkind == FaqHeader
  {
    match last
    case Some(Header(CheckHeader, _, _, _)) => CheckItems
    case Some(Header(FaqHeader, _, _, _)) => FaqItems
    case _ => PlainItems
  }

  /** A list node from its non-empty items; none when every item is empty. */
  function BuildList(ordered: bool, attrs: seq<Attr>, items: seq<seq<Node>>, last: Option<Node>): (r: Option<Node>)
    ensures r.None? <==> forall i :: 0 <= i < |items| ==> items[i] == []
    ensures r.Some? ==> r.value.ItemsList? && r.value.env == []
    ensures r.Some? ==> forall i :: 0 <= i < |r.value.items| ==> r.value.items[i] != []
    ensures r.Some? ==> forall x :: x in r.value.items <==> x in items && x != []
    ensures r.Some? ==> r.value.items == NonEmptyItems(items)
    ensures r.Some? ==> r.value.lkind == ListKindAfter(last)
    ensures r.Some? ==> r.value.listType == ListType(ordered, attrs) && r.value.start == ListStart(attrs)
  {
    var kept := NonEmptyItems(items);
    if kept == [] then None
    else Some(ItemsList(ListKindAfter(last), ListType(ordered, attrs), ListStart(attrs), kept, []))
  }

  /** The items in order, without the empty ones. */
  function NonEmptyItems(items: seq<seq<Node>>): (r: seq<seq<Node>>)
    ensures forall i :: 0 <= i < |r| ==> r[i] != []
    ensures forall x :: x in r <==> x in items && x != []
    ensures r == [] <==> forall i :: 0 <= i < |items| ==> items[i] == []
  {
    if items == [] then []
    else
      var rest := NonEmptyItems(items[1..]);
      assert forall i :: 1 <= i < |items| ==> items[i] == items[1..][i - 1];
      assert forall x :: x in items <==> x == items[0] || x in items[1..];
      if items[0] == [] then rest else [items[0]] + rest
  }

  /** Dropping empty items keeps the order of the rest: filtering a
      concatenation filters each part. */
  lemma {:induction false} NonEmptyItemsConcat(a: seq<seq<Node>>, b: seq<seq<Node>>)
    ensures NonEmptyItems(a + b) == NonEmptyItems(a) + NonEmptyItems(b)
  {
    if a != [] {
      assert (a + b)[1..] == a[1..] + b;
      NonEmptyItemsConcat(a[1..], b);
    } else {
      assert a + b == b;
    }
  }

  // ---------------------------------------------------------------- headers

  const HeaderLearn := "what you'll learn"
  const HeaderCover := "what we've covered"
  const HeaderFAQ := "frequently asked questions"

  /** The kind of a header from its text, compared case-insensitively. */
  function HeaderKindOf(text: string): HeaderKind {
    var s := Lower(text);
    if s == HeaderLearn || s == HeaderCover then CheckHeader
    else if s == HeaderFAQ then FaqHeader
    else PlainHeader
  }

  /** The kind does not depend on the case of the text. */
  lemma HeaderKindIgnoresCase(text: string)
    ensures HeaderKindOf(Lower(text)) == HeaderKindOf(text)
  {
    LowerIdempotent(text);
  }

  /** A header node of the given level over its parsed content; none when the
      content is empty. */
  function BuildHeader(level: nat, text: string, children: seq<Node>): (r: Option<Node>)
    ensures r.None? <==> children == []
    ensures r.Some? ==> r.value.Header? && r.value.children == children && r.value.level == level
    ensures r.Some? ==> r.value.hkind == HeaderKindOf(text)
  {
    if children == [] then None else Some(Header(HeaderKindOf(text), level, children, []))
  }

  /** A list right after a header titled (in any case) like the learning
      objectives becomes a checklist; after the FAQ header, a FAQ list. */
  lemma ListAfterHeader(text: string, level: nat, children: seq<Node>, env: seq<string>)
    ensures Lower(text) == HeaderLearn ==> ListKindAfter(Some(Header(HeaderKindOf(text), level, children, env))) == CheckItems
    ensures Lower(text) == HeaderCover ==> ListKindAfter(Some(Header(HeaderKindOf(text), level, children, env))) == CheckItems
    ensures Lower(text) == HeaderFAQ ==> ListKindAfter(Some(Header(HeaderKindOf(text), level, children, env))) == FaqItems
  {
  }

  // ---------------------------------------------------------------- surveys

  /** Every `value` attribute of every input, in order. */
  function SurveyOptions(inputs: seq<seq<Attr>>): (r: seq<string>)
    ensures forall v :: v in r <==>
      exists i, j :: 0 <= i < |inputs| && 0 <= j < |inputs[i]| && inputs[i][j].key == "value" && inputs[i][j].val == v
  {
    if inputs == [] then []
    else
      var rest := SurveyOptions(inputs[1..]);
      assert forall i :: 1 <= i < |inputs| ==> inputs[i] == inputs[1..][i - 1];
      ValuesOf(inputs[0]) + rest
  }

  function ValuesOf(attrs: seq<Attr>): (r: seq<string>)
    ensures forall v :: v in r <==> exists j :: 0 <= j < |attrs| && attrs[j].key == "value" && attrs[j].val == v
  {
    if attrs == [] then []
    else
      var rest := ValuesOf(attrs[1..]);
      assert forall j :: 1 <= j < |attrs| ==> attrs[j] == attrs[1..][j - 1];
      if attrs[0].key == "value" then [attrs[0].val] + rest else rest
  }

  /** The values of a concatenation of attribute lists are the values of
      each, in order, repeats kept. */
  lemma {:induction false} ValuesOfConcat(a: seq<Attr>, b: seq<Attr>)
    ensures ValuesOf(a + b) == ValuesOf(a) + ValuesOf(b)
  {
    if a != [] {
      assert (a + b)[1..] == a[1..] + b;
      ValuesOfConcat(a[1..], b);
    } else {
      assert a + b == b;
    }
  }

  /** The options of a concatenation of inputs are the options of each, in
      input order, repeats kept. */
  lemma {:induction false} SurveyOptionsConcat(a: seq<seq<Attr>>, b: seq<seq<Attr>>)
    ensures SurveyOptions(a + b) == SurveyOptions(a) + SurveyOptions(b)
  {
    if a != [] {
      assert (a + b)[1..] == a[1..] + b;
      SurveyOptionsConcat(a[1..], b);
    } else {
      assert a + b == b;
    }
  }

  /** The id of the n-th survey of a codelab: the codelab id, a dash, n. */
  function SurveyId(id: string, n: nat): string {
    id + "-" + Itoa(n)
  }

  /** The number after the codelab id reads back as n, so distinct survey
      numbers give distinct ids. */
  lemma SurveyIdNumber(id: string, n: nat)
    requires n <= MaxInt64
    ensures SurveyId(id, n)[..|id| + 1] == id + "-"
    ensures Atoi(SurveyId(id, n)[|id| + 1..]) == Parsed(n)
  {
    var s := SurveyId(id, n);
    assert s[|id| + 1..] == Itoa(n);
    AtoiItoa(n);
  }

  lemma SurveyIdInjective(id: string, n: nat, m: nat)
    requires n <= MaxInt64 && m <= MaxInt64 && n != m
    ensures SurveyId(id, n) != SurveyId(id, m)
  {
    SurveyIdNumber(id, n);
    SurveyIdNumber(id, m);
  }

  /** A survey node and the new survey count: a survey without any option is
      dropped and does not use up a number. */
  function BuildSurvey(clabId: string, count: nat, name: string, inputs: seq<seq<Attr>>): (r: (Option<Node>, nat))
    ensures r.0.None? <==> SurveyOptions(inputs) == []
    ensures r.0.None? ==> r.1 == count
    ensures r.0.Some? ==> r.1 == count + 1 && r.0.value.Survey? && r.0.value.id == SurveyId(clabId, r.1)
    ensures r.0.Some? ==> r.0.value.groups == [SurveyGroup(TrimSpace(name), SurveyOptions(inputs))]
  {
    var opts := SurveyOptions(inputs);
    if opts == [] then (None, count)
    else (Some(Survey(SurveyId(clabId, count + 1), [SurveyGroup(TrimSpace(name), opts)], [])), count + 1)
  }

  // ---------------------------------------------------------------- buttons

  const DownloadPrefix := "download "

  /** A button is a download button when its text starts with "download ",
      in any case. */
  predicate IsDownload(text: string) {
    HasPrefix(Lower(text), DownloadPrefix)
  }

  lemma IsDownloadIgnoresCase(text: string)
    ensures IsDownload(Lower(text)) <==> IsDownload(text)
  {
    LowerIdempotent(text);
  }

  lemma IsDownloadOfPrefix(p: string, rest: string)
    requires Lower(p) == DownloadPrefix
    ensures IsDownload(p + rest)
  {
    LowerConcat(p, rest);
    assert Lower(p + rest)[..|DownloadPrefix|] == DownloadPrefix;
  }

  datatype ButtonOutcome = AsText | NoButton | LinkButton(href: string, download: bool)

  /** What a button element becomes: plain text without an anchor, nothing
      when the anchor has no href or no content, otherwise a link around a
      button marked as a download by its text. */
  function ButtonKind(hasAnchor: bool, href: string, contentCount: nat, anchorText: string): (r: ButtonOutcome)
    ensures r.LinkButton? <==> hasAnchor && href != "" && contentCount > 0
    ensures r.LinkButton? ==> r.href == href && (r.download <==> IsDownload(anchorText))
    ensures r == AsText <==> !hasAnchor
  {
    if !hasAnchor then AsText
    else if href == "" then NoButton
    else if contentCount == 0 then NoButton
    else LinkButton(href, IsDownload(anchorText))
  }

  // ---------------------------------------------------------------- images and iframes

  /** A parsed URL, reduced to what the rules read. URL parsing itself is an
      input: `None` stands for a parse error. */
  datatype Url = Url(scheme: string, host: string, text: string)

  /** The iframe rule: only https URLs make an iframe. */
  function IframeUrl(u: Option<Url>): (r: Option<string>)
    ensures r.Some? <==> u.Some? && u.value.scheme == "https"
    ensures r.Some? ==> r.value == u.value.text
  {
    match u
    case Some(v) => if v.scheme == "https" then Some(v.text) else None
    case None => None
  }

  predicate Whitelisted(host: string, whitelist: seq<string>) {
    exists i :: 0 <= i < |whitelist| && HasSuffix(host, whitelist[i])
  }

  datatype ImageOutcome = YouTubeOut(id: string) | IframeOut(url: string) | ImageOut(src: string) | NoImage

  /** What an image element becomes. `parsed` is the parse of its alt text
      and `widthOk` says whether a non-empty width reads as a number. */
  function ImageKind(attrs: seq<Attr>, parsed: Option<Url>, whitelist: seq<string>, widthOk: bool): (r: ImageOutcome)
    ensures r.IframeOut? ==> parsed.Some? && parsed.value.scheme == "https"
    ensures r.IframeOut? ==> Whitelisted(parsed.value.host, whitelist) && Contains(NodeAttr(attrs, "alt"), "https://")
    ensures r.YouTubeOut? <==> Contains(NodeAttr(attrs, "alt"), "youtube.com/watch") && FindAttr(attrs, "id").Some?
    ensures r.ImageOut? ==> r.src == NodeAttr(attrs, "src") && r.src != ""
  {
    var alt := NodeAttr(attrs, "alt");
    if Contains(alt, "youtube.com/watch") then
      match FindAttr(attrs, "id")
      case Some(id) => YouTubeOut(id)
      case None => NoImage
    else if Contains(alt, "https://") && (parsed.None? || Whitelisted(parsed.value.host, whitelist)) then
      match IframeUrl(parsed)
      case Some(u) => IframeOut(u)
      case None => NoImage
    else
      var src := NodeAttr(attrs, "src");
      if src == "" then NoImage
      else if NodeAttr(attrs, "width") != "" && !widthOk then NoImage
      else ImageOut(src)
  }

  /** An https URL on a whitelisted host, named in the alt text of an image
      that is not a video, makes an iframe; a whitelisted URL of any other
      scheme makes nothing at all, not even the image. */
  lemma IframeOnlyHttps(attrs: seq<Attr>, u: Url, whitelist: seq<string>, widthOk: bool)
    requires !Contains(NodeAttr(attrs, "alt"), "youtube.com/watch") && Contains(NodeAttr(attrs, "alt"), "https://")
    requires Whitelisted(u.host, whitelist)
    ensures u.scheme == "https" ==> ImageKind(attrs, Some(u), whitelist, widthOk) == IframeOut(u.text)
    ensures u.scheme != "https" ==> ImageKind(attrs, Some(u), whitelist, widthOk) == NoImage
  {
  }
}

=== FILE: docstate.dfy ===
/** The traversal state threaded through the walk of a document: the codelab
    being built, the running duration total, the survey counter, the last
    appended node, the current environment tags, and the cursor with its
    stack. The current step is the codelab's last step. */
module DocStates {
  import opened Wrappers
  import opened Text
  import opened Order
  import opened Fields
  import opened Duration
  import opened Types

  /** Where an appended node sits: step number and position in its content.
      Nodes are shared by reference in the source, so the last appended node
      can still be changed after further steps have begun. */
  datatype NodeRef = NodeRef(step: nat, index: nat)

  /** A position in the document: child numbers from the body down. */
  type Cursor = seq<nat>

  datatype DocState = DocState(
    clab: Codelab,
    totdur: int,
    survey: nat,
    lastNode: Option<NodeRef>,
    env: seq<string>,
    cur: Cursor,
    stack: seq<Cursor>)

  function NewDocState(): (ds: DocState)
    ensures Valid(ds) && !HasStep(ds) && ds.totdur == 0
  {
    DocState(NewCodelab(), 0, 0, None, [], [], [])
  }

  predicate HasStep(ds: DocState) {
    |ds.clab.steps| > 0
  }

  function CurrentStep(ds: DocState): Step
    requires HasStep(ds)
  {
    ds.clab.steps[|ds.clab.steps| - 1]
  }

  predicate ValidRef(steps: seq<Step>, r: NodeRef) {
    r.step < |steps| && r.index < |steps[r.step].content|
  }

  /** The last-node reference, when set, names an existing node, and the
      running total is a whole number of minutes. */
  predicate Valid(ds: DocState) {
    (ds.lastNode.Some? ==> ValidRef(ds.clab.steps, ds.lastNode.value))
    && ds.totdur % Minute == 0
  }

  function LastNode(ds: DocState): Option<Node>
    requires Valid(ds)
  {
    match ds.lastNode
    case None => None
    case Some(r) => Some(ds.clab.steps[r.step].content[r.index])
  }

  function Titles(steps: seq<Step>): (r: seq<string>)
    ensures |r| == |steps|
    ensures forall i :: 0 <= i < |steps| ==> r[i] == steps[i].title
  {
    seq(|steps|, i requires 0 <= i < |steps| => steps[i].title)
  }

  // ---------------------------------------------------------------- cursor stack

  /** Saves the cursor and moves to `to`, or stays put when `to` is none. */
  function Push(ds: DocState, to: Option<Cursor>): (r: DocState)
    ensures r.stack == ds.stack + [ds.cur]
    ensures r.cur == to.GetOr(ds.cur)
    ensures r.(cur := ds.cur, stack := ds.stack) == ds
  {
    ds.(stack := ds.stack + [ds.cur], cur := to.GetOr(ds.cur))
  }

  /** Restores the last saved cursor; does nothing on an empty stack. */
  function Pop(ds: DocState): (r: DocState)
    ensures ds.stack == [] ==> r == ds
    ensures ds.stack != [] ==> |r.stack| == |ds.stack| - 1 && r.cur == ds.stack[|ds.stack| - 1]
    ensures r.(cur := ds.cur, stack := ds.stack) == ds
  {
    if ds.stack == [] then ds
    else ds.(cur := ds.stack[|ds.stack| - 1], stack := ds.stack[..|ds.stack| - 1])
  }

  /** A pop undoes a push, whatever happened to the cursor in between. */
  lemma PopPush(ds: DocState, to: Option<Cursor>, moved: Cursor)
    ensures Pop(Push(ds, to).(cur := moved)) == ds
  {
    var p := Push(ds, to).(cur := moved);
    assert p.stack[..|p.stack| - 1] == ds.stack;
  }

  // ---------------------------------------------------------------- appending nodes

  function WithEnv(n: Node, env: seq<string>): (r: Node)
    ensures r.env == env && r.(env := n.env) == n
  {
    n.(env := env)
  }

  /** The nodes as they are appended: each gets the current environment
      after its own tags, when there is one. */
  function Tagged(nn: seq<Node>, env: seq<string>): (r: seq<Node>)
    ensures |r| == |nn|
    ensures forall i :: 0 <= i < |nn| ==> r[i] == WithEnv(nn[i], nn[i].env + env)
  {
    seq(|nn|, i requires 0 <= i < |nn| => WithEnv(nn[i], nn[i].env + env))
  }

  function UpdateLast(steps: seq<Step>, s: Step): (r: seq<Step>)
    requires |steps| > 0
    ensures |r| == |steps| && r[|r| - 1] == s
    ensures forall i :: 0 <= i < |steps| - 1 ==> r[i] == steps[i]
  {
    steps[..|steps| - 1] + [s]
  }

  /** Appends nodes to the current step: nothing happens without a step or
      without nodes; otherwise each node gains the current environment and
      the last of them becomes the last node. */
  function AppendNodes(ds: DocState, nn: seq<Node>): (r: DocState)
    requires Valid(ds)
    ensures Valid(r) && |r.clab.steps| == |ds.clab.steps|
    ensures !HasStep(ds) || nn == [] ==> r == ds
    ensures HasStep(ds) && nn != [] ==>
      CurrentStep(r).content == CurrentStep(ds).content + Tagged(nn, ds.env)
      && LastNode(r) == Some(WithEnv(nn[|nn| - 1], nn[|nn| - 1].env + ds.env))
    ensures HasStep(ds) && nn != [] ==>
      r == ds.(clab := r.clab, lastNode := r.lastNode)
      && r.clab.steps == UpdateLast(ds.clab.steps, CurrentStep(ds).(content := CurrentStep(r).content))
      && r.clab == ds.clab.(steps := r.clab.steps)
  {
    if !HasStep(ds) || nn == [] then ds
    else
      var step := CurrentStep(ds);
      var content := step.content + Tagged(nn, ds.env);
      var steps := UpdateLast(ds.clab.steps, step.(content := content));
      ds.(clab := ds.clab.(steps := steps),
          lastNode := Some(NodeRef(|steps| - 1, |content| - 1)))
  }

  /** Without an environment the nodes are appended exactly as built. */
  lemma AppendNodesNoEnv(ds: DocState, nn: seq<Node>)
    requires Valid(ds) && HasStep(ds) && nn != [] && ds.env == []
    ensures CurrentStep(AppendNodes(ds, nn)).content == CurrentStep(ds).content + nn
  {
    forall i | 0 <= i < |nn| ensures Tagged(nn, [])[i] == nn[i] {
      assert nn[i].env + [] == nn[i].env;
    }
    assert Tagged(nn, []) == nn;
  }

  // ---------------------------------------------------------------- step instructions

  const MetaDuration := "duration"
  const MetaEnvironment := "environment"

  /** Splitting at most once gives two fields exactly when there is a colon. */
  lemma SplitNTwo(s: string)
    ensures |SplitN(s, ':', 2)| == 2 <==> ':' in s
  {
    if ':' in s {
      SplitAtFirst(s, ':', 2);
    }
  }

  /** A step instruction `key: value`: the trimmed text split at its first
      colon, the key trimmed and lower cased, the value trimmed. */
  function Instruction(text: string): (r: Option<(string, string)>)
    ensures r.Some? ==> IsLowered(r.value.0) && IsTrimmed(r.value.0) && IsTrimmed(r.value.1)
    ensures r.None? <==> ':' !in TrimSpace(text)
  {
    var meta := SplitN(TrimSpace(text), ':', 2);
    SplitNTwo(TrimSpace(text));
    if |meta| != 2 then None
    else
      var key := TrimSpace(meta[0]);
      LowerKeepsTrimmed(key);
      LowerIdempotent(key);
      Some((Lower(key), TrimSpace(meta[1])))
  }

  /** A trimmed instruction whose key holds no colon is split at the colon
      after the key. */
  lemma InstructionOf(k: string, v: string)
    requires ':' !in k && IsTrimmed(k + ":" + v)
    ensures Instruction(k + ":" + v) == Some((Lower(TrimSpace(k)), TrimSpace(v)))
  {
    var text := k + ":" + v;
    TrimSpaceOfTrimmed(text);
    assert text == k + [':'] + v;
    SplitNConcat(k, ':', v, 2);
    assert SplitN(v, ':', 1) == [v];
  }

  /** Applies one step instruction to the current step. `duration` sets the
      step's duration, rounded up to whole minutes, and adds the same amount
      to the running total; `environment` makes the fields of the value,
      de-duplicated and then lower-cased, the current environment, appends them to the
      step's and the codelab's tags, and gives them to the last node if it
      is a header. Anything else changes nothing. */
  function MetaStep(ds: DocState, text: string): (r: DocState)
    requires Valid(ds) && HasStep(ds)
    ensures Valid(r) && HasStep(r)
    ensures Titles(r.clab.steps) == Titles(ds.clab.steps)
    ensures r.clab.(tags := ds.clab.tags, steps := ds.clab.steps) == ds.clab
    ensures r.survey == ds.survey && r.cur == ds.cur && r.stack == ds.stack && r.lastNode == ds.lastNode
    ensures forall i :: 0 <= i < |ds.clab.steps| - 1 ==> r.clab.steps[i].tags == ds.clab.steps[i].tags
    ensures forall x :: x in ds.clab.tags ==> x in r.clab.tags
    ensures forall x :: x in CurrentStep(r).tags ==> x in CurrentStep(ds).tags || x in r.clab.tags
    ensures Instruction(text).None? ==> r == ds
    ensures Instruction(text).Some? && Instruction(text).value.0 != MetaDuration && Instruction(text).value.0 != MetaEnvironment ==> r == ds
  {
    match Instruction(text)
    case None => ds
    case Some((key, value)) =>
      if key == MetaDuration then
        SetDuration(ds, RoundDuration(ParseDuration(value)))
      else if key == MetaEnvironment then
        SetEnvironment(ds, EnvTagsAsWritten(value))
      else ds
  }

  /** The duration branch of a step instruction. */
  function SetDuration(ds: DocState, d: int): (r: DocState)
    requires Valid(ds) && HasStep(ds) && d % Minute == 0
    ensures Valid(r) && HasStep(r) && r.totdur == ds.totdur + d
    ensures CurrentStep(r) == CurrentStep(ds).(duration := d)
    ensures r.clab.steps == UpdateLast(ds.clab.steps, CurrentStep(r))
    ensures r == ds.(clab := ds.clab.(steps := r.clab.steps), totdur := r.totdur)
  {
    var steps := UpdateLast(ds.clab.steps, CurrentStep(ds).(duration := d));
    ds.(clab := ds.clab.(steps := steps), totdur := ds.totdur + d)
  }

  /** The environment branch of a step instruction. */
  function SetEnvironment(ds: DocState, env: seq<string>): (r: DocState)
    requires Valid(ds) && HasStep(ds)
    ensures Valid(r) && HasStep(r) && r.env == env && r.totdur == ds.totdur
    ensures |r.clab.steps| == |ds.clab.steps|
    ensures CurrentStep(r).tags == CurrentStep(ds).tags + env
    ensures r.clab.tags == ds.clab.tags + env
    ensures LastNode(ds).Some? && LastNode(ds).value.Header? ==> LastNode(r) == Some(WithEnv(LastNode(ds).value, env))
    ensures !(LastNode(ds).Some? && LastNode(ds).value.Header?) ==> LastNode(r) == LastNode(ds)
    ensures Titles(r.clab.steps) == Titles(ds.clab.steps)
    ensures forall i :: 0 <= i < |ds.clab.steps| - 1 ==> r.clab.steps[i].tags == ds.clab.steps[i].tags
    ensures r == ds.(clab := r.clab, env := env)
    ensures r.clab == ds.clab.(tags := r.clab.tags, steps := r.clab.steps)
  {
    var step := CurrentStep(ds);
    var steps := UpdateLast(ds.clab.steps, step.(tags := step.tags + env));
    var steps' :=
      match LastNode(ds)
      case Some(Header(_, _, _, _)) => RetagNode(steps, ds.lastNode.value, env)
      case _ => steps;
    ds.(env := env, clab := ds.clab.(steps := steps', tags := ds.clab.tags + env))
  }

  /** Replaces the environment of one existing node. */
  function RetagNode(steps: seq<Step>, ref: NodeRef, env: seq<string>): (r: seq<Step>)
    requires ValidRef(steps, ref)
    ensures |r| == |steps| && ValidRef(r, ref)
    ensures r[ref.step].content[ref.index] == WithEnv(steps[ref.step].content[ref.index], env)
    ensures forall i :: 0 <= i < |steps| ==> r[i] == steps[i].(content := r[i].content)
    ensures forall i :: 0 <= i < |steps| ==> |r[i].content| == |steps[i].content|
  {
    var s := steps[ref.step];
    var content := s.content[ref.index := WithEnv(s.content[ref.index], env)];
    steps[ref.step := s.(content := content)]
  }

  /** A duration instruction adds exactly the rounded step duration to the
      total, which stays a whole number of minutes. */
  lemma MetaStepDuration(ds: DocState, k: string, v: string)
    requires Valid(ds) && HasStep(ds)
    requires ':' !in k && IsTrimmed(k + ":" + v) && Lower(TrimSpace(k)) == MetaDuration
    ensures CurrentStep(MetaStep(ds, k + ":" + v)).duration == RoundDuration(ParseDuration(TrimSpace(v)))
    ensures MetaStep(ds, k + ":" + v).totdur == ds.totdur + RoundDuration(ParseDuration(TrimSpace(v)))
    ensures MetaStep(ds, k + ":" + v).totdur % Minute == 0
  {
    InstructionOf(k, v);
  }

  /** An environment instruction makes the non-empty fields of its value,
      de-duplicated and then lower-cased, the environment and appends them
      to both tag lists. */
  lemma MetaStepEnvironment(ds: DocState, k: string, v: string)
    requires Valid(ds) && HasStep(ds)
    requires ':' !in k && IsTrimmed(k + ":" + v) && Lower(TrimSpace(k)) == MetaEnvironment
    ensures MetaStep(ds, k + ":" + v).env == EnvTagsAsWritten(TrimSpace(v))
    ensures CurrentStep(MetaStep(ds, k + ":" + v)).tags == CurrentStep(ds).tags + EnvTagsAsWritten(TrimSpace(v))
    ensures MetaStep(ds, k + ":" + v).clab.tags == ds.clab.tags + EnvTagsAsWritten(TrimSpace(v))
  {
    InstructionOf(k, v);
  }

  // ---------------------------------------------------------------- steps

  /** A finished step's tags are sorted without duplicates; nothing else
      changes. Block grouping and compaction of the content are identity
      here. */
  function FinalizeStep(s: Step): (r: Step)
    ensures StrictlySorted(r.tags)
    ensures forall x :: x in r.tags <==> x in s.tags
    ensures r == s.(tags := r.tags)
  {
    s.(tags := Normalize(s.tags))
  }

  /** Finalizing twice is finalizing once. */
  lemma FinalizeStepIdempotent(s: Step)
    ensures FinalizeStep(FinalizeStep(s)) == FinalizeStep(s)
  {
    var t := FinalizeStep(s).tags;
    StrictlySortedUnique(Normalize(t), t);
  }

  function FinalizeLast(steps: seq<Step>): (r: seq<Step>)
    ensures |r| == |steps| && Titles(r) == Titles(steps)
    ensures |steps| > 0 ==> r == UpdateLast(steps, FinalizeStep(steps[|steps| - 1]))
    ensures |steps| == 0 ==> r == steps
  {
    if |steps| == 0 then steps else UpdateLast(steps, FinalizeStep(steps[|steps| - 1]))
  }

  /** Starts a step titled `title`, unless the title is empty: the current
      step is finalized first, and the environment is cleared. */
  function NewStep(ds: DocState, title: string): (r: DocState)
    requires Valid(ds)
    ensures Valid(r)
    ensures title == "" ==> r == ds
    ensures title != "" ==> Titles(r.clab.steps) == Titles(ds.clab.steps) + [title]
    ensures title != "" ==> CurrentStep(r) == Types.NewStep(title) && r.env == []
    ensures title != "" && HasStep(ds) ==> r.clab.steps[|ds.clab.steps| - 1] == FinalizeStep(CurrentStep(ds))
    ensures forall i :: 0 <= i < |ds.clab.steps| - 1 ==> r.clab.steps[i] == ds.clab.steps[i]
    ensures r.clab == ds.clab.(steps := r.clab.steps) && r.totdur == ds.totdur && r.lastNode == ds.lastNode
  {
    if title == "" then ds
    else
      var steps := FinalizeLast(ds.clab.steps) + [Types.NewStep(title)];
      AppendStep(ds.clab.steps, title);
      ds.(clab := ds.clab.(steps := steps), env := [])
  }

  /** Finalizing the last step and appending a new one keeps the earlier
      steps, their contents and their titles. */
  lemma AppendStep(steps: seq<Step>, title: string)
    ensures var r := FinalizeLast(steps) + [Types.NewStep(title)];
      && |r| == |steps| + 1 && r[|steps|] == Types.NewStep(title)
      && Titles(r) == Titles(steps) + [title]
      && (|steps| > 0 ==> r[|steps| - 1] == FinalizeStep(steps[|steps| - 1]))
      && (forall i :: 0 <= i < |steps| - 1 ==> r[i] == steps[i])
      && (forall i :: 0 <= i < |steps| ==> r[i].content == steps[i].content)
  {
    var fin := FinalizeLast(steps);
    var r := fin + [Types.NewStep(title)];
    assert Titles(r) == Titles(fin) + [title];
  }
}

=== FILE: duration.dfy ===
/** Step durations: the value of a `Duration:` instruction and its rounding
    up to whole minutes. Durations are counted in nanoseconds, like Go's
    time.Duration. */
module Duration {
  import opened Text
  import opened Numeric

  const Second: int := 1_000_000_000
  const Minute: int := 60 * Second
  const Hour: int := 60 * Minute

  /** The multipliers of the colon-separated fields, most significant first. */
  const DurFactor: seq<int> := [Hour, Minute, Second]

  /** Rounds up to whole minutes. The conversion through d.Minutes()
      truncates toward zero, so a minute is added back whenever the
      truncated value fell below d: the result is the smallest whole number
      of minutes not below d. */
  function RoundDuration(d: int): (r: int)
    ensures r % Minute == 0
    ensures d <= r < d + Minute
  {
    var rd := TruncDiv(d, Minute) * Minute;
    if rd < d then rd + Minute else rd
  }

  /** The examples of the rounding rule: 59s, 60s and 61s. */
  lemma RoundDurationExamples()
    ensures RoundDuration(44 * Second) == Minute
    ensures RoundDuration(59 * Second) == Minute
    ensures RoundDuration(60 * Second) == Minute
    ensures RoundDuration(61 * Second) == 2 * Minute
  {
  }

  /** A whole number of minutes is left as it is. */
  lemma RoundDurationWholeMinutes(k: int)
    ensures RoundDuration(k * Minute) == k * Minute
  {
  }

  /** The fields of a duration value: at most three, split at the first two
      colons; a lone field is followed by a "0" seconds field, so that it
      counts as minutes. */
  function DurationFields(value: string): (parts: seq<string>)
    ensures 2 <= |parts| <= 3
  {
    var p := SplitN(value, ':', 3);
    if |p| == 1 then p + ["0"] else p
  }

  /** The number a field contributes: its value, or 0 when Atoi fails. */
  function FieldValue(part: string): int {
    match Atoi(part)
    case Parsed(v) => v
    case _ => 0
  }

  /** Sum of the fields from index i on, each times its factor; the last
      field always pairs with seconds. */
  function SumFields(parts: seq<string>, i: nat): int
    requires 2 <= |parts| <= 3 && i <= |parts|
    decreases |parts| - i
  {
    if i == |parts| then 0
    else FieldValue(parts[i]) * DurFactor[|DurFactor| - |parts| + i] + SumFields(parts, i + 1)
  }

  /** The duration a `Duration:` value denotes, before rounding. */
  function ParseDuration(value: string): int {
    SumFields(DurationFields(value), 0)
  }

  lemma FieldValueZero()
    ensures FieldValue("0") == 0
  {
    AtoiItoa(0);
    assert Itoa(0) == "0";
  }

  /** A value without a colon counts as minutes. */
  lemma DurationOneField(a: string)
    requires ':' !in a
    ensures ParseDuration(a) == FieldValue(a) * Minute
  {
    SplitNAgrees(a, ':', 3);
    SplitSingle(a, ':');
    var parts := DurationFields(a);
    assert parts == [a, "0"];
    FieldValueZero();
    assert SumFields(parts, 2) == 0;
    assert SumFields(parts, 1) == FieldValue("0") * Second;
    assert SumFields(parts, 0) == FieldValue(a) * Minute + SumFields(parts, 1);
  }

  /** Two fields are minutes and seconds. */
  lemma DurationTwoFields(a: string, b: string)
    requires ':' !in a && ':' !in b
    ensures ParseDuration(a + ":" + b) == FieldValue(a) * Minute + FieldValue(b) * Second
  {
    SplitNConcat(a, ':', b, 3);
    SplitSingle(b, ':');
    SplitNAgrees(b, ':', 2);
    var parts := DurationFields(a + ":" + b);
    assert parts == [a, b];
    assert SumFields(parts, 2) == 0;
    assert SumFields(parts, 1) == FieldValue(b) * Second;
    assert SumFields(parts, 0) == FieldValue(a) * Minute + SumFields(parts, 1);
  }

  /** Three fields are hours, minutes and seconds; the third field keeps any
      further colons, and then fails to parse and contributes nothing. */
  lemma DurationThreeFields(a: string, b: string, c: string)
    requires ':' !in a && ':' !in b
    ensures ParseDuration(a + ":" + b + ":" + c)
         == FieldValue(a) * Hour + FieldValue(b) * Minute + FieldValue(c) * Second
    ensures ':' in c ==> FieldValue(c) == 0
  {
    SplitNConcat(a, ':', b + ":" + c, 3);
    SplitNConcat(b, ':', c, 2);
    assert a + ":" + b + ":" + c == a + [':'] + (b + ":" + c);
    var parts := DurationFields(a + ":" + b + ":" + c);
    assert parts == [a, b, c];
    assert SumFields(parts, 3) == 0;
    assert SumFields(parts, 2) == FieldValue(c) * Second;
    assert SumFields(parts, 1) == FieldValue(b) * Minute + SumFields(parts, 2);
    assert SumFields(parts, 0) == FieldValue(a) * Hour + SumFields(parts, 1);
    if ':' in c {
      var i :| 0 <= i < |c| && c[i] == ':';
      AtoiRejects(c, i);
    }
  }
}

=== FILE: fields.dfy ===
/** Comma-separated field lists: metadata lists (standardSplit), instruction
    lists (stringSlice), in-place lower-casing (toLowerSlice), and the tag
    list an `Environment:` instruction produces. */
module Fields {
  import opened Text
  import opened Order

  lemma LowerCharComma(c: char)
    ensures LowerChar(c) == ',' <==> c == ','
  {
  }

  /** A trimmed, lower-cased piece of a comma-free string is comma-free,
      trimmed and lower-case. */
  lemma NormalizedField(x: string)
    requires ',' !in x
    ensures IsLowered(Lower(TrimSpace(x))) && IsTrimmed(Lower(TrimSpace(x)))
    ensures ',' !in Lower(TrimSpace(x))
  {
    var t := TrimSpace(x);
    LowerIdempotent(t);
    LowerKeepsTrimmed(t);
    assert ',' !in t;
    forall i | 0 <= i < |t| ensures Lower(t)[i] != ',' {
      LowerCharComma(t[i]);
    }
  }

  /** standardSplit: one entry per comma-separated field, empty fields
      included, each trimmed and lower-cased. */
  function StandardSplit(s: string): (r: seq<string>)
    ensures |r| == Count(s, ',') + 1
    ensures forall i :: 0 <= i < |r| ==> IsLowered(r[i]) && IsTrimmed(r[i]) && ',' !in r[i]
  {
    var f := Split(s, ',');
    var r := seq(|f|, i requires 0 <= i < |f| => Lower(TrimSpace(f[i])));
    assert forall i :: 0 <= i < |r| ==> IsLowered(r[i]) && IsTrimmed(r[i]) && ',' !in r[i] by {
      forall i | 0 <= i < |r| ensures IsLowered(r[i]) && IsTrimmed(r[i]) && ',' !in r[i] {
        NormalizedField(f[i]);
      }
    }
    r
  }

  /** When every field is already trimmed and lower-case, standardSplit
      loses nothing: joining its result gives the input back. */
  lemma StandardSplitJoin(s: string)
    requires forall i :: 0 <= i < |Split(s, ',')| ==> IsTrimmed(Split(s, ',')[i]) && IsLowered(Split(s, ',')[i])
    ensures Join(StandardSplit(s), ',') == s
  {
    var f := Split(s, ',');
    forall i | 0 <= i < |f| ensures StandardSplit(s)[i] == f[i] {
      TrimSpaceOfTrimmed(f[i]);
      LowerOfLowered(f[i]);
    }
    assert StandardSplit(s) == f;
    JoinSplit(s, ',');
  }

  /** standardSplit of comma-joined, comma-free pieces gives one entry per
      piece: that piece trimmed and lower-cased. */
  lemma StandardSplitOfJoin(fs: seq<string>)
    requires |fs| >= 1 && forall i :: 0 <= i < |fs| ==> ',' !in fs[i]
    ensures |StandardSplit(Join(fs, ','))| == |fs|
    ensures forall i :: 0 <= i < |fs| ==> StandardSplit(Join(fs, ','))[i] == Lower(TrimSpace(fs[i]))
  {
    SplitJoin(fs, ',');
  }

  /** The trimmed fields that are not empty, in order. */
  function NonEmptyTrimmed(fs: seq<string>): (r: seq<string>)
    ensures |r| <= |fs|
    ensures forall i :: 0 <= i < |r| ==> r[i] != "" && IsTrimmed(r[i])
  {
    if |fs| == 0 then []
    else
      var t := TrimSpace(fs[0]);
      if t != "" then [t] + NonEmptyTrimmed(fs[1..]) else NonEmptyTrimmed(fs[1..])
  }

  /** x is the trimmed form of one of the fields. */
  predicate TrimmedFieldOf(x: string, fs: seq<string>) {
    exists i :: 0 <= i < |fs| && TrimSpace(fs[i]) == x
  }

  lemma {:induction false} NonEmptyTrimmedMembers(fs: seq<string>, x: string)
    ensures x in NonEmptyTrimmed(fs) <==> x != "" && TrimmedFieldOf(x, fs)
  {
    if |fs| > 0 {
      NonEmptyTrimmedMembers(fs[1..], x);
      if exists i :: 0 <= i < |fs| && TrimSpace(fs[i]) == x {
        var i :| 0 <= i < |fs| && TrimSpace(fs[i]) == x;
        if i > 0 {
          assert TrimSpace(fs[1..][i - 1]) == x;
        }
      }
      if exists i :: 0 <= i < |fs| - 1 && TrimSpace(fs[1..][i]) == x {
        var i :| 0 <= i < |fs| - 1 && TrimSpace(fs[1..][i]) == x;
        assert TrimSpace(fs[i + 1]) == x;
      }
    }
  }

  lemma {:induction false} NonEmptyTrimmedKeeps(fs: seq<string>)
    requires forall i :: 0 <= i < |fs| ==> fs[i] != "" && IsTrimmed(fs[i])
    ensures NonEmptyTrimmed(fs) == fs
  {
    if |fs| > 0 {
      TrimSpaceOfTrimmed(fs[0]);
      NonEmptyTrimmedKeeps(fs[1..]);
    }
  }

  /** Dropping empty fields keeps the order of the rest: filtering a
      concatenation filters each part. */
  lemma {:induction false} NonEmptyTrimmedConcat(a: seq<string>, b: seq<string>)
    ensures NonEmptyTrimmed(a + b) == NonEmptyTrimmed(a) + NonEmptyTrimmed(b)
  {
    if a != [] {
      assert (a + b)[1..] == a[1..] + b;
      NonEmptyTrimmedConcat(a[1..], b);
    } else {
      assert a + b == b;
    }
  }

  /** stringSlice: the comma-separated fields, trimmed, with the empty ones
      dropped. */
  function StringSlice(v: string): (r: seq<string>)
    ensures |r| <= Count(v, ',') + 1
    ensures forall i :: 0 <= i < |r| ==> r[i] != "" && IsTrimmed(r[i])
  {
    NonEmptyTrimmed(Split(v, ','))
  }

  /** A string is in stringSlice(v) exactly when it is the trimmed, non-empty
      form of one of v's fields. */
  lemma StringSliceMembers(v: string, x: string)
    ensures x in StringSlice(v) <==> x != "" && TrimmedFieldOf(x, Split(v, ','))
  {
    assert StringSlice(v) == NonEmptyTrimmed(Split(v, ','));
    NonEmptyTrimmedMembers(Split(v, ','), x);
  }

  /** When no field is empty or padded, stringSlice is plain splitting, in
      the original order. */
  lemma StringSliceOfClean(v: string)
    requires forall i :: 0 <= i < |Split(v, ',')| ==> Split(v, ',')[i] != "" && IsTrimmed(Split(v, ',')[i])
    ensures StringSlice(v) == Split(v, ',')
  {
    NonEmptyTrimmedKeeps(Split(v, ','));
  }

  /** stringSlice of comma-joined, comma-free fields is those fields,
      trimmed, with the empty ones dropped, in their order. */
  lemma StringSliceOfJoin(fs: seq<string>)
    requires |fs| >= 1 && forall i :: 0 <= i < |fs| ==> ',' !in fs[i]
    ensures StringSlice(Join(fs, ',')) == NonEmptyTrimmed(fs)
  {
    SplitJoin(fs, ',');
  }

  /** The fields of a list keep their order: the fields of the first part
      come before those of the second. */
  lemma StringSliceJoinConcat(a: seq<string>, b: seq<string>)
    requires |a| >= 1 && forall i :: 0 <= i < |a| ==> ',' !in a[i]
    requires |b| >= 1 && forall i :: 0 <= i < |b| ==> ',' !in b[i]
    ensures StringSlice(Join(a + b, ',')) == StringSlice(Join(a, ',')) + StringSlice(Join(b, ','))
  {
    StringSliceOfJoin(a);
    StringSliceOfJoin(b);
    StringSliceOfJoin(a + b);
    NonEmptyTrimmedConcat(a, b);
  }

  /** Every field of stringSlice is comma-free. */
  lemma StringSliceNoComma(v: string)
    ensures forall i :: 0 <= i < |StringSlice(v)| ==> ',' !in StringSlice(v)[i]
  {
    var r := StringSlice(v);
    forall i | 0 <= i < |r| ensures ',' !in r[i] {
      StringSliceMembers(v, r[i]);
      var j :| 0 <= j < |Split(v, ',')| && TrimSpace(Split(v, ',')[j]) == r[i];
      assert ',' !in Split(v, ',')[j];
    }
  }

  /** toLowerSlice: lower-cases every entry in place, character by
      character. */
  function ToLowerSlice(a: seq<string>): (r: seq<string>)
    ensures |r| == |a|
    ensures forall i :: 0 <= i < |a| ==> |r[i]| == |a[i]| && IsLowered(r[i])
    ensures forall i, k :: 0 <= i < |a| && 0 <= k < |a[i]| ==> r[i][k] == LowerChar(a[i][k])
  {
    var r := seq(|a|, i requires 0 <= i < |a| => Lower(a[i]));
    assert forall i :: 0 <= i < |a| ==> IsLowered(r[i]) by {
      forall i | 0 <= i < |a| ensures IsLowered(r[i]) {
        LowerIdempotent(a[i]);
      }
    }
    r
  }

  lemma ToLowerSliceIdempotent(a: seq<string>)
    ensures ToLowerSlice(ToLowerSlice(a)) == ToLowerSlice(a)
  {
    var r := ToLowerSlice(a);
    forall i | 0 <= i < |a| ensures Lower(r[i]) == r[i] {
      LowerOfLowered(r[i]);
    }
  }

  /** The tag list of an `Environment:` value exactly as parse.go:504-505
      computes it: duplicates are removed before lower-casing. */
  function EnvTagsAsWritten(value: string): (r: seq<string>)
    ensures |r| <= Count(value, ',') + 1
    ensures forall i :: 0 <= i < |r| ==> r[i] != "" && IsLowered(r[i]) && IsTrimmed(r[i]) && ',' !in r[i]
    ensures forall x :: x in r <==> exists f :: f in StringSlice(value) && Lower(f) == x
  {
    var fs := StringSlice(value);
    var u := Unique(fs);
    StringSliceNoComma(value);
    assert forall i :: 0 <= i < |u| ==> u[i] in fs;
    LoweredFields(u);
    ToLowerSlice(u)
  }

  /** The as-written order keeps case-variant duplicates: a field followed
      by its own lower-case form (`Web,web`) yields the same tag twice. */
  lemma EnvTagsAsWrittenKeepsDuplicates(w: string)
    requires w != "" && IsTrimmed(w) && ',' !in w && Lower(w) != w
    ensures EnvTagsAsWritten(w + "," + Lower(w)) == [Lower(w), Lower(w)]
  {
    var l := Lower(w);
    NormalizedField(w);
    TrimSpaceOfTrimmed(w);
    assert l == Lower(TrimSpace(w));
    var v := w + "," + l;
    assert Split(v, ',') == [w, l] by {
      assert v == w + [','] + l;
      SplitConcat(w, ',', l);
      SplitSingle(l, ',');
    }
    assert StringSlice(v) == [w, l] by {
      assert l != "";
      NonEmptyTrimmedKeeps([w, l]);
    }
    assert Unique([w, l]) == [w, l] by {
      assert [w, l][..1] == [w];
      assert Unique([w]) == [w] by {
        assert [w][..0] == [];
      }
    }
    assert ToLowerSlice([w, l]) == [l, l] by {
      LowerIdempotent(w);
    }
  }

  /** Lower-casing trimmed, non-empty, comma-free fields keeps them so. */
  lemma LoweredFields(fs: seq<string>)
    requires forall i :: 0 <= i < |fs| ==> fs[i] != "" && IsTrimmed(fs[i]) && ',' !in fs[i]
    ensures forall x :: x in ToLowerSlice(fs) ==> x != "" && IsLowered(x) && IsTrimmed(x) && ',' !in x
    ensures forall x :: x in ToLowerSlice(fs) <==> exists f :: f in fs && Lower(f) == x
  {
    var lowered := ToLowerSlice(fs);
    forall i | 0 <= i < |lowered|
      ensures lowered[i] != "" && IsTrimmed(lowered[i]) && ',' !in lowered[i]
    {
      LowerKeepsTrimmed(fs[i]);
      forall k | 0 <= k < |fs[i]| ensures lowered[i][k] != ',' {
        LowerCharComma(fs[i][k]);
      }
    }
    forall x ensures x in lowered <==> exists f :: f in fs && Lower(f) == x {
      if x in lowered {
        var i :| 0 <= i < |lowered| && lowered[i] == x;
        assert fs[i] in fs && Lower(fs[i]) == x;
      }
      if exists f :: f in fs && Lower(f) == x {
        var f :| f in fs && Lower(f) == x;
        var i :| 0 <= i < |fs| && fs[i] == f;
        assert lowered[i] == x;
      }
    }
  }

  /** The tag list of an `Environment:` value as the instruction promises
      it: the non-empty fields, trimmed, lower-cased, then de-duplicated. */
  function EnvTags(value: string): (r: seq<string>)
    ensures Distinct(r)
    ensures forall i :: 0 <= i < |r| ==> r[i] != "" && IsLowered(r[i]) && IsTrimmed(r[i]) && ',' !in r[i]
    ensures forall x :: x in r <==> exists f :: f in StringSlice(value) && Lower(f) == x
  {
    var fs := StringSlice(value);
    StringSliceNoComma(value);
    LoweredFields(fs);
    var r := Unique(ToLowerSlice(fs));
    assert forall i :: 0 <= i < |r| ==> r[i] in ToLowerSlice(fs);
    r
  }

  /** The corrected list and the as-written one hold the same tags; only
      their repetitions differ. */
  lemma EnvTagsSameMembers(value: string, x: string)
    ensures x in EnvTagsAsWritten(value) <==> x in EnvTags(value)
  {
  }

  /** Once a step is finalized the difference is gone: its sorted, distinct
      tags are the same whichever list the instruction appended. */
  lemma EnvTagsFinalizeAlike(tags: seq<string>, value: string)
    ensures Normalize(tags + EnvTagsAsWritten(value)) == Normalize(tags + EnvTags(value))
  {
    forall x ensures x in tags + EnvTagsAsWritten(value) <==> x in tags + EnvTags(value) {
      EnvTagsSameMembers(value, x);
    }
    NormalizeSetDetermined(tags + EnvTagsAsWritten(value), tags + EnvTags(value));
  }
}

=== FILE: imports.dfy ===
/** The import directive: a markdown line `<<path.md>>` is rewritten, before
    rendering, into an HTML comment that carries the escaped path behind a
    fixed data prefix; the walker later turns such a comment back into an
    import node. */
module Imports {
  import opened Wrappers
  import opened Text
  import opened Types

  const DataPrefix := "__unsupported_import_zmcgv2epyv="
  const CommentOpen := "<!--"
  const CommentClose := "-->"

  // ---------------------------------------------------------------- recognising a directive

  /** The `\s` class of the directive pattern: tab, newline, form feed,
      carriage return and space. */
  predicate IsPatternSpace(c: char) {
    c == '\t' || c == '\n' || c == '\U{C}' || c == '\r' || c == ' '
  }

  predicate IsBracket(c: char) {
    c == '<' || c == '>' || c == '(' || c == ')'
  }

  /** Start of the run of pattern spaces that ends the line. */
  function TrailStart(s: string, j: nat): (k: nat)
    requires j <= |s|
    ensures k <= j
    ensures forall m :: k <= m < j ==> IsPatternSpace(s[m])
    ensures k > 0 ==> !IsPatternSpace(s[k - 1])
  {
    if j == 0 || !IsPatternSpace(s[j - 1]) then j else TrailStart(s, j - 1)
  }

  /** A path the group `([^<>()]+.md)` accepts: at least one character other
      than `<>()`, then any character but a newline, then `md`. */
  predicate IsImportPath(x: string) {
    |x| >= 4 && x[|x| - 2..] == "md" && x[|x| - 3] != '\n'
    && forall i :: 0 <= i < |x| - 3 ==> !IsBracket(x[i])
  }

  /** The path a line names if the whole line is a directive: `<<`, the path,
      `>>`, then nothing but pattern spaces. */
  function ImportPath(line: string): (r: Option<string>)
    ensures r.Some? ==> IsImportPath(r.value)
  {
    var core := line[..TrailStart(line, |line|)];
    if |core| >= 4 && core[..2] == "<<" && core[|core| - 2..] == ">>" && IsImportPath(core[2..|core| - 2])
    then Some(core[2..|core| - 2])
    else None
  }

  predicate AllPatternSpace(w: string) {
    forall i :: 0 <= i < |w| ==> IsPatternSpace(w[i])
  }

  /** Every directive is recognised, with its own path. */
  lemma ImportPathComplete(x: string, w: string)
    requires IsImportPath(x) && AllPatternSpace(w)
    ensures ImportPath("<<" + x + ">>" + w) == Some(x)
  {
    var line := "<<" + x + ">>" + w;
    var core := "<<" + x + ">>";
    assert line == core + w;
    TrailStartOf(core, w);
    assert line[..|core|] == core;
    assert core[2..|core| - 2] == x;
  }

  lemma TrailStartOf(core: string, w: string)
    requires |core| > 0 && !IsPatternSpace(core[|core| - 1]) && AllPatternSpace(w)
    ensures TrailStart(core + w, |core + w|) == |core|
  {
    var s := core + w;
    assert forall m :: |core| <= m < |s| ==> s[m] == w[m - |core|];
    assert s[|core| - 1] == core[|core| - 1];
  }

  /** Only directives are recognised: a recognised line is `<<`, its path,
      `>>` and trailing pattern spaces. */
  lemma ImportPathSound(line: string)
    requires ImportPath(line).Some?
    ensures exists w :: AllPatternSpace(w) && line == "<<" + ImportPath(line).value + ">>" + w
  {
    var k := TrailStart(line, |line|);
    var core := line[..k];
    var w := line[k..];
    assert AllPatternSpace(w) by {
      forall i | 0 <= i < |w| ensures IsPatternSpace(w[i]) {
        assert w[i] == line[k + i];
      }
    }
    assert core == "<<" + core[2..|core| - 2] + ">>";
    assert line == core + w;
  }

  // ---------------------------------------------------------------- HTML escaping

  function EscapeChar(c: char): string {
    if c == '&' then "&amp;"
    else if c == '\'' then "&#39;"
    else if c == '<' then "&lt;"
    else if c == '>' then "&gt;"
    else if c == '"' then "&#34;"
    else [c]
  }

  /** HTML escaping of the five special characters `& ' < > "`. */
  function Escape(s: string): (r: string)
    ensures |r| >= |s|
    ensures '\n' !in s ==> '\n' !in r
  {
    if s == [] then [] else EscapeChar(s[0]) + Escape(s[1..])
  }

  /** Reverses `Escape`, reading the five entities back. */
  function Unescape(s: string): string
    decreases |s|
  {
    if s == [] then []
    else if |s| >= 5 && s[..5] == "&amp;" then ['&'] + Unescape(s[5..])
    else if |s| >= 5 && s[..5] == "&#39;" then ['\''] + Unescape(s[5..])
    else if |s| >= 4 && s[..4] == "&lt;" then ['<'] + Unescape(s[4..])
    else if |s| >= 4 && s[..4] == "&gt;" then ['>'] + Unescape(s[4..])
    else if |s| >= 5 && s[..5] == "&#34;" then ['"'] + Unescape(s[5..])
    else [s[0]] + Unescape(s[1..])
  }

  lemma UnescapeAmp(rest: string)
    ensures Unescape("&amp;" + rest) == "&" + Unescape(rest)
  {
    var e := "&amp;" + rest;
    assert e[..5] == "&amp;" && e[5..] == rest;
  }

  lemma UnescapeApos(rest: string)
    ensures Unescape("&#39;" + rest) == "'" + Unescape(rest)
  {
    var e := "&#39;" + rest;
    assert e[1] == '#';
    assert e[..5] == "&#39;" && e[5..] == rest;
  }

  /** The two four-character entities, `&lt;` and `&gt;`. */
  lemma UnescapeAngle(c: char, rest: string)
    requires c == '<' || c == '>'
    ensures Unescape(EscapeChar(c) + rest) == [c] + Unescape(rest)
  {
    var e := EscapeChar(c) + rest;
    if c == '<' {
      assert e[3] == ';' && e[1] == 'l';
      assert e[..4] == "&lt;" && e[4..] == rest;
    } else {
      assert e[3] == ';' && e[1] == 'g';
      assert e[..4] == "&gt;" && e[4..] == rest;
    }
  }

  lemma UnescapeQuot(rest: string)
    ensures Unescape("&#34;" + rest) == "\"" + Unescape(rest)
  {
    var e := "&#34;" + rest;
    assert e[1] == '#' && e[2] == '3' && e[3] == '4';
    assert e[..5] == "&#34;" && e[5..] == rest;
  }

  /** Unescaping the escape of one character gives the character back,
      whatever follows it. */
  lemma UnescapeChar(c: char, rest: string)
    ensures Unescape(EscapeChar(c) + rest) == [c] + Unescape(rest)
  {
    if c == '&' {
      UnescapeAmp(rest);
    } else if c == '\'' {
      UnescapeApos(rest);
    } else if c == '<' || c == '>' {
      UnescapeAngle(c, rest);
    } else if c == '"' {
      UnescapeQuot(rest);
    } else {
      var e := [c] + rest;
      assert e[0] == c && e[1..] == rest;
    }
  }

  /** Escaping loses nothing. */
  lemma {:induction false} UnescapeEscape(s: string)
    ensures Unescape(Escape(s)) == s
  {
    if s != [] {
      UnescapeEscape(s[1..]);
      UnescapeChar(s[0], Escape(s[1..]));
    }
  }

  // ---------------------------------------------------------------- rewriting lines

  /** The comment body a directive's line carries. */
  function MarkerBody(path: string): string {
    DataPrefix + Escape(path)
  }

  function Marker(path: string): string {
    CommentOpen + MarkerBody(path) + CommentClose
  }

  function ConvertLine(line: string): (r: string)
    ensures '\n' !in line ==> '\n' !in r
  {
    match ImportPath(line)
    case None => line
    case Some(p) =>
      ImportPathInLine(line);
      MarkerNoNewline(p);
      Marker(p)
  }

  /** The path is a piece of the line. */
  lemma ImportPathInLine(line: string)
    ensures ImportPath(line).Some? ==> forall c :: c in ImportPath(line).value ==> c in line
  {
    if ImportPath(line).Some? {
      var p := ImportPath(line).value;
      var t := TrailStart(line, |line|);
      assert p == line[2..t - 2];
      forall c | c in p ensures c in line {
        var i :| 0 <= i < |p| && p[i] == c;
        assert line[i + 2] == c;
      }
    }
  }

  lemma MarkerNoNewline(p: string)
    ensures '\n' !in p ==> '\n' !in Marker(p)
  {
    var e := Escape(p);
    assert '\n' !in CommentOpen && '\n' !in DataPrefix && '\n' !in CommentClose;
    assert Marker(p) == CommentOpen + DataPrefix + e + CommentClose;
  }

  function ConvertLines(lines: seq<string>): (r: seq<string>)
    ensures |r| == |lines|
    ensures forall i :: 0 <= i < |lines| ==> r[i] == ConvertLine(lines[i])
  {
    seq(|lines|, i requires 0 <= i < |lines| => ConvertLine(lines[i]))
  }

  /** Rewrites every directive line of a markdown text into its comment. */
  function ConvertImports(content: string): string {
    Join(ConvertLines(Split(content, '\n')), '\n')
  }

  /** The converted text has the same lines, each one rewritten on its own:
      lines that are not directives are kept as they are, directives become
      their comment. */
  lemma ConvertImportsLines(content: string)
    ensures Split(ConvertImports(content), '\n') == ConvertLines(Split(content, '\n'))
    ensures |Split(ConvertImports(content), '\n')| == |Split(content, '\n')|
  {
    var lines := Split(content, '\n');
    var out := ConvertLines(lines);
    forall i | 0 <= i < |out| ensures '\n' !in out[i] {
      assert '\n' !in lines[i];
    }
    SplitJoin(out, '\n');
  }

  lemma ConvertLineKeeps(line: string)
    requires ImportPath(line).None?
    ensures ConvertLine(line) == line
  {
  }

  /** A text without directives comes through unchanged. */
  lemma ConvertImportsIdentity(content: string)
    requires forall i :: 0 <= i < |Split(content, '\n')| ==> ImportPath(Split(content, '\n')[i]).None?
    ensures ConvertImports(content) == content
  {
    var lines := Split(content, '\n');
    assert ConvertLines(lines) == lines;
    JoinSplit(content, '\n');
  }

  // ---------------------------------------------------------------- reading a marker back

  /** The import node a marker comment gives: the body without its data
      prefix, when anything is left. */
  function FragmentImport(data: string): (r: Option<Node>)
    ensures r.Some? ==> r.value.Import? && r.value.url != "" && r.value.env == []
    ensures r.Some? && HasPrefix(data, DataPrefix) ==> DataPrefix + r.value.url == data
  {
    var url := TrimPrefix(data, DataPrefix);
    if url != "" then Some(Import(url, [])) else None
  }

  /** A directive's marker reads back as an import of the escaped path, which
      unescapes to the path itself. */
  lemma FragmentImportOfMarker(path: string)
    requires IsImportPath(path)
    ensures FragmentImport(MarkerBody(path)) == Some(Import(Escape(path), []))
    ensures Unescape(FragmentImport(MarkerBody(path)).value.url) == path
  {
    var body := MarkerBody(path);
    assert body[..|DataPrefix|] == DataPrefix;
    assert body[|DataPrefix|..] == Escape(path);
    UnescapeEscape(path);
  }

  /** Full trip: the comment written for a directive line yields an import
      node whose unescaped url is the line's path. */
  lemma DirectiveRoundTrip(x: string, w: string)
    requires IsImportPath(x) && AllPatternSpace(w)
    ensures ConvertLine("<<" + x + ">>" + w) == CommentOpen + MarkerBody(x) + CommentClose
    ensures Unescape(FragmentImport(MarkerBody(x)).value.url) == x
  {
    ImportPathComplete(x, w);
    FragmentImportOfMarker(x);
  }
}

=== FILE: metadata.dfy ===
/** The codelab metadata block: the first paragraph of the document, one
    `key: value` pair per line, folded into a map and then into the codelab's
    fields. */
module Metadata {
  import opened Wrappers
  import opened Text
  import opened Fields
  import opened Types

  const MetaAuthors := "authors"
  const MetaBadgePath := "badge path"
  const MetaSummary := "summary"
  const MetaID := "id"
  const MetaCategories := "categories"
  const MetaEnvironments := "environments"
  const MetaStatus := "status"
  const MetaFeedbackLink := "feedback link"
  const MetaAnalyticsAccount := "analytics account"
  const MetaTags := "tags"

  // ---------------------------------------------------------------- lines

  /** Drops one trailing carriage return, as the line scanner does. */
  function DropCR(s: string): (r: string)
    ensures s == r || s == r + ['\r']
    ensures |r| > 0 ==> r[|r| - 1] != '\r' || s == r + ['\r']
  {
    if |s| > 0 && s[|s| - 1] == '\r' then s[..|s| - 1] else s
  }

  /** The lines a line scanner yields from the newline-separated pieces of a
      text: no empty piece after a final newline, one trailing carriage
      return removed from each. */
  function ScanPieces(pieces: seq<string>): (r: seq<string>)
    requires |pieces| >= 1
    ensures |r| == if pieces[|pieces| - 1] == "" then |pieces| - 1 else |pieces|
    ensures forall i :: 0 <= i < |r| ==> DropCR(pieces[i]) == r[i]
  {
    var kept := if pieces[|pieces| - 1] == "" then pieces[..|pieces| - 1] else pieces;
    seq(|kept|, i requires 0 <= i < |kept| => DropCR(kept[i]))
  }

  function ScanLines(d: string): (r: seq<string>)
    ensures forall i :: 0 <= i < |r| ==> '\n' !in r[i]
  {
    var pieces := Split(d, '\n');
    var r := ScanPieces(pieces);
    assert forall i :: 0 <= i < |r| ==> '\n' !in pieces[i];
    r
  }

  predicate CleanLine(line: string) {
    '\n' !in line && (|line| == 0 || line[|line| - 1] != '\r')
  }

  lemma ScanPiecesOfClean(lines: seq<string>, pieces: seq<string>)
    requires pieces == lines || pieces == lines + [""]
    requires |pieces| >= 1
    requires pieces[|pieces| - 1] == "" <==> pieces != lines
    requires forall i :: 0 <= i < |lines| ==> CleanLine(lines[i])
    ensures ScanPieces(pieces) == lines
  {
    var r := ScanPieces(pieces);
    forall i | 0 <= i < |lines| ensures r[i] == lines[i] {
      assert pieces[i] == lines[i];
      assert CleanLine(lines[i]);
    }
  }

  /** Newline-terminated lines are recovered exactly. */
  lemma ScanLinesOfTerminated(lines: seq<string>)
    requires forall i :: 0 <= i < |lines| ==> CleanLine(lines[i])
    ensures ScanLines(Join(lines + [""], '\n')) == lines
  {
    var all := lines + [""];
    forall i | 0 <= i < |all| ensures '\n' !in all[i] {
      if i < |lines| { assert all[i] == lines[i] && CleanLine(lines[i]); }
    }
    SplitJoin(all, '\n');
    ScanPiecesOfClean(lines, all);
  }

  /** Lines whose last one is not empty are recovered without a final newline. */
  lemma ScanLinesOfUnterminated(lines: seq<string>)
    requires |lines| >= 1 && lines[|lines| - 1] != ""
    requires forall i :: 0 <= i < |lines| ==> CleanLine(lines[i])
    ensures ScanLines(Join(lines, '\n')) == lines
  {
    forall i | 0 <= i < |lines| ensures '\n' !in lines[i] {
      assert CleanLine(lines[i]);
    }
    SplitJoin(lines, '\n');
    ScanPiecesOfClean(lines, lines);
  }

  // ---------------------------------------------------------------- one line

  datatype Entry = Entry(key: string, value: string)

  /** A colon the metadata pattern `(.+?):(.+)` can split at: at least one
      character before it and one after it. */
  predicate IsKeyColon(line: string, i: int) {
    1 <= i && i + 2 <= |line| && line[i] == ':'
  }

  /** The first key colon at or after `from`, which is where the lazy key
      group of the pattern stops. */
  function KeyColon(line: string, from: nat): (r: Option<nat>)
    requires from >= 1
    ensures r.Some? ==> from <= r.value && IsKeyColon(line, r.value)
    ensures r.Some? ==> forall j :: from <= j < r.value ==> !IsKeyColon(line, j)
    ensures r.None? ==> forall j :: from <= j ==> !IsKeyColon(line, j)
    decreases |line| - from
  {
    if from + 2 > |line| then None
    else if line[from] == ':' then Some(from)
    else KeyColon(line, from + 1)
  }

  /** The key and value one metadata line sets, if the pattern matches it:
      the key is the text before the first usable colon, trimmed and lower
      cased; the value is the rest, trimmed. */
  function MetadataLine(line: string): (r: Option<Entry>)
    ensures r.Some? <==> exists j :: IsKeyColon(line, j)
    ensures r.Some? ==> IsLowered(r.value.key) && IsTrimmed(r.value.key) && IsTrimmed(r.value.value)
  {
    match KeyColon(line, 1)
    case None => None
    case Some(i) =>
      var key := TrimSpace(line[..i]);
      LowerIdempotent(key);
      LowerKeepsTrimmed(key);
      Some(Entry(Lower(key), TrimSpace(line[i + 1..])))
  }

  /** `j` is the leftmost key colon of the line. */
  predicate FirstKeyColon(line: string, j: int) {
    IsKeyColon(line, j) && forall k :: 0 <= k < j ==> !IsKeyColon(line, k)
  }

  /** The line splits at its leftmost key colon: the key is everything
      before it, the value everything after it. */
  lemma MetadataLineSplit(line: string, j: int)
    requires FirstKeyColon(line, j)
    ensures MetadataLine(line) == Some(Entry(Lower(TrimSpace(line[..j])), TrimSpace(line[j + 1..])))
  {
  }

  /** A line written as `key:value`, with no colon in the key, sets exactly
      that key (trimmed, lower cased) to that value (trimmed). */
  lemma MetadataLineOf(key: string, value: string)
    requires key != "" && value != "" && ':' !in key
    ensures MetadataLine(key + ":" + value) == Some(Entry(Lower(TrimSpace(key)), TrimSpace(value)))
  {
    var line := key + ":" + value;
    assert IsKeyColon(line, |key|);
    forall j | 0 <= j < |key| ensures !IsKeyColon(line, j) {
      assert line[j] == key[j];
    }
    assert line[..|key|] == key;
    assert line[|key| + 1..] == value;
    MetadataLineSplit(line, |key|);
  }

  predicate Sets(e: Option<Entry>, k: string) {
    e.Some? && e.value.key == k
  }

  /** Entry `i` is the last of `es` that sets key `k`. */
  predicate LastSetter(es: seq<Option<Entry>>, i: int, k: string) {
    0 <= i < |es| && Sets(es[i], k) && forall j :: i < j < |es| ==> !Sets(es[j], k)
  }

  /** Folds the entries of a block into a map: a later entry for the same key
      replaces the value of an earlier one. */
  function Fold(es: seq<Option<Entry>>): map<string, string> {
    if es == [] then map[]
    else
      var m0 := Fold(es[..|es| - 1]);
      match es[|es| - 1]
      case None => m0
      case Some(e) => m0[e.key := e.value]
  }

  /** A key is in the map exactly when some entry sets it, and its value is the
      one the last such entry gives. */
  lemma {:induction false} FoldLastWins(es: seq<Option<Entry>>, k: string)
    ensures k in Fold(es) <==> exists i :: 0 <= i < |es| && Sets(es[i], k)
    ensures k in Fold(es) ==> exists i :: (LastSetter(es, i, k) && Fold(es)[k] == es[i].value.value)
    decreases |es|
  {
    if es != [] {
      var n := |es| - 1;
      var init := es[..n];
      FoldLastWins(init, k);
      assert forall i :: 0 <= i < n ==> init[i] == es[i];
      if Sets(es[n], k) {
        assert LastSetter(es, n, k);
      } else {
        if k in Fold(init) {
          var i :| LastSetter(init, i, k) && Fold(init)[k] == init[i].value.value;
          assert LastSetter(es, i, k);
        }
        if exists i :: 0 <= i < |es| && Sets(es[i], k) {
          var i :| 0 <= i < |es| && Sets(es[i], k);
          assert i < n && Sets(init[i], k);
        }
      }
    }
  }

  lemma LastSetterUnique(es: seq<Option<Entry>>, i: int, j: int, k: string)
    requires LastSetter(es, i, k) && LastSetter(es, j, k)
    ensures i == j
  {
  }

  function Entries(lines: seq<string>): (es: seq<Option<Entry>>)
    ensures |es| == |lines|
    ensures forall i :: 0 <= i < |lines| ==> es[i] == MetadataLine(lines[i])
  {
    seq(|lines|, i requires 0 <= i < |lines| => MetadataLine(lines[i]))
  }

  /** The metadata map of a block's lines. */
  function MetadataMap(lines: seq<string>): (m: map<string, string>) {
    Fold(Entries(lines))
  }

  // ---------------------------------------------------------------- codelab fields

  /** The codelab fields a metadata key can set; every other key is `Other`. */
  datatype MetaField =
    | Authors | BadgePath | Summary | Id | Categories | Environments
    | Status | FeedbackLink | AnalyticsAccount | Tags | Other

  /** The key that names a known field. */
  function KeyName(f: MetaField): string
    requires f != Other
  {
    match f
    case Authors => MetaAuthors
    case BadgePath => MetaBadgePath
    case Summary => MetaSummary
    case Id => MetaID
    case Categories => MetaCategories
    case Environments => MetaEnvironments
    case Status => MetaStatus
    case FeedbackLink => MetaFeedbackLink
    case AnalyticsAccount => MetaAnalyticsAccount
    case Tags => MetaTags
  }

  /** The field a key selects, one case per known key. */
  function FieldOf(k: string): (f: MetaField)
    ensures f != Other ==> KeyName(f) == k
  {
    if k == MetaAuthors then Authors
    else if k == MetaBadgePath then BadgePath
    else if k == MetaSummary then Summary
    else if k == MetaID then Id
    else if k == MetaCategories then Categories
    else if k == MetaEnvironments then Environments
    else if k == MetaStatus then Status
    else if k == MetaFeedbackLink then FeedbackLink
    else if k == MetaAnalyticsAccount then AnalyticsAccount
    else if k == MetaTags then Tags
    else Other
  }

  /** Every known field is selected by its own key, so no two fields share a key. */
  lemma FieldOfKeyName(f: MetaField)
    requires f != Other
    ensures FieldOf(KeyName(f)) == f
  {
  }

  predicate IsKnownKey(k: string) {
    FieldOf(k) != Other
  }

  /** The effect of one metadata key on the codelab: scalar fields take the
      value, categories and tags are appended, status is replaced, and an
      unknown key is copied to the extra fields only when the caller asked for
      it to be passed through. */
  function ApplyKey(k: string, v: string, c: Codelab, pass: set<string>): (r: Codelab)
    ensures !IsKnownKey(k) && k !in pass ==> r == c
    ensures FieldOf(k) != Environments && FieldOf(k) != Tags ==> r.tags == c.tags
    ensures r.steps == c.steps && r.title == c.title && r.duration == c.duration
  {
    match FieldOf(k)
    case Authors => c.(authors := v)
    case BadgePath => c.(badgePath := v)
    case Summary => c.(summary := v)
    case Id => c.(id := v)
    case Categories => c.(categories := c.categories + StandardSplit(v))
    case Environments => c.(tags := c.tags + StandardSplit(v))
    case Status => c.(status := Some(StandardSplit(v)))
    case FeedbackLink => c.(feedback := v)
    case AnalyticsAccount => c.(ga := v)
    case Tags => c.(tags := c.tags + StandardSplit(v))
    case Other => if k in pass then c.(extra := c.extra[k := v]) else c
  }

  /** Applies the keys of `m` in the order `keys` enumerates them; the source
      ranges over a map, whose order is unspecified. */
  function ApplyKeys(keys: seq<string>, m: map<string, string>, c: Codelab, pass: set<string>): Codelab
    requires forall i :: 0 <= i < |keys| ==> keys[i] in m
  {
    if keys == [] then c
    else ApplyKeys(keys[1..], m, ApplyKey(keys[0], m[keys[0]], c, pass), pass)
  }

  predicate Has(m: map<string, string>, ks: set<string>, f: MetaField)
    requires f != Other
  {
    KeyName(f) in ks && KeyName(f) in m
  }

  function SplitIf(m: map<string, string>, ks: set<string>, f: MetaField): seq<string>
    requires f != Other
  {
    if Has(m, ks, f) then StandardSplit(m[KeyName(f)]) else []
  }

  function ValueIf(m: map<string, string>, ks: set<string>, f: MetaField, dflt: string): string
    requires f != Other
  {
    if Has(m, ks, f) then m[KeyName(f)] else dflt
  }

  function Passed(m: map<string, string>, ks: set<string>, pass: set<string>): map<string, string> {
    map k | k in ks && k in m && !IsKnownKey(k) && k in pass :: m[k]
  }

  /** The order-free meaning of applying the keys `ks` of `m`. */
  function AddFrom(m: map<string, string>, ks: set<string>, c: Codelab, pass: set<string>): Codelab {
    c.(authors := ValueIf(m, ks, Authors, c.authors),
       badgePath := ValueIf(m, ks, BadgePath, c.badgePath),
       summary := ValueIf(m, ks, Summary, c.summary),
       id := ValueIf(m, ks, Id, c.id),
       categories := c.categories + SplitIf(m, ks, Categories),
       tags := c.tags + SplitIf(m, ks, Environments) + SplitIf(m, ks, Tags),
       status := if Has(m, ks, Status) then Some(StandardSplit(m[MetaStatus])) else c.status,
       feedback := ValueIf(m, ks, FeedbackLink, c.feedback),
       ga := ValueIf(m, ks, AnalyticsAccount, c.ga),
       extra := c.extra + Passed(m, ks, pass))
  }

  function AddMetadata(m: map<string, string>, c: Codelab, pass: set<string>): Codelab {
    AddFrom(m, m.Keys, c, pass)
  }

  /** The id key, when present, sets the codelab id. */
  lemma AddMetadataId(m: map<string, string>, c: Codelab, pass: set<string>)
    requires MetaID in m
    ensures AddMetadata(m, c, pass).id == m[MetaID]
  {
    assert KeyName(Id) == MetaID;
  }

  /** With no keys, nothing changes. */
  lemma AddFromNothing(m: map<string, string>, c: Codelab, pass: set<string>)
    ensures AddFrom(m, {}, c, pass) == c
  {
    assert Passed(m, {}, pass) == map[];
    assert c.extra + map[] == c.extra;
  }

  /** Two codelabs that differ at most in the order of their tags. */
  predicate SameUpToTagOrder(a: Codelab, b: Codelab) {
    a.(tags := b.tags) == b && multiset(a.tags) == multiset(b.tags)
  }

  lemma SameUpToTagOrderTrans(a: Codelab, b: Codelab, c: Codelab)
    requires SameUpToTagOrder(a, b) && SameUpToTagOrder(b, c)
    ensures SameUpToTagOrder(a, c)
  {
  }

  /** Adding key `k` to the key set adds exactly the field `k` selects. */
  lemma HasStep(m: map<string, string>, ks: set<string>, k: string, f: MetaField)
    requires k in m && k !in ks && f != Other
    ensures Has(m, ks + {k}, f) <==> Has(m, ks, f) || FieldOf(k) == f
    ensures FieldOf(k) == f ==> !Has(m, ks, f) && KeyName(f) == k
  {
    if FieldOf(k) != f {
      FieldOfKeyName(f);
    }
  }

  /** The fields one key leaves to the codelab it is applied to. */
  lemma ApplyKeyFields(k: string, v: string, c: Codelab, pass: set<string>)
    ensures var r := ApplyKey(k, v, c, pass);
      && r.authors == (if FieldOf(k) == Authors then v else c.authors)
      && r.badgePath == (if FieldOf(k) == BadgePath then v else c.badgePath)
      && r.summary == (if FieldOf(k) == Summary then v else c.summary)
      && r.id == (if FieldOf(k) == Id then v else c.id)
      && r.feedback == (if FieldOf(k) == FeedbackLink then v else c.feedback)
      && r.ga == (if FieldOf(k) == AnalyticsAccount then v else c.ga)
      && r.categories == c.categories + (if FieldOf(k) == Categories then StandardSplit(v) else [])
      && r.status == (if FieldOf(k) == Status then Some(StandardSplit(v)) else c.status)
      && r.tags == c.tags + (if FieldOf(k) in {Environments, Tags} then StandardSplit(v) else [])
  {
  }

  /** Adding a key to the set moves a scalar field's value the same way as
      applying the key first. */
  lemma ValueIfStep(m: map<string, string>, ks: set<string>, k: string, f: MetaField, before: string, after: string)
    requires k in m && k !in ks && f != Other
    requires after == (if FieldOf(k) == f then m[k] else before)
    ensures ValueIf(m, ks, f, after) == ValueIf(m, ks + {k}, f, before)
  {
    HasStep(m, ks, k, f);
  }

  lemma SplitIfStep(m: map<string, string>, ks: set<string>, k: string, f: MetaField)
    requires k in m && k !in ks && f != Other
    ensures SplitIf(m, ks + {k}, f) == (if FieldOf(k) == f then StandardSplit(m[k]) else SplitIf(m, ks, f))
    ensures FieldOf(k) == f ==> SplitIf(m, ks, f) == []
  {
    HasStep(m, ks, k, f);
  }

  lemma CommutesNames(m: map<string, string>, k: string, ks: set<string>, c: Codelab, pass: set<string>)
    requires k in m && k !in ks
    ensures var a := AddFrom(m, ks, ApplyKey(k, m[k], c, pass), pass);
      var b := AddFrom(m, ks + {k}, c, pass);
      a.id == b.id && a.authors == b.authors && a.badgePath == b.badgePath && a.summary == b.summary
  {
    var c1 := ApplyKey(k, m[k], c, pass);
    ApplyKeyFields(k, m[k], c, pass);
    ValueIfStep(m, ks, k, Authors, c.authors, c1.authors);
    ValueIfStep(m, ks, k, BadgePath, c.badgePath, c1.badgePath);
    ValueIfStep(m, ks, k, Summary, c.summary, c1.summary);
    ValueIfStep(m, ks, k, Id, c.id, c1.id);
  }

  lemma CommutesOthers(m: map<string, string>, k: string, ks: set<string>, c: Codelab, pass: set<string>)
    requires k in m && k !in ks
    ensures var a := AddFrom(m, ks, ApplyKey(k, m[k], c, pass), pass);
      var b := AddFrom(m, ks + {k}, c, pass);
      a.categories == b.categories && a.status == b.status && a.feedback == b.feedback && a.ga == b.ga
  {
    var c1 := ApplyKey(k, m[k], c, pass);
    ApplyKeyFields(k, m[k], c, pass);
    SplitIfStep(m, ks, k, Categories);
    HasStep(m, ks, k, Status);
    ValueIfStep(m, ks, k, FeedbackLink, c.feedback, c1.feedback);
    ValueIfStep(m, ks, k, AnalyticsAccount, c.ga, c1.ga);
  }

  lemma CommutesTags(m: map<string, string>, k: string, ks: set<string>, c: Codelab, pass: set<string>)
    requires k in m && k !in ks
    ensures multiset(AddFrom(m, ks, ApplyKey(k, m[k], c, pass), pass).tags) == multiset(AddFrom(m, ks + {k}, c, pass).tags)
  {
    ApplyKeyFields(k, m[k], c, pass);
    SplitIfStep(m, ks, k, Environments);
    SplitIfStep(m, ks, k, Tags);
    var x := if FieldOf(k) in {Environments, Tags} then StandardSplit(m[k]) else [];
    AddFromTags(m, ks, ApplyKey(k, m[k], c, pass), pass);
    AddFromTags(m, ks + {k}, c, pass);
    TagsShuffle(c.tags, x, SplitIf(m, ks, Environments), SplitIf(m, ks, Tags));
  }

  lemma AddFromTags(m: map<string, string>, ks: set<string>, c: Codelab, pass: set<string>)
    ensures AddFrom(m, ks, c, pass).tags == c.tags + SplitIf(m, ks, Environments) + SplitIf(m, ks, Tags)
  {
  }

  /** The three ways one more tag group can land, as multisets. */
  lemma TagsShuffle(a: seq<string>, x: seq<string>, e: seq<string>, t: seq<string>)
    ensures multiset(a + x + [] + t) == multiset(a + x + t)
    ensures multiset(a + x + e + []) == multiset(a + e + x)
    ensures multiset(a + [] + e + t) == multiset(a + e + t)
  {
    assert a + x + [] + t == a + x + t;
    assert a + [] + e + t == a + e + t;
  }

  lemma CommutesExtra(m: map<string, string>, k: string, ks: set<string>, c: Codelab, pass: set<string>)
    requires k in m && k !in ks
    ensures AddFrom(m, ks, ApplyKey(k, m[k], c, pass), pass).extra == AddFrom(m, ks + {k}, c, pass).extra
  {
    var c1 := ApplyKey(k, m[k], c, pass);
    if !IsKnownKey(k) && k in pass {
      assert Passed(m, ks + {k}, pass) == Passed(m, ks, pass)[k := m[k]];
      assert c1.extra + Passed(m, ks, pass) == c.extra + Passed(m, ks + {k}, pass);
    } else {
      assert Passed(m, ks + {k}, pass) == Passed(m, ks, pass);
      assert c1.extra == c.extra;
    }
  }

  /** Applying one more key first is the same as adding it to the key set. */
  lemma ApplyKeyCommutes(m: map<string, string>, k: string, ks: set<string>, c: Codelab, pass: set<string>)
    requires k in m && k !in ks
    ensures SameUpToTagOrder(AddFrom(m, ks, ApplyKey(k, m[k], c, pass), pass), AddFrom(m, ks + {k}, c, pass))
  {
    CommutesNames(m, k, ks, c, pass);
    CommutesOthers(m, k, ks, c, pass);
    CommutesTags(m, k, ks, c, pass);
    CommutesExtra(m, k, ks, c, pass);
  }

  /** Applying the keys in any duplicate-free order yields the order-free
      meaning, up to the order of the tags. */
  lemma {:induction false} ApplyKeysAgrees(keys: seq<string>, m: map<string, string>, c: Codelab, pass: set<string>)
    requires forall i :: 0 <= i < |keys| ==> keys[i] in m
    requires forall i, j :: 0 <= i < j < |keys| ==> keys[i] != keys[j]
    ensures SameUpToTagOrder(ApplyKeys(keys, m, c, pass), AddFrom(m, (set x | x in keys), c, pass))
    decreases |keys|
  {
    if keys == [] {
      assert (set x | x in keys) == {};
      AddFromNothing(m, c, pass);
    } else {
      var k := keys[0];
      var rest := keys[1..];
      var c1 := ApplyKey(k, m[k], c, pass);
      KeysTail(keys, m);
      ApplyKeysAgrees(rest, m, c1, pass);
      var rs := set x | x in rest;
      ApplyKeyCommutes(m, k, rs, c, pass);
      SameUpToTagOrderTrans(ApplyKeys(rest, m, c1, pass), AddFrom(m, rs, c1, pass), AddFrom(m, rs + {k}, c, pass));
    }
  }

  /** The tail of a duplicate-free enumeration of keys of `m` is one too,
      and lacks the head. */
  lemma KeysTail(keys: seq<string>, m: map<string, string>)
    requires keys != []
    requires forall i :: 0 <= i < |keys| ==> keys[i] in m
    requires forall i, j :: 0 <= i < j < |keys| ==> keys[i] != keys[j]
    ensures keys[0] !in (set x | x in keys[1..])
    ensures forall i :: 0 <= i < |keys[1..]| ==> keys[1..][i] in m
    ensures forall i, j :: 0 <= i < j < |keys[1..]| ==> keys[1..][i] != keys[1..][j]
    ensures (set x | x in keys) == (set x | x in keys[1..]) + {keys[0]}
  {
    var rest := keys[1..];
    assert forall j :: 0 <= j < |rest| ==> rest[j] == keys[j + 1];
    assert keys == [keys[0]] + rest;
  }

  /** The map ranged over in any order gives the same codelab up to tag order. */
  lemma AddMetadataOrderFree(keys: seq<string>, m: map<string, string>, c: Codelab, pass: set<string>)
    requires (set x | x in keys) == m.Keys
    requires forall i, j :: 0 <= i < j < |keys| ==> keys[i] != keys[j]
    ensures SameUpToTagOrder(ApplyKeys(keys, m, c, pass), AddMetadata(m, c, pass))
  {
    forall i | 0 <= i < |keys| ensures keys[i] in m {
      assert keys[i] in (set x | x in keys);
    }
    ApplyKeysAgrees(keys, m, c, pass);
  }

  // ---------------------------------------------------------------- the block

  const ErrMissingID := "invalid metadata format, missing at least id"

  /** Parses the metadata block `d` into the codelab `c`; fails exactly when
      no line sets a non-empty id. */
  function ParseMetadata(d: string, c: Codelab, pass: set<string>): (r: Result<Codelab, string>)
    ensures r.Failure? ==> r.error == ErrMissingID
    ensures r.Success? ==> r.value.id != "" && r.value.steps == c.steps && r.value.title == c.title
    ensures r.Success? ==> c.tags <= r.value.tags
  {
    var m := MetadataMap(ScanLines(d));
    if MetaID !in m || m[MetaID] == "" then Failure(ErrMissingID)
    else
      AddMetadataId(m, c, pass);
      Success(AddMetadata(m, c, pass))
  }

  /** A key has a non-empty value in the folded map exactly when the last
      entry setting it gives a non-empty value. */
  lemma FoldNonEmpty(es: seq<Option<Entry>>, k: string)
    ensures (k in Fold(es) && Fold(es)[k] != "") <==>
      exists i :: LastSetter(es, i, k) && es[i].value.value != ""
  {
    FoldLastWins(es, k);
    if k in Fold(es) {
      var i :| LastSetter(es, i, k) && Fold(es)[k] == es[i].value.value;
      forall i' | LastSetter(es, i', k) ensures i' == i {
        LastSetterUnique(es, i, i', k);
      }
    }
  }

  /** The block is accepted exactly when some line sets the id and the last
      such line gives it a non-empty value. */
  lemma ParseMetadataId(d: string, c: Codelab, pass: set<string>)
    ensures ParseMetadata(d, c, pass).Success? <==>
      exists i :: LastSetter(Entries(ScanLines(d)), i, MetaID) && Entries(ScanLines(d))[i].value.value != ""
  {
    FoldNonEmpty(Entries(ScanLines(d)), MetaID);
  }

  /** An accepted block's id is the value of the id key. */
  lemma ParseMetadataSetsId(d: string, c: Codelab, pass: set<string>)
    requires ParseMetadata(d, c, pass).Success?
    ensures MetaID in MetadataMap(ScanLines(d))
    ensures ParseMetadata(d, c, pass).value.id == MetadataMap(ScanLines(d))[MetaID]
  {
    AddMetadataId(MetadataMap(ScanLines(d)), c, pass);
  }
}

=== FILE: numeric.dfy ===
/** Decimal integers as Go's strconv.Atoi reads them and as fmt's %d writes
    them, and Go's truncating integer division. */
module Numeric {

  const MaxInt64: int := 0x7FFF_FFFF_FFFF_FFFF
  const MinInt64: int := -0x8000_0000_0000_0000
  const MaxUint64: int := 0xFFFF_FFFF_FFFF_FFFF

  predicate IsDigit(c: char) {
    '0' <= c <= '9'
  }

  predicate AllDigits(s: string) {
    forall i :: 0 <= i < |s| ==> IsDigit(s[i])
  }

  function DigitValue(c: char): nat
    requires IsDigit(c)
  {
    c as int - '0' as int
  }

  function DigitChar(d: nat): (c: char)
    requires d < 10
    ensures IsDigit(c) && DigitValue(c) == d
  {
    ('0' as int + d) as char
  }

  /** The value of a string of decimal digits, most significant first. */
  function DecimalValue(s: string): nat
    requires AllDigits(s)
  {
    if |s| == 0 then 0 else DecimalValue(s[..|s| - 1]) * 10 + DigitValue(s[|s| - 1])
  }

  /** The longest prefix of s made of digits. */
  function LeadingDigits(s: string): (r: string)
    ensures |r| <= |s| && r == s[..|r|] && AllDigits(r)
    ensures |r| < |s| ==> !IsDigit(s[|r|])
  {
    if |s| > 0 && IsDigit(s[0]) then
      var rest := LeadingDigits(s[1..]);
      assert [s[0]] + rest == s[..1 + |rest|];
      [s[0]] + rest
    else ""
  }

  /** The outcome of strconv.Atoi: a value, a syntax error, or a range error
      that still carries the clamped value Atoi returns alongside it. */
  datatype Parsed = Parsed(value: int) | SyntaxError | RangeError(clamped: int)

  /** strconv.Atoi on a 64-bit platform: an optional sign, then one or more
      decimal digits and nothing else. Digits are accumulated left to right,
      so an unsigned 64-bit overflow inside the leading digits is reported
      as a range error even when a bad character follows. */
  function Atoi(s: string): (r: Parsed)
    ensures r.Parsed? ==> MinInt64 <= r.value <= MaxInt64
    ensures r.Parsed? ==> |s| > 0 && (IsDigit(s[0]) || s[0] == '-' || s[0] == '+')
    ensures r.Parsed? ==> AllDigits(s[1..])
  {
    if |s| == 0 then SyntaxError
    else if s[0] == '-' || s[0] == '+' then AtoiDigits(s[0] == '-', s[1..])
    else AtoiDigits(false, s)
  }

  /** The part of Atoi after the optional sign. */
  function AtoiDigits(neg: bool, body: string): (r: Parsed)
    ensures r.Parsed? ==> MinInt64 <= r.value <= MaxInt64
    ensures r.Parsed? ==> |body| > 0 && AllDigits(body)
  {
    if |body| == 0 then SyntaxError
    else
      var run := LeadingDigits(body);
      var v: int := DecimalValue(run);
      if v > MaxUint64 then RangeError(if neg then MinInt64 else MaxInt64)
      else if |run| < |body| then SyntaxError
      else if neg then (if v > -MinInt64 then RangeError(MinInt64) else Parsed(-v))
      else if v > MaxInt64 then RangeError(MaxInt64)
      else Parsed(v)
  }

  /** The int Atoi returns whatever its error: 0 after a syntax error, the
      clamped bound after a range error. */
  function AtoiValue(s: string): int {
    match Atoi(s)
    case Parsed(v) => v
    case SyntaxError => 0
    case RangeError(c) => c
  }

  /** fmt's %d for a non-negative int. */
  function Itoa(n: nat): (r: string)
    ensures |r| >= 1 && AllDigits(r)
  {
    if n < 10 then [DigitChar(n)] else Itoa(n / 10) + [DigitChar(n % 10)]
  }

  lemma {:induction false} DecimalValueOfItoa(n: nat)
    ensures DecimalValue(Itoa(n)) == n
  {
    if n >= 10 {
      DecimalValueOfItoa(n / 10);
      var s := Itoa(n);
      assert s[..|s| - 1] == Itoa(n / 10);
    }
  }

  /** Reading back a rendered count gives the count. */
  lemma AtoiItoa(n: nat)
    requires n <= MaxInt64
    ensures Atoi(Itoa(n)) == Parsed(n)
  {
    var s := Itoa(n);
    DecimalValueOfItoa(n);
    assert LeadingDigits(s) == s;
  }

  /** A string holding a character that is neither a digit nor a leading
      sign never parses. */
  lemma AtoiRejects(s: string, i: nat)
    requires i < |s| && !IsDigit(s[i]) && (i > 0 || (s[0] != '-' && s[0] != '+'))
    ensures !Atoi(s).Parsed?
  {
  }

  /** The digit run of a string that starts with digits is exactly those
      digits. */
  lemma {:induction false} LeadingDigitsOfDigits(digits: string, rest: string)
    requires AllDigits(digits)
    requires rest == [] || !IsDigit(rest[0])
    ensures LeadingDigits(digits + rest) == digits
  {
    if |digits| > 0 {
      assert (digits + rest)[1..] == digits[1..] + rest;
      LeadingDigitsOfDigits(digits[1..], rest);
    }
  }

  /** An optional sign followed by one or more digits: the signed value when
      it fits in 64 bits, otherwise a range error clamped toward the sign. */
  lemma AtoiSigned(sign: string, digits: string)
    requires sign == "" || sign == "+" || sign == "-"
    requires |digits| >= 1 && AllDigits(digits)
    ensures sign == "-" && DecimalValue(digits) <= -MinInt64 ==> Atoi(sign + digits) == Parsed(-(DecimalValue(digits) as int))
    ensures sign == "-" && DecimalValue(digits) > -MinInt64 ==> Atoi(sign + digits) == RangeError(MinInt64)
    ensures sign != "-" && DecimalValue(digits) <= MaxInt64 ==> Atoi(sign + digits) == Parsed(DecimalValue(digits))
    ensures sign != "-" && DecimalValue(digits) > MaxInt64 ==> Atoi(sign + digits) == RangeError(MaxInt64)
  {
    LeadingDigitsOfDigits(digits, "");
    assert digits + "" == digits;
    if sign == "-" {
      AtoiNegative(digits);
    } else {
      AtoiNonNegative(sign, digits);
    }
  }

  lemma AtoiNegative(digits: string)
    requires |digits| >= 1 && LeadingDigits(digits) == digits
    ensures DecimalValue(digits) <= -MinInt64 ==> Atoi("-" + digits) == Parsed(-(DecimalValue(digits) as int))
    ensures DecimalValue(digits) > -MinInt64 ==> Atoi("-" + digits) == RangeError(MinInt64)
  {
    assert ("-" + digits)[1..] == digits;
    assert Atoi("-" + digits) == AtoiDigits(true, digits);
  }

  lemma AtoiNonNegative(sign: string, digits: string)
    requires sign == "" || sign == "+"
    requires |digits| >= 1 && LeadingDigits(digits) == digits
    ensures DecimalValue(digits) <= MaxInt64 ==> Atoi(sign + digits) == Parsed(DecimalValue(digits))
    ensures DecimalValue(digits) > MaxInt64 ==> Atoi(sign + digits) == RangeError(MaxInt64)
  {
    if sign == "" {
      assert sign + digits == digits;
      assert IsDigit(digits[0]);
    } else {
      assert (sign + digits)[1..] == digits;
    }
    assert Atoi(sign + digits) == AtoiDigits(false, digits);
  }

  /** Digits followed by anything else are a syntax error, unless the digits
      alone already overflow an unsigned 64-bit accumulator. */
  lemma AtoiTrailing(sign: string, digits: string, c: char, rest: string)
    requires sign == "" || sign == "+" || sign == "-"
    requires |digits| >= 1 && AllDigits(digits) && !IsDigit(c)
    requires DecimalValue(digits) <= MaxUint64
    ensures Atoi(sign + digits + [c] + rest) == SyntaxError
  {
    var after := [c] + rest;
    assert after[0] == c;
    var tail := digits + after;
    assert sign + digits + [c] + rest == sign + tail;
    LeadingDigitsOfDigits(digits, after);
    AtoiBodySyntax(sign, tail, digits);
  }

  /** The step of Atoi after the sign: a digit run shorter than the rest of
      the string, and not overflowing, is a syntax error. */
  lemma AtoiBodySyntax(sign: string, tail: string, run: string)
    requires sign == "" || sign == "+" || sign == "-"
    requires |run| >= 1 && LeadingDigits(tail) == run && |run| < |tail|
    requires DecimalValue(run) <= MaxUint64
    ensures Atoi(sign + tail) == SyntaxError
  {
    var s := sign + tail;
    if sign == "" {
      assert s == tail;
      assert IsDigit(s[0]);
      assert Atoi(s) == AtoiDigits(false, tail);
    } else {
      assert s[1..] == tail;
      assert Atoi(s) == AtoiDigits(sign == "-", tail);
    }
  }

  /** Go's integer division, truncating toward zero. */
  function TruncDiv(a: int, b: int): (q: int)
    requires b > 0
    ensures a >= 0 ==> q * b <= a < q * b + b
    ensures a < 0 ==> q * b - b < a <= q * b
  {
    if a >= 0 then a / b else -((-a) / b)
  }
}

=== FILE: order.dfy ===
/** Byte-wise string order as Go's sort.Strings uses it (on code points,
    which UTF-8 orders the same way), order-preserving de-duplication, and
    the "de-duplicate then sort" normalisation applied to every tag list. */
module Order {

  /** a sorts strictly before b. */
  predicate StrLt(a: string, b: string)
    decreases |a|
  {
    if |a| == 0 then |b| > 0
    else if |b| == 0 then false
    else if a[0] != b[0] then a[0] < b[0]
    else StrLt(a[1..], b[1..])
  }

  predicate StrLe(a: string, b: string) {
    a == b || StrLt(a, b)
  }

  lemma {:induction false} StrLtIrreflexive(a: string)
    ensures !StrLt(a, a)
  {
    if |a| > 0 {
      StrLtIrreflexive(a[1..]);
    }
  }

  lemma {:induction false} StrLtTransitive(a: string, b: string, c: string)
    requires StrLt(a, b) && StrLt(b, c)
    ensures StrLt(a, c)
    decreases |a|
  {
    if |a| > 0 && a[0] == b[0] && b[0] == c[0] {
      StrLtTransitive(a[1..], b[1..], c[1..]);
    }
  }

  lemma {:induction false} StrLtTotal(a: string, b: string)
    ensures a == b || StrLt(a, b) || StrLt(b, a)
    decreases |a|
  {
    if |a| > 0 && |b| > 0 && a[0] == b[0] {
      StrLtTotal(a[1..], b[1..]);
      if a[1..] == b[1..] {
        assert a == [a[0]] + a[1..] && b == [b[0]] + b[1..];
      }
    }
  }

  lemma StrLtAsymmetric(a: string, b: string)
    requires StrLt(a, b)
    ensures !StrLt(b, a)
  {
    if StrLt(b, a) {
      StrLtTransitive(a, b, a);
      StrLtIrreflexive(a);
    }
  }

  predicate Sorted(s: seq<string>) {
    forall i, j :: 0 <= i < j < |s| ==> StrLe(s[i], s[j])
  }

  predicate StrictlySorted(s: seq<string>) {
    forall i, j :: 0 <= i < j < |s| ==> StrLt(s[i], s[j])
  }

  predicate Distinct<T(==)>(s: seq<T>) {
    forall i, j :: 0 <= i < j < |s| ==> s[i] != s[j]
  }

  predicate LowerBound(x: string, s: seq<string>) {
    forall i :: 0 <= i < |s| ==> StrLe(x, s[i])
  }

  /** Inserts x into a sorted list, before the first element not below it. */
  function Insert(x: string, s: seq<string>): (r: seq<string>)
    requires Sorted(s)
    ensures multiset(r) == multiset(s) + multiset{x}
    ensures Sorted(r)
  {
    if |s| == 0 then [x]
    else if StrLe(x, s[0]) then
      InsertFront(x, s);
      [x] + s
    else
      StrLtTotal(x, s[0]);
      var rest := Insert(x, s[1..]);
      assert s == [s[0]] + s[1..];
      InsertBelow(s[0], x, s[1..], rest);
      [s[0]] + rest
  }

  lemma InsertFront(x: string, s: seq<string>)
    requires Sorted(s) && |s| > 0 && StrLe(x, s[0])
    ensures Sorted([x] + s)
  {
    var r := [x] + s;
    forall i, j | 0 <= i < j < |r|
      ensures StrLe(r[i], r[j])
    {
      if i == 0 && j > 1 && x != s[0] && s[0] != s[j - 1] {
        StrLtTransitive(x, s[0], s[j - 1]);
      }
    }
  }

  lemma InsertBelow(y: string, x: string, s: seq<string>, r: seq<string>)
    requires Sorted(r) && StrLt(y, x) && multiset(r) == multiset(s) + multiset{x}
    requires LowerBound(y, s)
    ensures Sorted([y] + r)
  {
    forall i | 0 <= i < |r|
      ensures StrLe(y, r[i])
    {
      assert r[i] in multiset(r);
      if r[i] != x {
        assert r[i] in multiset(s);
        var k :| 0 <= k < |s| && s[k] == r[i];
      }
    }
  }

  /** Insertion sort: a sorted permutation of s. */
  function Sort(s: seq<string>): (r: seq<string>)
    ensures multiset(r) == multiset(s)
    ensures Sorted(r)
  {
    if |s| == 0 then []
    else
      assert s == [s[0]] + s[1..];
      Insert(s[0], Sort(s[1..]))
  }

  /** util.Unique (not part of this model): keeps the first occurrence of
      each string, in the original order. */
  function Unique(s: seq<string>): (r: seq<string>)
    ensures Distinct(r)
    ensures forall x :: x in r <==> x in s
    ensures |r| <= |s|
  {
    if |s| == 0 then []
    else
      var u := Unique(s[..|s| - 1]);
      assert s == s[..|s| - 1] + [s[|s| - 1]];
      if s[|s| - 1] in u then u else u + [s[|s| - 1]]
  }

  /** The position of the first occurrence of x in s. */
  function FirstIndex(s: seq<string>, x: string): (k: nat)
    requires x in s
    ensures k < |s| && s[k] == x
    ensures forall j :: 0 <= j < k ==> s[j] != x
  {
    if s[0] == x then 0 else 1 + FirstIndex(s[1..], x)
  }

  /** Appending never moves a first occurrence. */
  lemma FirstIndexOfPrefix(s: seq<string>, t: seq<string>, x: string)
    requires x in s
    ensures FirstIndex(s + t, x) == FirstIndex(s, x)
  {
    var k' := FirstIndex(s, x);
    assert (s + t)[k'] == x;
  }

  /** Unique keeps first occurrences in their original order: of two kept
      strings, the one that occurs first in s comes first. */
  lemma {:induction false} UniqueFirstOrder(s: seq<string>)
    ensures forall i, j :: 0 <= i < j < |Unique(s)| ==> FirstIndex(s, Unique(s)[i]) < FirstIndex(s, Unique(s)[j])
  {
    if |s| > 0 {
      var p, x := s[..|s| - 1], s[|s| - 1];
      assert s == p + [x];
      UniqueFirstOrder(p);
      var u := Unique(p);
      forall y | y in u ensures FirstIndex(s, y) == FirstIndex(p, y) {
        FirstIndexOfPrefix(p, [x], y);
      }
      if x !in u {
        assert Unique(s) == u + [x];
        assert FirstIndex(s, x) == |p|;
      }
    }
  }

  lemma DistinctCount(s: seq<string>, x: string)
    requires Distinct(s)
    ensures multiset(s)[x] <= 1
  {
    if |s| > 0 {
      var t := s[1..];
      assert s == [s[0]] + t;
      assert Distinct(t);
      DistinctCount(t, x);
      if x == s[0] {
        assert x !in t;
      }
    }
  }

  lemma CountDistinct(s: seq<string>)
    requires forall x :: multiset(s)[x] <= 1
    ensures Distinct(s)
  {
    forall i, j | 0 <= i < j < |s|
      ensures s[i] != s[j]
    {
      var a, b := s[..j], s[j..];
      assert s == a + b;
      assert a[i] == s[i] && b[0] == s[j];
      assert s[i] in multiset(a) && s[j] in multiset(b);
      assert multiset(s) == multiset(a) + multiset(b);
      assert multiset(s)[s[j]] == multiset(a)[s[j]] + multiset(b)[s[j]];
    }
  }

  /** The tag normalisation the parser applies (util.Unique then
      sort.Strings): the result lists every input string exactly once, in
      strictly increasing order. */
  function Normalize(s: seq<string>): (r: seq<string>)
    ensures StrictlySorted(r)
    ensures forall x :: x in r <==> x in s
  {
    var u := Unique(s);
    var r := Sort(u);
    forall x ensures multiset(r)[x] <= 1 {
      DistinctCount(u, x);
    }
    CountDistinct(r);
    assert forall x :: x in r <==> x in multiset(u);
    r
  }

  /** A strictly sorted list is determined by its elements. */
  lemma {:induction false} StrictlySortedUnique(a: seq<string>, b: seq<string>)
    requires StrictlySorted(a) && StrictlySorted(b)
    requires forall x :: x in a <==> x in b
    ensures a == b
  {
    if |a| > 0 {
      assert a[0] in b;
    }
    if |b| > 0 {
      assert b[0] in a;
    }
    if |a| > 0 && |b| > 0 {
      if a[0] != b[0] {
        assert b[0] in a;
        assert a[0] in b;
        var i :| 0 <= i < |a| && a[i] == b[0];
        var j :| 0 <= j < |b| && b[j] == a[0];
        assert i > 0 && j > 0;
        StrLtAsymmetric(a[0], a[i]);
      }
      forall x ensures x in a[1..] <==> x in b[1..] {
        StrLtIrreflexive(a[0]);
        if x in a[1..] {
          var i :| 0 <= i < |a| - 1 && a[1..][i] == x;
          assert StrLt(a[0], a[i + 1]);
          assert x in a;
          var j :| 0 <= j < |b| && b[j] == x;
          assert j != 0;
          assert b[1..][j - 1] == x;
        }
        if x in b[1..] {
          var j :| 0 <= j < |b| - 1 && b[1..][j] == x;
          assert StrLt(b[0], b[j + 1]);
          assert x in b;
          var i :| 0 <= i < |a| && a[i] == x;
          assert i != 0;
          assert a[1..][i - 1] == x;
        }
      }
      StrictlySortedUnique(a[1..], b[1..]);
      assert a == [a[0]] + a[1..] && b == [b[0]] + b[1..];
    }
  }

  /** Normalisation depends only on the set of strings: the order and the
      repetitions of the input do not matter. */
  lemma NormalizeSetDetermined(s: seq<string>, t: seq<string>)
    requires forall x :: x in s <==> x in t
    ensures Normalize(s) == Normalize(t)
  {
    StrictlySortedUnique(Normalize(s), Normalize(t));
  }
}

=== FILE: slug.dfy ===
/** slug: turns arbitrary text into an identifier made of lower-case ASCII
    letters, digits and single dashes. */
module Slug {
  import opened Text

  predicate IsAlnum(c: char) {
    'a' <= c <= 'z' || '0' <= c <= '9'
  }

  predicate IsSlugChar(c: char) {
    IsAlnum(c) || c == '-'
  }

  /** The shape of every slug: only slug characters, no two dashes in a row,
      and a dash first only when the scan was not in the dash state. */
  predicate SlugShape(r: string, dash: bool) {
    && (forall i :: 0 <= i < |r| ==> IsSlugChar(r[i]))
    && (forall i :: 0 < i < |r| ==> !(r[i - 1] == '-' && r[i] == '-'))
    && (dash && |r| > 0 ==> r[0] != '-')
  }

  /** The scan over already lower-cased text. `dash` is true at the start
      and right after a dash was written: a letter or digit is copied, a
      dash is copied unless one was just written, and any other run of
      characters becomes a single dash. */
  function SlugFrom(s: string, dash: bool): (r: string)
    ensures SlugShape(r, dash)
    decreases |s|
  {
    if |s| == 0 then ""
    else
      var c := s[0];
      if IsAlnum(c) || (c == '-' && !dash) then [c] + SlugFrom(s[1..], c == '-')
      else if !dash then ['-'] + SlugFrom(s[1..], true)
      else SlugFrom(s[1..], dash)
  }

  function Slug(s: string): (r: string)
    ensures SlugShape(r, true)
  {
    SlugFrom(Lower(s), true)
  }

  /** The letters and digits of a string, in order. */
  function Alnums(s: string): string {
    if |s| == 0 then ""
    else if IsAlnum(s[0]) then [s[0]] + Alnums(s[1..])
    else Alnums(s[1..])
  }

  lemma {:induction false} AlnumsOfSlugFrom(s: string, dash: bool)
    ensures Alnums(SlugFrom(s, dash)) == Alnums(s)
    decreases |s|
  {
    if |s| > 0 {
      AlnumsOfSlugFrom(s[1..], s[0] == '-');
      AlnumsOfSlugFrom(s[1..], true);
      AlnumsOfSlugFrom(s[1..], dash);
      var c := s[0];
      if IsAlnum(c) || (c == '-' && !dash) {
        assert ([c] + SlugFrom(s[1..], c == '-'))[1..] == SlugFrom(s[1..], c == '-');
      } else if !dash {
        assert (['-'] + SlugFrom(s[1..], true))[1..] == SlugFrom(s[1..], true);
      }
    }
  }

  /** Every letter and digit of the lower-cased text survives, in order;
      the slug only differs in its dashes. */
  lemma SlugKeepsAlnums(s: string)
    ensures Alnums(Slug(s)) == Alnums(Lower(s))
  {
    AlnumsOfSlugFrom(Lower(s), true);
  }

  lemma {:induction false} SlugFromOfShape(r: string, dash: bool)
    requires SlugShape(r, dash)
    ensures SlugFrom(r, dash) == r
    decreases |r|
  {
    if |r| > 0 {
      assert SlugShape(r[1..], r[0] == '-') by {
        assert forall i :: 0 < i < |r| - 1 ==> r[1..][i - 1] == r[i] && r[1..][i] == r[i + 1];
        if |r| > 1 && r[0] == '-' {
          assert r[1] != '-';
        }
      }
      SlugFromOfShape(r[1..], r[0] == '-');
      assert [r[0]] + r[1..] == r;
    }
  }

  lemma LowerOfSlugShape(r: string, dash: bool)
    requires SlugShape(r, dash)
    ensures Lower(r) == r
  {
  }

  /** A slug is its own slug. */
  lemma SlugIdempotent(s: string)
    ensures Slug(Slug(s)) == Slug(s)
  {
    var r := Slug(s);
    LowerOfSlugShape(r, true);
    SlugFromOfShape(r, true);
  }

  /** The slug is empty exactly when the lower-cased text has no letter or
      digit. */
  lemma SlugEmpty(s: string)
    ensures Slug(s) == "" <==> Alnums(Lower(s)) == ""
  {
    SlugKeepsAlnums(s);
    var r := Slug(s);
    if |r| > 0 {
      assert IsAlnum(r[0]);
      assert Alnums(r) == [r[0]] + Alnums(r[1..]);
    }
  }

  /** A single trailing dash can remain. */
  lemma SlugTrailingDash()
    ensures Slug("abc!") == "abc-"
  {
    assert Lower("abc!") == "abc!";
  }
}

=== FILE: text.dfy ===
/** The string helpers of Go's standard library that the parser leans on:
    space trimming, lower-casing, splitting and joining on a one-character
    separator, prefixes. Strings are sequences of Unicode code points. */
module Text {

  /** unicode.IsSpace: the characters with the White_Space property. */
  predicate IsSpace(c: char) {
    || c == ' ' || c == '\t' || c == '\n' || c == '\U{B}' || c == '\U{C}' || c == '\r'
    || c == '\U{85}' || c == '\U{A0}' || c == '\U{1680}'
    || ('\U{2000}' <= c <= '\U{200A}')
    || c == '\U{2028}' || c == '\U{2029}' || c == '\U{202F}' || c == '\U{205F}' || c == '\U{3000}'
  }

  /** unicode.ToLower on the characters whose lower-case mapping the model
      carries: ASCII, the Latin-1 capitals, and the three letters outside
      Latin-1 that fold onto it. */
  function LowerChar(c: char): char {
    if 'A' <= c <= 'Z' then (c as int + 32) as char
    else if '\U{C0}' <= c <= '\U{DE}' && c != '\U{D7}' then (c as int + 32) as char
    else if c == '\U{130}' then 'i'
    else if c == '\U{212A}' then 'k'
    else if c == '\U{212B}' then '\U{E5}'
    else c
  }

  /** strings.ToLower */
  function Lower(s: string): (r: string)
    ensures |r| == |s|
    ensures forall i :: 0 <= i < |s| ==> r[i] == LowerChar(s[i])
  {
    seq(|s|, i requires 0 <= i < |s| => LowerChar(s[i]))
  }

  predicate IsLowered(s: string) {
    forall i :: 0 <= i < |s| ==> LowerChar(s[i]) == s[i]
  }

  lemma LowerCharIdempotent(c: char)
    ensures LowerChar(LowerChar(c)) == LowerChar(c)
    ensures IsSpace(LowerChar(c)) <==> IsSpace(c)
  {
  }

  /** Lower-casing yields a lower-case string and changes nothing the second time. */
  lemma LowerIdempotent(s: string)
    ensures IsLowered(Lower(s))
    ensures Lower(Lower(s)) == Lower(s)
  {
    forall i | 0 <= i < |s|
      ensures LowerChar(Lower(s)[i]) == Lower(s)[i]
    {
      LowerCharIdempotent(s[i]);
    }
  }

  lemma LowerOfLowered(s: string)
    requires IsLowered(s)
    ensures Lower(s) == s
  {
  }

  lemma LowerConcat(a: string, b: string)
    ensures Lower(a + b) == Lower(a) + Lower(b)
  {
  }

  predicate AllSpace(s: string) {
    forall i :: 0 <= i < |s| ==> IsSpace(s[i])
  }

  /** A string with no leading and no trailing space. */
  predicate IsTrimmed(s: string) {
    |s| == 0 || (!IsSpace(s[0]) && !IsSpace(s[|s| - 1]))
  }

  /** Index of the first non-space character at or after i. */
  function LeftEnd(s: string, i: nat): (k: nat)
    requires i <= |s|
    ensures i <= k <= |s|
    ensures forall m :: i <= m < k ==> IsSpace(s[m])
    ensures k < |s| ==> !IsSpace(s[k])
    decreases |s| - i
  {
    if i < |s| && IsSpace(s[i]) then LeftEnd(s, i + 1) else i
  }

  /** Index just past the last non-space character in s[lo..j]. */
  function RightEnd(s: string, lo: nat, j: nat): (k: nat)
    requires lo <= j <= |s|
    ensures lo <= k <= j
    ensures forall m :: k <= m < j ==> IsSpace(s[m])
    ensures k > lo ==> !IsSpace(s[k - 1])
    decreases j
  {
    if j > lo && IsSpace(s[j - 1]) then RightEnd(s, lo, j - 1) else j
  }

  /** strings.TrimSpace: the slice of s left after removing the leading and
      the trailing run of spaces. */
  function TrimSpace(s: string): (r: string)
    ensures IsTrimmed(r)
    ensures |r| <= |s|
    ensures forall c :: c in r ==> c in s
  {
    var a := LeftEnd(s, 0);
    var b := RightEnd(s, a, |s|);
    s[a..b]
  }

  lemma TrimSpaceOfTrimmed(s: string)
    requires IsTrimmed(s)
    ensures TrimSpace(s) == s
  {
  }

  lemma TrimSpaceOfAllSpace(s: string)
    requires AllSpace(s)
    ensures TrimSpace(s) == ""
  {
  }

  /** Lower-casing maps spaces to spaces and others to others, so it keeps a
      trimmed string trimmed. */
  lemma LowerKeepsTrimmed(s: string)
    requires IsTrimmed(s)
    ensures IsTrimmed(Lower(s))
  {
    if |s| > 0 {
      LowerCharIdempotent(s[0]);
      LowerCharIdempotent(s[|s| - 1]);
    }
  }

  function Count(s: string, c: char): (n: nat)
    ensures n <= |s|
    ensures n == 0 <==> c !in s
  {
    if |s| == 0 then 0 else (if s[0] == c then 1 else 0) + Count(s[1..], c)
  }

  /** Index of the first occurrence of c in s. */
  function IndexOf(s: string, c: char): (k: nat)
    requires c in s
    ensures k < |s| && s[k] == c && c !in s[..k]
  {
    if s[0] == c then 0 else 1 + IndexOf(s[1..], c)
  }

  /** strings.Split with a one-character separator: every separator ends one
      field, so there is always one more field than separators. */
  function Split(s: string, sep: char): (r: seq<string>)
    ensures |r| == Count(s, sep) + 1
    ensures forall i :: 0 <= i < |r| ==> sep !in r[i]
  {
    if |s| == 0 then [""]
    else
      var rest := Split(s[1..], sep);
      if s[0] == sep then [""] + rest
      else [[s[0]] + rest[0]] + rest[1..]
  }

  /** strings.Join with a one-character separator. */
  function Join(parts: seq<string>, sep: char): string {
    if |parts| == 0 then ""
    else if |parts| == 1 then parts[0]
    else parts[0] + [sep] + Join(parts[1..], sep)
  }

  /** Joining the fields back together gives the original string. */
  lemma {:induction false} JoinSplit(s: string, sep: char)
    ensures Join(Split(s, sep), sep) == s
  {
    if |s| > 0 {
      JoinSplit(s[1..], sep);
      var rest := Split(s[1..], sep);
      if s[0] != sep {
        if |rest| > 1 {
          assert Join(rest, sep) == rest[0] + [sep] + Join(rest[1..], sep);
        }
      }
    }
  }

  lemma {:induction false} SplitSingle(s: string, sep: char)
    requires sep !in s
    ensures Split(s, sep) == [s]
  {
    if |s| > 0 {
      SplitSingle(s[1..], sep);
      assert [s[0]] + s[1..] == s;
    }
  }

  lemma {:induction false} SplitConcat(a: string, sep: char, b: string)
    requires sep !in a
    ensures Split(a + [sep] + b, sep) == [a] + Split(b, sep)
  {
    if |a| == 0 {
      assert a + [sep] + b == [sep] + b;
      assert ([sep] + b)[1..] == b;
    } else {
      assert (a + [sep] + b)[1..] == a[1..] + [sep] + b;
      SplitConcat(a[1..], sep, b);
      assert [a[0]] + a[1..] == a;
    }
  }

  /** Splitting a join of separator-free fields gives the fields back. */
  lemma {:induction false} SplitJoin(parts: seq<string>, sep: char)
    requires |parts| >= 1
    requires forall i :: 0 <= i < |parts| ==> sep !in parts[i]
    ensures Split(Join(parts, sep), sep) == parts
  {
    if |parts| == 1 {
      SplitSingle(parts[0], sep);
    } else {
      SplitJoin(parts[1..], sep);
      SplitConcat(parts[0], sep, Join(parts[1..], sep));
      assert [parts[0]] + parts[1..] == parts;
    }
  }

  /** strings.SplitN with n >= 1: at most n fields, the last one keeps the
      rest of the string, separators included. */
  function SplitN(s: string, sep: char, n: nat): (r: seq<string>)
    requires n >= 1
    ensures 1 <= |r| <= n
    ensures forall i :: 0 <= i < |r| - 1 ==> sep !in r[i]
    decreases n
  {
    if n == 1 || sep !in s then [s]
    else
      var k := IndexOf(s, sep);
      [s[..k]] + SplitN(s[k + 1..], sep, n - 1)
  }

  lemma {:induction false} JoinSplitN(s: string, sep: char, n: nat)
    requires n >= 1
    ensures Join(SplitN(s, sep, n), sep) == s
    decreases n
  {
    if n > 1 && sep in s {
      var k := IndexOf(s, sep);
      var rest := SplitN(s[k + 1..], sep, n - 1);
      JoinSplitN(s[k + 1..], sep, n - 1);
      var r := [s[..k]] + rest;
      assert r[0] == s[..k] && r[1..] == rest;
      assert Join(r, sep) == s[..k] + [sep] + Join(rest, sep);
      assert s == s[..k] + [sep] + s[k + 1..];
    }
  }

  /** SplitN agrees with Split when there are fewer than n separators. */
  lemma {:induction false} SplitNAgrees(s: string, sep: char, n: nat)
    requires n >= 1 && Count(s, sep) < n
    ensures SplitN(s, sep, n) == Split(s, sep)
    decreases n
  {
    if sep !in s {
      SplitSingle(s, sep);
    } else {
      var tail := s[IndexOf(s, sep) + 1..];
      CountAfterFirst(s, sep);
      SplitNAgrees(tail, sep, n - 1);
      SplitAtFirst(s, sep, n);
    }
  }

  /** Both splits cut at the first separator. */
  lemma SplitAtFirst(s: string, sep: char, n: nat)
    requires n >= 2 && sep in s
    ensures SplitN(s, sep, n) == [s[..IndexOf(s, sep)]] + SplitN(s[IndexOf(s, sep) + 1..], sep, n - 1)
    ensures Split(s, sep) == [s[..IndexOf(s, sep)]] + Split(s[IndexOf(s, sep) + 1..], sep)
  {
    var k := IndexOf(s, sep);
    SplitConcat(s[..k], sep, s[k + 1..]);
    assert s[..k] + [sep] + s[k + 1..] == s;
  }

  lemma IndexOfConcat(a: string, sep: char, b: string)
    requires sep !in a
    ensures sep in a + [sep] + b && IndexOf(a + [sep] + b, sep) == |a|
  {
    var s := a + [sep] + b;
    assert s[|a|] == sep;
    assert s[..|a|] == a;
  }

  /** SplitN cuts a field-separator-rest string at the separator. */
  lemma SplitNConcat(a: string, sep: char, b: string, n: nat)
    requires sep !in a && n >= 2
    ensures SplitN(a + [sep] + b, sep, n) == [a] + SplitN(b, sep, n - 1)
  {
    IndexOfConcat(a, sep, b);
    var s := a + [sep] + b;
    assert s[..|a|] == a && s[|a| + 1..] == b;
  }

  /** With at least n separators, SplitN yields exactly n fields. */
  lemma {:induction false} SplitNFull(s: string, sep: char, n: nat)
    requires n >= 1 && Count(s, sep) >= n
    ensures |SplitN(s, sep, n)| == n
    decreases n
  {
    if n > 1 {
      var k := IndexOf(s, sep);
      CountAfterFirst(s, sep);
      SplitNFull(s[k + 1..], sep, n - 1);
    }
  }

  lemma CountAfterFirst(s: string, sep: char)
    requires sep in s
    ensures Count(s, sep) == 1 + Count(s[IndexOf(s, sep) + 1..], sep)
  {
    var k := IndexOf(s, sep);
    var t := [sep] + s[k + 1..];
    assert s == s[..k] + t;
    CountConcat(s[..k], t, sep);
    assert t[0] == sep && t[1..] == s[k + 1..];
  }

  lemma {:induction false} CountConcat(a: string, b: string, c: char)
    ensures Count(a + b, c) == Count(a, c) + Count(b, c)
  {
    if |a| > 0 {
      assert (a + b)[0] == a[0];
      assert (a + b)[1..] == a[1..] + b;
      CountConcat(a[1..], b, c);
    } else {
      assert a + b == b;
    }
  }

  predicate HasPrefix(s: string, p: string) {
    |p| <= |s| && s[..|p|] == p
  }

  /** strings.TrimPrefix: s without p when s starts with p, else s itself. */
  function TrimPrefix(s: string, p: string): (r: string)
    ensures HasPrefix(s, p) ==> p + r == s
    ensures !HasPrefix(s, p) ==> r == s
  {
    if HasPrefix(s, p) then s[|p|..] else s
  }

  predicate HasSuffix(s: string, p: string) {
    |p| <= |s| && s[|s| - |p|..] == p
  }

  /** strings.Contains */
  predicate Contains(s: string, p: string)
    decreases |s|
  {
    HasPrefix(s, p) || (|s| > 0 && Contains(s[1..], p))
  }
}

=== FILE: types.dfy ===
/** The document model the parser builds: a codelab with its metadata and
    ordered steps, each step an ordered list of content nodes. Every node
    carries its environment tags. */
module Types {
  import opened Wrappers

  datatype HeaderKind = PlainHeader | CheckHeader | FaqHeader

  datatype ListKind = PlainItems | CheckItems | FaqItems

  /** Content nodes. `Content` stands for the kinds built from subtrees this
      model does not walk (text, link, image, button, code, infobox, iframe,
      video); its kind names what it holds. */
  datatype Node =
    | Content(kind: string, env: seq<string>)
    | Header(hkind: HeaderKind, level: nat, children: seq<Node>, env: seq<string>)
    | ItemsList(lkind: ListKind, listType: string, start: int, items: seq<seq<Node>>, env: seq<string>)
    | Grid(rows: seq<GridRow>, env: seq<string>)
    | Survey(id: string, groups: seq<SurveyGroup>, env: seq<string>)
    | Import(url: string, env: seq<string>)

  datatype GridRow = GridRow(cells: seq<GridCell>)

  datatype GridCell = GridCell(colspan: int, rowspan: int, content: seq<Node>)

  datatype SurveyGroup = SurveyGroup(name: string, options: seq<string>)

  datatype Step = Step(title: string, content: seq<Node>, tags: seq<string>, duration: int)

  datatype Codelab = Codelab(
    title: string,
    id: string,
    authors: string,
    badgePath: string,
    summary: string,
    categories: seq<string>,
    tags: seq<string>,
    status: Option<seq<string>>,
    feedback: string,
    ga: string,
    extra: map<string, string>,
    steps: seq<Step>,
    duration: int)

  function NewCodelab(): Codelab {
    Codelab("", "", "", "", "", [], [], None, "", "", map[], [], 0)
  }

  function NewStep(title: string): Step {
    Step(title, [], [], 0)
  }

  /** Whether import nodes occur among the nodes, looking inside table cells
      too. */
  predicate HasImport(nodes: seq<Node>) {
    exists i :: 0 <= i < |nodes| && NodeHasImport(nodes[i])
  }

  predicate NodeHasImport(n: Node) {
    match n
    case Import(_, _) => true
    case Grid(rows, _) => exists i :: 0 <= i < |rows| && RowHasImport(rows[i])
    case _ => false
  }

  predicate RowHasImport(r: GridRow) {
    exists j :: 0 <= j < |r.cells| && HasImport(r.cells[j].content)
  }
}

=== FILE: walker.dfy ===
/** The walk over the parsed HTML body: the top-level loop that reads the
    title, the metadata block and the step headings, and the recursive
    descent that turns everything else into nodes of the current step. */
module Walker {
  import opened Wrappers
  import opened Text
  import opened Numeric
  import opened Order
  import opened Duration
  import opened Types
  import opened Builders
  import Imports
  import Metadata
  import opened DocStates

  /** An element of the HTML body, as far as the walk distinguishes them.
      `Blank` is a text node holding only white space; `Meta` a step
      instruction; `Leaf` any element whose node is built without looking
      at its children (text, links, images, buttons, code, infoboxes,
      YouTube videos), carrying the node built for it, if any; `Heading`
      an h1 to h6 with its flattened text; `Para` a paragraph with the text
      of its first child; `Wrapper` any other element, which the walk
      descends into. */
  datatype Elem =
    | Blank
    | Meta(text: string)
    | Leaf(built: Option<Node>)
    | Heading(level: nat, text: string, children: seq<Elem>)
    | ListEl(ordered: bool, attrs: seq<Attr>, items: seq<Item>)
    | SurveyEl(name: string, inputs: seq<seq<Attr>>)
    | TableEl(rows: seq<Row>)
    | ImportEl(data: string)
    | Para(data: string, children: seq<Elem>)
    | Wrapper(children: seq<Elem>)

  /** A child of a list element; only `li` children become items. */
  datatype Item = Item(isLi: bool, children: seq<Elem>)

  /** A table row; only `td` cells become grid cells. */
  datatype Row = Row(cells: seq<Cell>)

  datatype Cell = Cell(isTd: bool, attrs: seq<Attr>, children: seq<Elem>)

  /** The children the walk descends into when an element is not one it
      builds a node from. */
  function Children(e: Elem): seq<Elem> {
    match e
    case Para(_, cc) => cc
    case Wrapper(cc) => cc
    case _ => []
  }

  /** Whether the element is one the walk builds a node from (possibly
      none); the others are descended into. */
  predicate Accepted(e: Elem) {
    !e.Para? && !e.Wrapper?
  }

  /** The length of the run of step instructions that starts `es`. */
  function MetaRun(es: seq<Elem>): (n: nat)
    ensures n <= |es|
    ensures forall i :: 0 <= i < n ==> es[i].Meta?
    ensures n < |es| ==> !es[n].Meta?
    ensures es != [] && es[0].Meta? ==> n >= 1
  {
    if es == [] || !es[0].Meta? then 0 else 1 + MetaRun(es[1..])
  }

  /** The concatenated text of the first `n` elements, all instructions. */
  function RunText(es: seq<Elem>, n: nat): string
    requires n <= |es| && forall i :: 0 <= i < n ==> es[i].Meta?
  {
    if n == 0 then "" else RunText(es, n - 1) + es[n - 1].text
  }

  /** Every step but the last has been finalized: its tags are sorted and
      distinct. */
  predicate EarlierFinal(steps: seq<Step>) {
    forall i :: 0 <= i < |steps| - 1 ==> StrictlySorted(steps[i].tags)
  }

  /** Every tag of every step is also a tag of the codelab. */
  predicate Covered(c: Codelab) {
    forall i, x :: 0 <= i < |c.steps| && x in c.steps[i].tags ==> x in c.tags
  }

  /** What walking inside the current step keeps: the steps and their
      titles, every codelab field except the tags, the tags of earlier
      steps, and the codelab's tags, which only grow with the current
      step's. */
  predicate Frame(a: DocState, b: DocState) {
    && HasStep(a) && HasStep(b)
    && |b.clab.steps| == |a.clab.steps|
    && Titles(b.clab.steps) == Titles(a.clab.steps)
    && b.clab == a.clab.(tags := b.clab.tags, steps := b.clab.steps)
    && (forall i :: 0 <= i < |a.clab.steps| - 1 ==> b.clab.steps[i].tags == a.clab.steps[i].tags)
    && (forall x :: x in a.clab.tags ==> x in b.clab.tags)
    && (forall x :: x in CurrentStep(b).tags ==> x in CurrentStep(a).tags || x in b.clab.tags)
  }

  lemma FrameRefl(a: DocState)
    requires HasStep(a)
    ensures Frame(a, a)
  {
  }

  lemma FrameTrans(a: DocState, b: DocState, c: DocState)
    requires Frame(a, b) && Frame(b, c)
    ensures Frame(a, c)
  {
  }

  /** The frame keeps the invariants of the walk. */
  lemma FrameKeeps(a: DocState, b: DocState)
    requires Frame(a, b)
    ensures EarlierFinal(a.clab.steps) ==> EarlierFinal(b.clab.steps)
    ensures Covered(a.clab) ==> Covered(b.clab)
  {
    if Covered(a.clab) {
      forall i, x | 0 <= i < |b.clab.steps| && x in b.clab.steps[i].tags ensures x in b.clab.tags {
        if i < |a.clab.steps| - 1 {
          assert x in a.clab.steps[i].tags;
        } else {
          assert x in CurrentStep(b).tags;
        }
      }
    }
  }

  /** Builds the node of an accepted element, walking its children where the
      node is made of them. A survey uses up one survey number. */
  function ParseNode(ds: DocState, e: Elem): (r: (DocState, Option<Node>))
    requires Valid(ds) && HasStep(ds) && Accepted(e) && !e.Meta?
    ensures Valid(r.0) && Frame(ds, r.0)
    ensures e.SurveyEl? && r.1.Some? ==> r.0.survey == ds.survey + 1
    ensures e.ImportEl? ==> r == (ds, Imports.FragmentImport(e.data))
    ensures e.Leaf? ==> r == (ds, e.built)
    decreases e, 1
  {
    match e
    case Blank => (FrameRefl(ds); (ds, None))
    case Leaf(built) => (FrameRefl(ds); (ds, built))
    case ImportEl(data) => (FrameRefl(ds); (ds, Imports.FragmentImport(data)))
    case SurveyEl(name, inputs) =>
      var (n, count) := BuildSurvey(ds.clab.id, ds.survey, name, inputs);
      FrameRefl(ds);
      (ds.(survey := count), n)
    case Heading(_, _, _) => ParseHeading(ds, e)
    case ListEl(_, _, _) => ParseList(ds, e)
    case TableEl(_) => ParseTable(ds, e)
  }

  /** A heading gives a header node made of its children's nodes, and none
      when they give none; a header with content clears the environment. */
  function ParseHeading(ds: DocState, e: Elem): (r: (DocState, Option<Node>))
    requires Valid(ds) && HasStep(ds) && e.Heading?
    ensures Valid(r.0) && Frame(ds, r.0)
    ensures r.1.Some? <==> ParseSubtree(ds, e.children).1 != []
    ensures r.1.Some? ==> r.0.env == [] && r.1.value.Header? && r.1.value.level == e.level
    ensures r.1.Some? ==> r.1.value.children == ParseSubtree(ds, e.children).1
    ensures r.1.Some? ==> r.1.value.hkind == HeaderKindOf(e.text)
    decreases e, 0
  {
    var (ds1, nn) := ParseSubtree(ds, e.children);
    if nn == [] then (ds1, None)
    else (ds1.(env := []), BuildHeader(e.level, e.text, nn))
  }

  /** A list gives an items node of its `li` children that give nodes, in
      order, and none when there are none; its kind follows the last node
      appended, its type and start come from its attributes. */
  function ParseList(ds: DocState, e: Elem): (r: (DocState, Option<Node>))
    requires Valid(ds) && HasStep(ds) && e.ListEl?
    ensures Valid(r.0) && Frame(ds, r.0)
    ensures r.1.Some? <==> exists i :: 0 <= i < |ParseItems(ds, e.items).1| && ParseItems(ds, e.items).1[i] != []
    ensures r.1.Some? ==> r.1.value.ItemsList? && r.1.value.items == NonEmptyItems(ParseItems(ds, e.items).1)
    ensures r.1.Some? ==> r.1.value.lkind == ListKindAfter(LastNode(r.0))
    ensures r.1.Some? ==> r.1.value.listType == ListType(e.ordered, e.attrs) && r.1.value.start == ListStart(e.attrs)
    decreases e, 0
  {
    var (ds1, all) := ParseItems(ds, e.items);
    (ds1, BuildList(e.ordered, e.attrs, all, LastNode(ds1)))
  }

  /** A table gives a grid with one row per table row, and none without
      rows. */
  function ParseTable(ds: DocState, e: Elem): (r: (DocState, Option<Node>))
    requires Valid(ds) && HasStep(ds) && e.TableEl?
    ensures Valid(r.0) && Frame(ds, r.0)
    ensures r.1.Some? <==> e.rows != []
    ensures r.1.Some? ==> r.1.value.Grid? && |r.1.value.rows| == |e.rows|
    decreases e, 0
  {
    var (ds1, grid) := ParseRows(ds, e.rows);
    if e.rows == [] then (ds1, None) else (ds1, Some(Grid(grid, [])))
  }

  /** Walks the children of an element and collects the nodes they give,
      descending into elements that give none of their own; a run of step
      instructions is applied as one. */
  function ParseSubtree(ds: DocState, es: seq<Elem>): (r: (DocState, seq<Node>))
    requires Valid(ds) && HasStep(ds)
    ensures Valid(r.0) && Frame(ds, r.0)
    decreases es
  {
    if es == [] then (FrameRefl(ds); (ds, []))
    else if es[0].Meta? then
      var n := MetaRun(es);
      var ds1 := MetaStep(ds, RunText(es, n));
      var (ds2, rest) := ParseSubtree(ds1, es[n..]);
      FrameTrans(ds, ds1, ds2);
      (ds2, rest)
    else if Accepted(es[0]) then
      var (ds1, o) := ParseNode(ds, es[0]);
      var (ds2, rest) := ParseSubtree(ds1, es[1..]);
      FrameTrans(ds, ds1, ds2);
      (ds2, (if o.Some? then [o.value] else []) + rest)
    else
      var (ds1, nn) := ParseSubtree(ds, Children(es[0]));
      var (ds2, rest) := ParseSubtree(ds1, es[1..]);
      FrameTrans(ds, ds1, ds2);
      (ds2, nn + rest)
  }

  /** The `li` children of a list, in order. */
  function Lis(items: seq<Item>): (r: seq<Item>)
    ensures forall x :: x in r <==> x in items && x.isLi
    ensures |r| <= |items|
  {
    if items == [] then []
    else
      var rest := Lis(items[1..]);
      assert forall x :: x in items <==> x == items[0] || x in items[1..];
      if items[0].isLi then [items[0]] + rest else rest
  }

  /** The nodes of each `li` child of a list, one entry per `li`, empty
      entries included; the list builder drops those. */
  function ParseItems(ds: DocState, items: seq<Item>): (r: (DocState, seq<seq<Node>>))
    requires Valid(ds) && HasStep(ds)
    ensures Valid(r.0) && Frame(ds, r.0)
    ensures |r.1| == |Lis(items)|
    ensures items != [] && items[0].isLi ==> r.1[0] == ParseSubtree(ds, items[0].children).1
    decreases items
  {
    if items == [] then (FrameRefl(ds); (ds, []))
    else if !items[0].isLi then ParseItems(ds, items[1..])
    else
      var (ds1, nn) := ParseSubtree(ds, items[0].children);
      var (ds2, rest) := ParseItems(ds1, items[1..]);
      FrameTrans(ds, ds1, ds2);
      (ds2, [nn] + rest)
  }

  /** The rows of a table: every row is kept, even one without cells. */
  function ParseRows(ds: DocState, rows: seq<Row>): (r: (DocState, seq<GridRow>))
    requires Valid(ds) && HasStep(ds)
    ensures Valid(r.0) && Frame(ds, r.0)
    ensures |r.1| == |rows|
    ensures rows != [] ==> r.1[0] == GridRow(ParseCells(ds, rows[0].cells).1)
    decreases rows
  {
    if rows == [] then (FrameRefl(ds); (ds, []))
    else
      var (ds1, cells) := ParseCells(ds, rows[0].cells);
      var (ds2, rest) := ParseRows(ds1, rows[1..]);
      FrameTrans(ds, ds1, ds2);
      (ds2, [GridRow(cells)] + rest)
  }

  /** The cells of a row: each `td` child whose content gives nodes, with
      the spans of that `td`. */
  function ParseCells(ds: DocState, cells: seq<Cell>): (r: (DocState, seq<GridCell>))
    requires Valid(ds) && HasStep(ds)
    ensures Valid(r.0) && Frame(ds, r.0)
    ensures forall j :: 0 <= j < |r.1| ==> r.1[j].content != []
    ensures forall j :: 0 <= j < |r.1| ==> FromTd(Tds(cells), r.1[j])
    ensures r.1 == KeptCells(Tds(cells), TdNodes(ds, cells).1)
    decreases cells, 1
  {
    var (ds1, nodes) := TdNodes(ds, cells);
    var tds := Tds(cells);
    var kept := KeptCells(tds, nodes);
    KeptCellsSpans(tds, nodes);
    (ds1, kept)
  }

  /** The cell is the one some `td` of the row gives for its content: the
      spans are that `td`'s. */
  predicate FromTd(tds: seq<Cell>, c: GridCell) {
    exists i :: 0 <= i < |tds| && TableCell(tds[i].attrs, c.content) == Some(c)
  }

  /** Cells are kept in `td` order: the cells of two consecutive parts of a
      row are those of the first part, then those of the second. */
  lemma {:induction false} KeptCellsConcat(t1: seq<Cell>, n1: seq<seq<Node>>, t2: seq<Cell>, n2: seq<seq<Node>>)
    requires |t1| == |n1| && |t2| == |n2|
    ensures KeptCells(t1 + t2, n1 + n2) == KeptCells(t1, n1) + KeptCells(t2, n2)
  {
    if n1 != [] {
      assert (t1 + t2)[1..] == t1[1..] + t2;
      assert (n1 + n2)[1..] == n1[1..] + n2;
      KeptCellsConcat(t1[1..], n1[1..], t2, n2);
    } else {
      assert t1 + t2 == t2 && n1 + n2 == n2;
    }
  }

  /** A single `td` gives its cell when its nodes are not empty, and no cell
      otherwise. */
  lemma KeptCellsOne(td: Cell, nodes: seq<Node>)
    ensures nodes != [] ==> KeptCells([td], [nodes]) == [GridCell(Span(NodeAttr(td.attrs, "colspan")), Span(NodeAttr(td.attrs, "rowspan")), nodes)]
    ensures nodes == [] ==> KeptCells([td], [nodes]) == []
  {
    assert [td][1..] == [] && [nodes][1..] == [];
  }

  /** Every kept cell carries the spans of a `td` of the row. */
  lemma KeptCellsSpans(tds: seq<Cell>, nodes: seq<seq<Node>>)
    requires |tds| == |nodes|
    ensures forall j :: 0 <= j < |KeptCells(tds, nodes)| ==> FromTd(tds, KeptCells(tds, nodes)[j])
  {
    var kept := KeptCells(tds, nodes);
    forall j | 0 <= j < |kept|
      ensures FromTd(tds, kept[j])
    {
      assert kept[j] in kept;
      var i :| 0 <= i < |nodes| && TableCell(tds[i].attrs, nodes[i]) == Some(kept[j]);
      assert nodes[i] == kept[j].content;
    }
  }

  /** The `td` children of a row, in order. */
  function Tds(cells: seq<Cell>): (r: seq<Cell>)
    ensures forall x :: x in r <==> x in cells && x.isTd
    ensures |r| <= |cells|
  {
    if cells == [] then []
    else
      var rest := Tds(cells[1..]);
      assert forall x :: x in cells <==> x == cells[0] || x in cells[1..];
      if cells[0].isTd then [cells[0]] + rest else rest
  }

  /** The nodes of each `td` child of a row, one entry per `td`. */
  function TdNodes(ds: DocState, cells: seq<Cell>): (r: (DocState, seq<seq<Node>>))
    requires Valid(ds) && HasStep(ds)
    ensures Valid(r.0) && Frame(ds, r.0)
    ensures |r.1| == |Tds(cells)|
    ensures cells != [] && cells[0].isTd ==> r.1[0] == ParseSubtree(ds, cells[0].children).1
    decreases cells, 0
  {
    if cells == [] then (FrameRefl(ds); (ds, []))
    else if !cells[0].isTd then TdNodes(ds, cells[1..])
    else
      var (ds1, nn) := ParseSubtree(ds, cells[0].children);
      var (ds2, rest) := TdNodes(ds1, cells[1..]);
      FrameTrans(ds, ds1, ds2);
      (ds2, [nn] + rest)
  }

  /** The grid cells of a row from its `td` children and their nodes: a
      `td` is kept, with its spans, exactly when its nodes are not empty. */
  function KeptCells(tds: seq<Cell>, nodes: seq<seq<Node>>): (r: seq<GridCell>)
    requires |tds| == |nodes|
    ensures |r| <= |nodes|
    ensures forall j :: 0 <= j < |r| ==> r[j].content != []
    ensures forall i :: 0 <= i < |nodes| && nodes[i] != [] ==> TableCell(tds[i].attrs, nodes[i]).value in r
    ensures forall c :: c in r ==> exists i :: 0 <= i < |nodes| && TableCell(tds[i].attrs, nodes[i]) == Some(c)
  {
    if nodes == [] then []
    else
      var rest := KeptCells(tds[1..], nodes[1..]);
      assert forall i :: 1 <= i < |nodes| ==> nodes[i] == nodes[1..][i - 1] && tds[i] == tds[1..][i - 1];
      var c := TableCell(tds[0].attrs, nodes[0]);
      (if c.Some? then [c.value] else []) + rest
  }

  /** Walks one top-level element and appends what it gives to the current
      step. */
  function ParseTop(ds: DocState, e: Elem): (r: DocState)
    requires Valid(ds) && HasStep(ds) && !e.Meta?
    ensures Valid(r) && Frame(ds, r)
  {
    if Accepted(e) then
      var (ds1, o) := ParseNode(ds, e);
      var r := AppendNodes(ds1, if o.Some? then [o.value] else []);
      AppendFrame(ds1, if o.Some? then [o.value] else []);
      FrameTrans(ds, ds1, r);
      r
    else
      var (ds1, nn) := ParseSubtree(ds, Children(e));
      var r := AppendNodes(ds1, nn);
      AppendFrame(ds1, nn);
      FrameTrans(ds, ds1, r);
      r
  }

  /** Appending nodes stays inside the frame. */
  lemma AppendFrame(ds: DocState, nn: seq<Node>)
    requires Valid(ds) && HasStep(ds)
    ensures Frame(ds, AppendNodes(ds, nn))
  {
    var r := AppendNodes(ds, nn);
    if nn != [] {
      assert Titles(r.clab.steps) == Titles(ds.clab.steps) by {
        assert forall i :: 0 <= i < |ds.clab.steps| ==> r.clab.steps[i].title == ds.clab.steps[i].title;
      }
      assert CurrentStep(r).tags == CurrentStep(ds).tags;
    }
  }

  const ErrNoBody := "document without a body"
  const ErrForbiddenFragmentImports := "importing content in a fragment is forbidden"
  const ErrForbiddenFragmentSteps := "defining steps in a fragment is forbidden"

  /** What holds between top-level elements. */
  predicate WalkInv(ds: DocState) {
    Valid(ds) && EarlierFinal(ds.clab.steps) && Covered(ds.clab)
  }

  /** The top-level loop over the body's children. The first h1 with text
      gives the title; the first paragraph is the metadata block, whose
      failure ends the parse; each h2 starts a step; everything else before
      the first step is skipped, and after it is walked into the current
      step. */
  function ParseBody(ds: DocState, es: seq<Elem>, pass: set<string>): (r: Result<DocState, string>)
    requires WalkInv(ds)
    ensures r.Success? ==> WalkInv(r.value)
    decreases |es|
  {
    if es == [] then Success(ds)
    else
      match Advance(ds, es, pass)
      case Failure(err) => Failure(err)
      case Success((ds1, n)) => ParseBody(ds1, es[n..], pass)
  }

  /** One round of the top-level loop: the state after the first element,
      or after the whole run of instructions it starts, and how many
      elements were consumed. */
  function Advance(ds: DocState, es: seq<Elem>, pass: set<string>): (r: Result<(DocState, nat), string>)
    requires WalkInv(ds) && es != []
    ensures r.Success? ==> WalkInv(r.value.0) && 1 <= r.value.1 <= |es|
  {
    var e := es[0];
    if e.Heading? && e.level == 1 && ds.clab.title == "" then
      Success((if e.text != "" then ds.(clab := ds.clab.(title := e.text)) else ds, 1))
    else if e.Para? && ds.clab.id == "" then
      match ReadMetadata(ds, e.data, pass)
      case Failure(err) => Failure(err)
      case Success(ds1) => Success((ds1, 1))
    else if e.Heading? && e.level == 2 then
      Success((StartStep(ds, e.text), 1))
    else if !HasStep(ds) then
      Success((ds, 1))
    else if e.Meta? then
      var n := MetaRun(es);
      Success((WalkMeta(ds, RunText(es, n)), n))
    else
      Success((WalkTop(ds, e), 1))
  }

  /** Reads the metadata block into the codelab, keeping the invariant. */
  function ReadMetadata(ds: DocState, d: string, pass: set<string>): (r: Result<DocState, string>)
    requires WalkInv(ds)
    ensures r.Success? <==> Metadata.ParseMetadata(d, ds.clab, pass).Success?
    ensures r.Failure? ==> r.error == Metadata.ErrMissingID
    ensures r.Success? ==> WalkInv(r.value) && r.value.clab.id != ""
    ensures r.Success? ==> r.value.clab.title == ds.clab.title && r.value.clab.steps == ds.clab.steps
  {
    match Metadata.ParseMetadata(d, ds.clab, pass)
    case Failure(err) => Failure(err)
    case Success(c) =>
      var r := ds.(clab := c);
      assert forall x :: x in ds.clab.tags ==> x in c.tags;
      Success(r)
  }

  /** Starting a step keeps the walk's invariant. */
  function StartStep(ds: DocState, title: string): (r: DocState)
    requires WalkInv(ds)
    ensures WalkInv(r) && r == DocStates.NewStep(ds, title)
  {
    var r := DocStates.NewStep(ds, title);
    assert title != "" && HasStep(ds) ==>
      r.clab.steps[|ds.clab.steps| - 1].tags == FinalizeStep(CurrentStep(ds)).tags;
    r
  }

  /** A run of step instructions at the top level keeps the invariant. */
  function WalkMeta(ds: DocState, text: string): (r: DocState)
    requires WalkInv(ds) && HasStep(ds)
    ensures WalkInv(r) && HasStep(r) && Frame(ds, r) && r == MetaStep(ds, text)
  {
    var r := MetaStep(ds, text);
    FrameKeeps(ds, r);
    r
  }

  /** A top-level element walked into the current step keeps the
      invariant. */
  function WalkTop(ds: DocState, e: Elem): (r: DocState)
    requires WalkInv(ds) && HasStep(ds) && !e.Meta?
    ensures WalkInv(r) && HasStep(r) && Frame(ds, r) && r == ParseTop(ds, e)
  {
    var r := ParseTop(ds, e);
    FrameKeeps(ds, r);
    r
  }

  /** The codelab once the body is walked: the last step is finalized, the
      codelab's tags made sorted and distinct, and the total duration
      given in whole minutes. */
  function Finish(ds: DocState): (c: Codelab)
    requires WalkInv(ds)
    ensures forall i :: 0 <= i < |c.steps| ==> StrictlySorted(c.steps[i].tags)
    ensures StrictlySorted(c.tags)
    ensures forall x :: x in c.tags <==> x in ds.clab.tags
    ensures Covered(c)
    ensures c.duration * Minute == ds.totdur
    ensures Titles(c.steps) == Titles(ds.clab.steps)
    ensures c.(steps := ds.clab.steps, tags := ds.clab.tags, duration := ds.clab.duration) == ds.clab
  {
    var steps := FinalizeLast(ds.clab.steps);
    FinalizeLastTags(ds.clab.steps);
    WholeMinutes(ds.totdur);
    ds.clab.(steps := steps, tags := Normalize(ds.clab.tags), duration := TruncDiv(ds.totdur, Minute))
  }

  /** Finalizing the last step leaves every step with sorted, distinct tags
      and the same tags as a set. */
  lemma FinalizeLastTags(steps: seq<Step>)
    requires EarlierFinal(steps)
    ensures forall i :: 0 <= i < |steps| ==> StrictlySorted(FinalizeLast(steps)[i].tags)
    ensures forall i, x :: 0 <= i < |steps| ==> (x in FinalizeLast(steps)[i].tags <==> x in steps[i].tags)
  {
    forall i | 0 <= i < |steps|
      ensures StrictlySorted(FinalizeLast(steps)[i].tags)
      ensures forall x :: x in FinalizeLast(steps)[i].tags <==> x in steps[i].tags
    {
      FinalizeLastAt(steps, i);
    }
  }

  lemma FinalizeLastAt(steps: seq<Step>, i: nat)
    requires EarlierFinal(steps) && i < |steps|
    ensures StrictlySorted(FinalizeLast(steps)[i].tags)
    ensures forall x :: x in FinalizeLast(steps)[i].tags <==> x in steps[i].tags
  {
    var r := FinalizeLast(steps);
    if i < |steps| - 1 {
      assert r[i] == steps[i];
    } else {
      assert r[i] == FinalizeStep(steps[i]);
    }
  }

  /** A total that is a whole number of minutes divides exactly. */
  lemma WholeMinutes(d: int)
    requires d % Minute == 0
    ensures TruncDiv(d, Minute) * Minute == d
  {
    var q := TruncDiv(d, Minute);
    var k := d / Minute;
    assert d == k * Minute;
    if d >= 0 {
      assert q * Minute <= k * Minute < q * Minute + Minute;
      assert q <= k < q + 1;
    } else {
      assert q * Minute - Minute < k * Minute <= q * Minute;
      assert q - 1 < k <= q;
    }
  }

  /** Parses a whole codelab out of the document body. */
  function ParseMarkup(body: Option<seq<Elem>>, pass: set<string>): (r: Result<Codelab, string>)
    ensures body.None? ==> r == Failure(ErrNoBody)
    ensures r.Success? ==> StrictlySorted(r.value.tags)
    ensures r.Success? ==> forall i :: 0 <= i < |r.value.steps| ==> StrictlySorted(r.value.steps[i].tags)
    ensures r.Success? ==> Covered(r.value)
  {
    match body
    case None => Failure(ErrNoBody)
    case Some(es) =>
      var ds := NewDocState();
      assert WalkInv(ds);
      match ParseBody(ds, es, pass)
      case Failure(err) => Failure(err)
      case Success(ds') => Success(Finish(ds'))
  }

  /** Whether a metadata block has a line setting a non-empty id, the last
      such line counting. */
  predicate SetsId(d: string) {
    var es := Metadata.Entries(Metadata.ScanLines(d));
    exists i :: 0 <= i < |es| && Metadata.LastSetter(es, i, Metadata.MetaID) && es[i].value.value != ""
  }

  /** Whether the first paragraph of `es` is a metadata block that does not
      set an id. */
  predicate MetadataFails(es: seq<Elem>) {
    es != [] && (if es[0].Para? then !SetsId(es[0].data) else MetadataFails(es[1..]))
  }

  /** The text of the first level-1 heading with text, or "" without one. */
  function FirstTitle(es: seq<Elem>): string {
    if es == [] then ""
    else if es[0].Heading? && es[0].level == 1 && es[0].text != "" then es[0].text
    else FirstTitle(es[1..])
  }

  /** The texts of the level-2 headings with text, in document order. */
  function StepTitles(es: seq<Elem>): (r: seq<string>)
    ensures forall t :: t in r ==> t != ""
  {
    if es == [] then []
    else
      var head := if es[0].Heading? && es[0].level == 2 && es[0].text != "" then [es[0].text] else [];
      head + StepTitles(es[1..])
  }

  /** A run of instructions holds no heading and no paragraph. */
  lemma {:induction false} SkipRun(es: seq<Elem>, n: nat)
    requires n <= |es| && forall i :: 0 <= i < n ==> es[i].Meta?
    ensures MetadataFails(es) == MetadataFails(es[n..])
    ensures FirstTitle(es) == FirstTitle(es[n..])
    ensures StepTitles(es) == StepTitles(es[n..])
  {
    if n > 0 {
      SkipRun(es[1..], n - 1);
      assert es[1..][n - 1..] == es[n..];
    }
  }

  /** Before the first step, anything but the title heading, the metadata
      paragraph and a step heading is discarded without a trace. */
  lemma AdvanceBeforeStep(ds: DocState, es: seq<Elem>, pass: set<string>)
    requires WalkInv(ds) && es != [] && !HasStep(ds)
    requires !(es[0].Heading? && es[0].level == 2)
    requires !(es[0].Heading? && es[0].level == 1 && ds.clab.title == "")
    requires !(es[0].Para? && ds.clab.id == "")
    ensures Advance(ds, es, pass) == Success((ds, 1))
  {
  }

  /** Once the id is set, a round keeps it and cannot fail. */
  lemma AdvanceKeepsId(ds: DocState, es: seq<Elem>, pass: set<string>)
    requires WalkInv(ds) && es != [] && ds.clab.id != ""
    ensures Advance(ds, es, pass).Success?
    ensures Advance(ds, es, pass).value.0.clab.id == ds.clab.id
  {
  }

  /** Before the id is set, a round fails exactly on a paragraph that sets
      no id; otherwise the id stays unset until a paragraph sets it. */
  lemma AdvanceFails(ds: DocState, es: seq<Elem>, pass: set<string>)
    requires WalkInv(ds) && es != [] && ds.clab.id == ""
    ensures Advance(ds, es, pass).Failure? <==> es[0].Para? && !SetsId(es[0].data)
    ensures Advance(ds, es, pass).Failure? ==> Advance(ds, es, pass).error == Metadata.ErrMissingID
    ensures Advance(ds, es, pass).Success? && !es[0].Para? ==>
      var (ds1, n) := Advance(ds, es, pass).value;
      ds1.clab.id == "" && MetadataFails(es[n..]) == MetadataFails(es)
    ensures Advance(ds, es, pass).Success? && es[0].Para? ==>
      Advance(ds, es, pass).value.0.clab.id != "" && !MetadataFails(es)
  {
    var e := es[0];
    if e.Para? {
      Metadata.ParseMetadataId(e.data, ds.clab, pass);
    } else if HasStep(ds) && e.Meta? {
      SkipRun(es, MetaRun(es));
    }
  }

  /** A round moves the title forward consistently with FirstTitle. */
  lemma AdvanceTitle(ds: DocState, es: seq<Elem>, pass: set<string>)
    requires WalkInv(ds) && es != [] && Advance(ds, es, pass).Success?
    ensures
      var (ds1, n) := Advance(ds, es, pass).value;
      (if ds1.clab.title != "" then ds1.clab.title else FirstTitle(es[n..]))
      == (if ds.clab.title != "" then ds.clab.title else FirstTitle(es))
  {
    var e := es[0];
    if !(e.Heading? && e.level == 1 && ds.clab.title == "") && !(e.Para? && ds.clab.id == "")
      && !(e.Heading? && e.level == 2) && HasStep(ds) && e.Meta? {
      SkipRun(es, MetaRun(es));
    }
  }

  /** A round adds a step exactly for a level-2 heading with text. */
  lemma AdvanceSteps(ds: DocState, es: seq<Elem>, pass: set<string>)
    requires WalkInv(ds) && es != [] && Advance(ds, es, pass).Success?
    ensures
      var (ds1, n) := Advance(ds, es, pass).value;
      Titles(ds1.clab.steps) + StepTitles(es[n..]) == Titles(ds.clab.steps) + StepTitles(es)
  {
    var e := es[0];
    var (ds1, n) := Advance(ds, es, pass).value;
    if e.Heading? && e.level == 1 && ds.clab.title == "" {
      KeepSteps(ds.clab.steps, ds1.clab.steps, es);
    } else if e.Para? && ds.clab.id == "" {
      KeepSteps(ds.clab.steps, ds1.clab.steps, es);
    } else if e.Heading? && e.level == 2 {
      if e.text != "" {
        AddStep(ds.clab.steps, ds1.clab.steps, es);
      } else {
        KeepSteps(ds.clab.steps, ds1.clab.steps, es);
      }
    } else if !HasStep(ds) {
      KeepSteps(ds.clab.steps, ds1.clab.steps, es);
    } else if e.Meta? {
      SkipRun(es, n);
    } else {
      KeepSteps(ds.clab.steps, ds1.clab.steps, es);
    }
  }

  lemma KeepSteps(steps: seq<Step>, steps1: seq<Step>, es: seq<Elem>)
    requires es != [] && Titles(steps1) == Titles(steps)
    requires !(es[0].Heading? && es[0].level == 2 && es[0].text != "")
    ensures Titles(steps1) + StepTitles(es[1..]) == Titles(steps) + StepTitles(es)
  {
    assert StepTitles(es) == [] + StepTitles(es[1..]);
  }

  lemma AddStep(steps: seq<Step>, steps1: seq<Step>, es: seq<Elem>)
    requires es != [] && es[0].Heading? && es[0].level == 2 && es[0].text != ""
    requires Titles(steps1) == Titles(steps) + [es[0].text]
    ensures Titles(steps1) + StepTitles(es[1..]) == Titles(steps) + StepTitles(es)
  {
    assert StepTitles(es) == [es[0].text] + StepTitles(es[1..]);
    assert (Titles(steps) + [es[0].text]) + StepTitles(es[1..])
        == Titles(steps) + ([es[0].text] + StepTitles(es[1..]));
  }

  /** Once the id is set, the walk cannot fail. */
  lemma {:induction false} ParseBodySucceeds(ds: DocState, es: seq<Elem>, pass: set<string>)
    requires WalkInv(ds) && ds.clab.id != ""
    ensures ParseBody(ds, es, pass).Success?
    ensures ParseBody(ds, es, pass).value.clab.id == ds.clab.id
    decreases |es|
  {
    if es != [] {
      AdvanceKeepsId(ds, es, pass);
      var (ds1, n) := Advance(ds, es, pass).value;
      ParseBodySucceeds(ds1, es[n..], pass);
    }
  }

  /** Before the id is set, the walk fails exactly when the first paragraph
      sets no id, and then with the missing-id error. */
  lemma {:induction false} ParseBodyFails(ds: DocState, es: seq<Elem>, pass: set<string>)
    requires WalkInv(ds) && ds.clab.id == ""
    ensures ParseBody(ds, es, pass).Failure? <==> MetadataFails(es)
    ensures ParseBody(ds, es, pass).Failure? ==> ParseBody(ds, es, pass).error == Metadata.ErrMissingID
    decreases |es|
  {
    if es != [] {
      AdvanceFails(ds, es, pass);
      if Advance(ds, es, pass).Success? {
        var (ds1, n) := Advance(ds, es, pass).value;
        if es[0].Para? {
          ParseBodySucceeds(ds1, es[n..], pass);
        } else {
          ParseBodyFails(ds1, es[n..], pass);
        }
      }
    }
  }

  /** The title is the first level-1 heading with text, unless one was
      already read. */
  lemma {:induction false} ParseBodyTitle(ds: DocState, es: seq<Elem>, pass: set<string>)
    requires WalkInv(ds) && ParseBody(ds, es, pass).Success?
    ensures ParseBody(ds, es, pass).value.clab.title ==
      if ds.clab.title != "" then ds.clab.title else FirstTitle(es)
    decreases |es|
  {
    if es != [] {
      AdvanceTitle(ds, es, pass);
      var (ds1, n) := Advance(ds, es, pass).value;
      ParseBodyTitle(ds1, es[n..], pass);
    }
  }

  /** Steps are made from the level-2 headings with text, in order, and from
      nothing else. */
  lemma {:induction false} ParseBodySteps(ds: DocState, es: seq<Elem>, pass: set<string>)
    requires WalkInv(ds) && ParseBody(ds, es, pass).Success?
    ensures Titles(ParseBody(ds, es, pass).value.clab.steps) == Titles(ds.clab.steps) + StepTitles(es)
    decreases |es|
  {
    if es != [] {
      AdvanceSteps(ds, es, pass);
      var (ds1, n) := Advance(ds, es, pass).value;
      ParseBodySteps(ds1, es[n..], pass);
    }
  }

  /** A codelab fails to parse exactly when its first paragraph, the
      metadata block, sets no id. */
  lemma ParseMarkupFails(es: seq<Elem>, pass: set<string>)
    ensures ParseMarkup(Some(es), pass).Failure? <==> MetadataFails(es)
    ensures ParseMarkup(Some(es), pass).Failure? ==> ParseMarkup(Some(es), pass).error == Metadata.ErrMissingID
  {
    ParseBodyFails(NewDocState(), es, pass);
  }

  /** A parsed codelab's title is its first level-1 heading with text, and
      its steps are titled by its level-2 headings with text, in order. */
  lemma ParseMarkupOutline(es: seq<Elem>, pass: set<string>)
    requires ParseMarkup(Some(es), pass).Success?
    ensures ParseMarkup(Some(es), pass).value.title == FirstTitle(es)
    ensures Titles(ParseMarkup(Some(es), pass).value.steps) == StepTitles(es)
  {
    var ds := NewDocState();
    ParseBodyTitle(ds, es, pass);
    ParseBodySteps(ds, es, pass);
  }

  /** An h1 or h2, which a fragment may not contain. */
  predicate IsStepHeading(e: Elem) {
    e.Heading? && (e.level == 1 || e.level == 2)
  }

  /** The loop over a fragment's body: everything is walked into the one
      fragment step, and an h1 or h2 ends the parse with an error. */
  function ParseFragmentBody(ds: DocState, es: seq<Elem>): (r: Result<DocState, string>)
    requires Valid(ds) && HasStep(ds)
    ensures r.Success? ==> Valid(r.value) && Frame(ds, r.value)
    ensures r.Failure? ==> r.error == ErrForbiddenFragmentSteps
    decreases |es|
  {
    if es == [] then (FrameRefl(ds); Success(ds))
    else if IsStepHeading(es[0]) then Failure(ErrForbiddenFragmentSteps)
    else
      var (ds1, n) := FragmentAdvance(ds, es);
      match ParseFragmentBody(ds1, es[n..])
      case Failure(err) => Failure(err)
      case Success(ds2) => (FrameTrans(ds, ds1, ds2); Success(ds2))
  }

  /** One round of the fragment loop, past an element that is not a step
      heading, or past the run of instructions it starts. */
  function FragmentAdvance(ds: DocState, es: seq<Elem>): (r: (DocState, nat))
    requires Valid(ds) && HasStep(ds) && es != [] && !IsStepHeading(es[0])
    ensures Valid(r.0) && Frame(ds, r.0) && 1 <= r.1 <= |es|
    ensures forall i :: 0 <= i < r.1 ==> !IsStepHeading(es[i])
    ensures !es[0].Meta? ==> r == (ParseTop(ds, es[0]), 1)
  {
    if es[0].Meta? then
      var n := MetaRun(es);
      (MetaStep(ds, RunText(es, n)), n)
    else (ParseTop(ds, es[0]), 1)
  }

  /** Parses a fragment, a piece of content meant to be imported into a
      codelab: it has no steps of its own and imports nothing. */
  function ParsePartialMarkup(body: Option<seq<Elem>>): (r: Result<seq<Node>, string>)
    ensures body.None? ==> r == Failure(ErrNoBody)
    ensures r.Success? ==> !HasImport(r.value)
  {
    match body
    case None => Failure(ErrNoBody)
    case Some(es) =>
      var ds := DocStates.NewStep(NewDocState(), "fragment");
      match ParseFragmentBody(ds, es)
      case Failure(err) => Failure(err)
      case Success(ds1) =>
        var step := FinalizeStep(CurrentStep(ds1));
        if HasImport(step.content) then Failure(ErrForbiddenFragmentImports)
        else Success(step.content)
  }

  /** The fragment loop fails exactly when an h1 or h2 occurs. */
  lemma {:induction false} FragmentBodyFails(ds: DocState, es: seq<Elem>)
    requires Valid(ds) && HasStep(ds)
    ensures ParseFragmentBody(ds, es).Failure? <==> exists i :: 0 <= i < |es| && IsStepHeading(es[i])
    decreases |es|
  {
    if es != [] && !IsStepHeading(es[0]) {
      var (ds1, n) := FragmentAdvance(ds, es);
      FragmentBodyFails(ds1, es[n..]);
      HeadingAfter(es, n);
    }
  }

  /** Past a prefix without step headings, the step headings are those of
      the rest. */
  lemma HeadingAfter(es: seq<Elem>, n: nat)
    requires n <= |es| && forall i :: 0 <= i < n ==> !IsStepHeading(es[i])
    ensures (exists i :: 0 <= i < |es| && IsStepHeading(es[i]))
      <==> (exists i :: 0 <= i < |es[n..]| && IsStepHeading(es[n..][i]))
  {
    if exists i :: 0 <= i < |es| && IsStepHeading(es[i]) {
      var i :| 0 <= i < |es| && IsStepHeading(es[i]);
      assert IsStepHeading(es[n..][i - n]);
    }
    if exists i :: 0 <= i < |es[n..]| && IsStepHeading(es[n..][i]) {
      var i :| 0 <= i < |es[n..]| && IsStepHeading(es[n..][i]);
      assert IsStepHeading(es[n + i]);
    }
  }

  /** A fragment is rejected for defining steps exactly when it holds an h1
      or an h2; one without them either gives its import-free content or is
      rejected for importing. */
  lemma FragmentErrors(es: seq<Elem>)
    ensures ParsePartialMarkup(Some(es)) == Failure(ErrForbiddenFragmentSteps) <==>
      exists i :: 0 <= i < |es| && IsStepHeading(es[i])
    ensures ParsePartialMarkup(Some(es)).Success? ==> forall i :: 0 <= i < |es| ==> !IsStepHeading(es[i])
    ensures (forall i :: 0 <= i < |es| ==> !IsStepHeading(es[i])) ==>
      ParsePartialMarkup(Some(es)).Success? || ParsePartialMarkup(Some(es)) == Failure(ErrForbiddenFragmentImports)
  {
    var ds := DocStates.NewStep(NewDocState(), "fragment");
    FragmentBodyFails(ds, es);
  }

  /** The nodes a sequence of leaf elements gives. */
  function LeafNodes(es: seq<Elem>): seq<Node>
    requires forall i :: 0 <= i < |es| ==> es[i].Leaf?
  {
    if es == [] then []
    else (if es[0].built.Some? then [es[0].built.value] else []) + LeafNodes(es[1..])
  }

  /** Without instructions, the fragment loop appends each leaf's node as
      built, in order. */
  lemma {:induction false} FragmentBodyOfLeaves(ds: DocState, es: seq<Elem>)
    requires Valid(ds) && HasStep(ds) && ds.env == []
    requires forall i :: 0 <= i < |es| ==> es[i].Leaf?
    ensures ParseFragmentBody(ds, es).Success?
    ensures CurrentStep(ParseFragmentBody(ds, es).value).content == CurrentStep(ds).content + LeafNodes(es)
    decreases |es|
  {
    if es != [] {
      var (ds1, n) := FragmentAdvance(ds, es);
      LeafAppends(ds, es[0]);
      FragmentBodyOfLeaves(ds1, es[1..]);
      assert ParseFragmentBody(ds, es) == ParseFragmentBody(ds1, es[1..]);
      var o := if es[0].built.Some? then [es[0].built.value] else [];
      assert LeafNodes(es) == o + LeafNodes(es[1..]);
      ConcatAssoc(CurrentStep(ds).content, o, LeafNodes(es[1..]));
    }
  }

  lemma ConcatAssoc<T>(a: seq<T>, b: seq<T>, c: seq<T>)
    ensures (a + b) + c == a + (b + c)
  {
  }

  /** A leaf at the top level appends its node, if any, unchanged when no
      environment is set. */
  lemma LeafAppends(ds: DocState, e: Elem)
    requires Valid(ds) && HasStep(ds) && ds.env == [] && e.Leaf?
    ensures ParseTop(ds, e).env == []
    ensures CurrentStep(ParseTop(ds, e)).content ==
      CurrentStep(ds).content + (if e.built.Some? then [e.built.value] else [])
  {
    var o := if e.built.Some? then [e.built.value] else [];
    assert ParseTop(ds, e) == AppendNodes(ds, o);
    if e.built.Some? {
      AppendNodesNoEnv(ds, o);
    }
  }

  /** A fragment of leaf elements is their nodes, unless one is an import. */
  lemma FragmentOfLeaves(es: seq<Elem>)
    requires forall i :: 0 <= i < |es| ==> es[i].Leaf?
    ensures ParsePartialMarkup(Some(es)) ==
      if HasImport(LeafNodes(es)) then Failure(ErrForbiddenFragmentImports) else Success(LeafNodes(es))
  {
    var ds := DocStates.NewStep(NewDocState(), "fragment");
    assert CurrentStep(ds).content == [] && ds.env == [];
    FragmentBodyOfLeaves(ds, es);
    var ds1 := ParseFragmentBody(ds, es).value;
    assert FinalizeStep(CurrentStep(ds1)).content == LeafNodes(es);
  }
}

=== FILE: wrappers.dfy ===
/** Optional and error-carrying results, used for the parser's degrade-to-nothing
    builders and for its few fatal error conditions. */
module Wrappers {

  datatype Option<+T> = None | Some(value: T) {

    /** Returns the value held in Some, or the default when None. */
    function GetOr(default: T): T {
      match this
      case Some(v) => v
      case None => default
    }
  }

  datatype Result<+R, +E> = Success(value: R) | Failure(error: E)
}
